=== FILE: README.md ===
# Onboarding portal — a verified model of its phase state machine

The portal brings new customers of an agency through onboarding. They
register and wait for approval. They then log in, watch the intro videos,
fill in a checklist and move through the phases `onboarding → landingpage
→ ads → whatsapp → webinar`. An admin moves them along a tracking board.
This project models that phase state machine in Dafny, together with the
validators, filters and cursors around it, and proves properties of the
model.

The modules follow the program's files:

- `Phases` covers the dashboard's progress percentage and roadmap check
  marks, and the admin board's next/previous/all-previous phase helpers.
  Phases are arbitrary strings and are lower-cased where the program does so.
- `Schema` holds the tables with their column defaults and the store
  invariant (unique e-mail, users' companies exist, tokens belong to users).
  A table is a map from id to row, plus the next id to hand out.
- `AuthRoutes` holds the session guards, registration, the customer login
  gate and the own-checklist read rule.
- `OnboardingRoutes` holds:
  - the two legacy completion handlers (checklist and intro videos);
  - wizard completion;
  - the effective checklist save;
  - the admin phase update.
- `CallbackRoutes` holds the one-hour callback rate limit and the
  referral-statistics fold.
- `PasswordReset` holds the token lifecycle: request, verify and reset.
- `Tracking` holds the tracking list's de-duplication and empty-field
  stripping, the board's optimistic next/previous updates, and its search.
- `CustomersPage`, `CustomerDetails`, `TagInput`, `Upload`,
  `OnboardingWizard`, `TutorialList`, `ResetPage`, `SettingsPages` and
  `Forms` model the pages and the upload middleware of the same names.
  `Forms` covers the zod schemas of the registration, reset and settings
  forms.
- `Text`, `Seqs` and `Wrappers` are helpers. `Text` models the JavaScript
  string built-ins the program uses: ASCII `toLowerCase`, `trim`,
  `includes`, `split`, `join`, `lastIndexOf`-based slicing and decimal
  printing. `Seqs` covers `filter`, `includes`, `indexOf` and
  push-if-absent.

Each server handler is a pure function from the store, the session's user
id, the request and `now` to a status and a new store. `now` is an integer
count of milliseconds. Each handler runs as one atomic step. Bcrypt's
comparison, password hashes, random tokens and UUIDs, and zod's e-mail
check are parameters.

## Model

| member | source | states |
|---|---|---|
| Phases.PhaseIndex | client/src/pages/admin/Tracking.tsx:68-69 | the position of the lower-cased phase in the five-phase sequence, or -1 exactly when it is not there |
| Phases.PhaseIndexOfSequence | client/src/pages/admin/Tracking.tsx:68-69 | each canonical phase is found at its own position |
| Phases.PhaseIndexOfLower | client/src/pages/admin/Tracking.tsx:69 | the lookup ignores the case of the phase |
| Phases.CalculateProgress | client/src/components/dashboard/OnboardingProgress.tsx:57-78 | 0 without the "onboarding" marker; with it, 20 times the phase's position plus one, and 20 for an unknown phase |
| Phases.ProgressValues | client/src/components/dashboard/OnboardingProgress.tsx:57-78 | the percentage is always one of 0, 20, 40, 60, 80 or 100 |
| Phases.ProgressIgnoresPhaseCase | client/src/components/dashboard/OnboardingProgress.tsx:60 | the current phase is matched case-insensitively |
| Phases.MarkerIsCaseSensitive | client/src/components/dashboard/OnboardingProgress.tsx:59 | the marker test is case-sensitive: "Onboarding" does not count, so "webinar" then shows 0 rather than 100 |
| Phases.PhaseRank | client/src/components/dashboard/OnboardingProgress.tsx:86-94 | the rank is the phase's position plus one, and 1 for an unknown phase |
| Phases.IsStepCompleted | client/src/components/dashboard/OnboardingProgress.tsx:80-96 | step 1 is checked exactly when "onboarding" is completed; a later step exactly when the current phase sits at or after its position in the sequence, and only step numbers up to 1 for an unknown phase |
| Phases.StepOneIsTheMarker | client/src/components/dashboard/OnboardingProgress.tsx:82-84 | roadmap step 1 is checked exactly when "onboarding" is completed, whatever the current phase |
| Phases.LaterStepsFollowRank | client/src/components/dashboard/OnboardingProgress.tsx:86-95 | step 2 to 5 is checked exactly when its id is at most the current phase's rank; none is checked for an unknown phase |
| Phases.StepsDownwardClosed | client/src/components/dashboard/OnboardingProgress.tsx:94-95 | when step j is checked, so is every step from 2 up to j |
| Phases.StepsAgreeWithProgress | client/src/components/dashboard/OnboardingProgress.tsx:57-95 | once onboarding is completed, step id is checked exactly when the bar reaches 20 times id |
| Phases.Roadmap | client/src/components/dashboard/OnboardingProgress.tsx:122-129 | one check mark per default step |
| Phases.RoadmapShape | client/src/components/dashboard/OnboardingProgress.tsx:122-129 | the first mark is the marker test and mark k is set exactly when k + 1 is at most the phase's rank |
| Phases.DefaultStepIds | client/src/components/dashboard/OnboardingProgress.tsx:24-55 | the default steps are numbered 1 to 5 in order |
| Phases.NextPhase | client/src/pages/admin/Tracking.tsx:67-71 | below the last phase the result is a phase one position further on (an unknown phase counting as position -1); the last phase stays |
| Phases.PreviousPhase | client/src/pages/admin/Tracking.tsx:73-77 | after the first phase the result is the phase one position back; the first phase and unknown ones stay |
| Phases.AllPreviousPhases | client/src/pages/admin/Tracking.tsx:79-83 | a prefix of the sequence: as many phases as the known phase's position, or all but the last for an unknown one |
| Phases.NeighbourPhases | client/src/pages/admin/Tracking.tsx:67-77 | next and previous step through the sequence; "webinar" has no next and "onboarding" no previous, so both return their input; an unknown phase's next is "onboarding" and its previous is itself |
| Phases.PreviousAfterNext | client/src/pages/admin/Tracking.tsx:67-77 | going back after going forward returns the lower-cased phase, for every phase but the last |
| Phases.NextAfterPrevious | client/src/pages/admin/Tracking.tsx:67-77 | going forward after going back returns the lower-cased phase, for every phase but the first |
| Phases.PreviousAfterNextCanonical | client/src/pages/admin/Tracking.tsx:67-77 | for the first four canonical phases, previous after next is the identity |
| Phases.NextPhaseNonEmpty | client/src/pages/admin/Tracking.tsx:86-87 | the next phase is never empty, so the board's `if (nextPhase)` never stops a move |
| Phases.PreviousPhaseEmpty | client/src/pages/admin/Tracking.tsx:105-106 | the previous phase is empty only for the empty phase |
| Phases.SliceEnd | client/src/pages/admin/Tracking.tsx:81-82 | `slice`'s end bound: a bound inside the list is kept and a negative one counts from the back |
| Phases.AllPreviousPhasesShape | client/src/pages/admin/Tracking.tsx:79-83 | the phases before a known phase form the prefix up to it (empty for "onboarding"); for an unknown phase they are the first four, because -1 is truthy |
| Phases.AllPreviousExcludesPhase | client/src/pages/admin/Tracking.tsx:79-83 | a known phase is not among its own previous phases |
| Phases.AllPreviousOfSequence | client/src/pages/admin/Tracking.tsx:79-83 | the phases before canonical phase k are the first k |
| Phases.AllPreviousOfNext | client/src/pages/admin/Tracking.tsx:67-83 | moving one phase forward adds exactly the phase left behind to the previous phases |
| Tracking.StripEmpty | server/routes.ts:400-408 | keeps exactly the checklist fields that are not empty (`''`, `'{}'` or null), with their values |
| Tracking.StripEmptyIdempotent | server/routes.ts:400-408 | stripping twice is stripping once |
| Tracking.Clean | server/routes.ts:399-410 | a row keeps its id and columns, and its checklist, if any, is stripped |
| Tracking.Dedup | server/routes.ts:396-413 | the de-duplicated list is no longer than the rows |
| Tracking.DedupRows | server/routes.ts:396-413 | the loop computes the de-duplication; its ids are distinct and are exactly the rows' ids; each customer appears as its first row, cleaned, in first-row order |
| Tracking.DedupDistinct | server/routes.ts:396-413 | no customer id appears twice |
| Tracking.DedupCovers | server/routes.ts:396-413 | every customer in the rows appears and no other |
| Tracking.DedupFirstOccurrences | server/routes.ts:396-413 | each kept row is its customer's first row, cleaned, in the order of the first rows |
| Tracking.MapCustomer | client/src/pages/admin/Tracking.tsx:89-90 | the cached list keeps its length; only the entries with the card's id are changed |
| Tracking.Advanced | client/src/pages/admin/Tracking.tsx:90-94 | the customer moves to the next phase and the phase left behind is appended to the completed ones |
| Tracking.Retreated | client/src/pages/admin/Tracking.tsx:109-113 | the customer moves back; the phase left is no longer completed and the rest keep their order |
| Tracking.HandleNextPhase | client/src/pages/admin/Tracking.tsx:85-102 | always posts the next phase, with the advanced entry for the progress cache and the customer list |
| Tracking.HandlePreviousPhase | client/src/pages/admin/Tracking.tsx:104-121 | does nothing only for an empty phase; otherwise posts the previous phase with the retreated entry |
| Tracking.CardTouchesOnlyItsCustomer | client/src/pages/admin/Tracking.tsx:89-114 | other customers in the cache are unchanged by either button |
| Tracking.NextThenPreviousKeepsLeftPhase | client/src/pages/admin/Tracking.tsx:85-121 | next then previous returns to the lower-cased phase but leaves it recorded as completed |
| Tracking.NextPhaseMoves | client/src/pages/admin/Tracking.tsx:67-71 | the next of any phase but the last is a different phase |
| Tracking.OptimisticNextDisagreesWithServer | client/src/pages/admin/Tracking.tsx:89-94 | the board records the phase it left and the server the phase it moved to, so from an empty list the two disagree |
| Tracking.SearchCustomers | client/src/pages/admin/Tracking.tsx:206-209 | keeps, in order, exactly the customers whose lower-cased "first last email" contains the lower-cased term |
| Tracking.EmptySearchKeepsAll | client/src/pages/admin/Tracking.tsx:206-209 | an empty term keeps everyone in the original order |
| Tracking.SearchIgnoresCase | client/src/pages/admin/Tracking.tsx:206-209 | the search ignores the case of the term |
| Schema.Insert | db/schema.ts:15 | a serial id: the new row gets a key not used before and the others stay |
| Schema.UserRow | db/schema.ts:14-31 | a new user carries the given e-mail, password, names and company, no image, and the insertion time |
| Schema.UserDefaults | db/schema.ts:21-31 | the column defaults: role customer, not approved, onboarding not completed, first login, phase "Checkliste", no completed phases, progress 0 |
| Schema.UserValuesOverride | db/schema.ts:21-31 | each value given on insert replaces its default |
| Schema.CallbackRow | db/schema.ts:79-85 | a callback's status is "pending" when none is given, and the given status otherwise |
| Schema.ReferralRow | db/schema.ts:70-77 | a referral's status is "pending" when none is given, and the given status otherwise; it has no referred user yet |
| Schema.ProgressRowOf | db/schema.ts:52-58 | tutorial progress is not completed when no value is given, and the given value otherwise |
| Schema.ResetTokenRow | db/schema.ts:118-125 | a reset token is unused when no value is given, and the given value otherwise |
| Schema.ChecklistRow | db/schema.ts:94-116 | a checklist row exists exactly when the not-null fields are given; it carries every given column, and the nullable ones stay empty when not given |
| Schema.EmptyStoreValid | db/schema.ts:16-20 | the empty store meets the invariant |
| Schema.UserByEmail | server/routes.ts:95-97 | finds a user with this e-mail, or reports that none has it |
| Schema.UserByEmailUnique | db/schema.ts:16 | with unique e-mails, the lookup finds exactly the user that has the address |
| Schema.UpdateUserValid | db/schema.ts:16-20 | changing one user keeps the invariant when its e-mail and company stay |
| Schema.ReplaceUsersValid | db/schema.ts:16-20 | replacing the users keeps the invariant when ids, e-mails and companies stay |
| Schema.ReplaceTokensValid | db/schema.ts:118-120 | replacing the tokens keeps the invariant when every token's user exists |
| AuthRoutes.RequireAuth | server/routes.ts:37-59 | admits exactly a session whose user exists; otherwise 401, and a session naming a missing user is cleared |
| AuthRoutes.RequireAdmin | server/routes.ts:62-83 | admits exactly a session whose user exists and is an admin; 401 without a session, else 403 |
| AuthRoutes.AdminGuardImpliesAuth | server/routes.ts:37-83 | whoever passes the admin guard passes the user guard as the same user |
| AuthRoutes.RefusedSessionStaysRefused | server/routes.ts:37-51 | after a refusal the session left behind is refused again |
| AuthRoutes.Register | server/routes.ts:90-134 | 400 exactly when the e-mail is taken, with nothing changed; a free address without password or company name gives 500 with nothing changed, and without first or last name 500 with only the company stored; a complete body stores one new company and one new unapproved customer at phase "onboarding", progress 0, no completed phases, with all other tables unchanged, answered 200 when the welcome mail goes out and 500 when it fails |
| AuthRoutes.RegisterKeepsValid | server/routes.ts:95-124 | registration keeps the store invariant and adds exactly the one user |
| AuthRoutes.RegisterTwiceRefused | server/routes.ts:95-101 | registering the same e-mail again is refused |
| AuthRoutes.MissingNameLeavesOrphanCompany | server/routes.ts:106-124 | a body without a last name answers 500 yet stores a company no user belongs to, and a complete retry stores a second company |
| AuthRoutes.MailFailureStillRegisters | server/routes.ts:126-132 | when the welcome mail fails the client sees 500, yet the user is stored, so retrying with the same address is refused as taken |
| AuthRoutes.Login | server/routes.ts:136-181 | a missing password for an approved customer makes the password comparison throw, giving 500 "Interner Serverfehler"; every other failure is 401; no failure touches session or store, and "not yet approved" is reported exactly for an existing unapproved customer; success signs in the approved customer with that e-mail and matching password, clears the first-login flag, and redirects to onboarding exactly when it is not completed |
| AuthRoutes.LoginSucceedsIff | server/routes.ts:140-159 | with unique e-mails, login succeeds exactly for an approved customer whose password is present and matches |
| AuthRoutes.LoginKeepsValid | server/routes.ts:161-167 | login keeps the store invariant |
| AuthRoutes.ReadChecklist | server/routes.ts:2360-2385 | a checklist is returned exactly on 200, to its owner or an admin; 401 without a user; 404 only when the user has no checklist |
| AuthRoutes.ChecklistOwnerOnly | server/routes.ts:2365-2377 | a customer gets 403 for someone else's checklist and always finds their own |
| OnboardingRoutes.LegacySaveChecklist | server/routes.ts:423-497 | 401 without a user and 500 when a required field is missing; otherwise one checklist row from the request is added at the next id, the checklist marker is appended, unless the video marker is there, in which case onboarding completes at 100 with a fixed phase list, and no other user or table changes |
| OnboardingRoutes.LegacySaveStoredRow | server/routes.ts:442-461 | the stored row carries the posted fields, no payment method, empty selling point and market size, an empty interest list when none is posted, and `{}` for the two unused sections |
| OnboardingRoutes.LegacyFinishVideos | server/routes.ts:500-546 | the mirror image: the video marker is appended, or onboarding completes at 100 when the checklist marker is there |
| OnboardingRoutes.LegacyHandlersCompleteInEitherOrder | server/routes.ts:474-539 | starting with neither marker, doing both steps in either order completes onboarding at 100 percent |
| OnboardingRoutes.LegacyChecklistDuplicatesMarker | server/routes.ts:484-489 | saving the checklist twice before the videos records its marker twice |
| OnboardingRoutes.CompleteOnboarding | server/routes.ts:548-569 | 401 without a user; otherwise only that user changes, to completed at phase "onboarding" with 20 percent |
| OnboardingRoutes.CompleteOnboardingMatchesDashboard | server/routes.ts:555-561 | after completion the dashboard computes the stored percentage and checks the first roadmap step only |
| OnboardingRoutes.MergeChecklist | server/routes.ts:652-659 | fields present in the request replace the stored ones, absent ones are kept, and the two JSON sections are reset to `'{}'` |
| OnboardingRoutes.MergeChecklistIdempotent | server/routes.ts:652-659 | merging the same request twice is merging it once |
| OnboardingRoutes.ChecklistSaved | server/routes.ts:678-691 | the user moves to "Checkliste" at 40 percent and the marker is appended if absent; nothing else changes |
| OnboardingRoutes.SaveCustomerChecklist | server/routes.ts:603-698 | 401 exactly without a user; 500, with nothing changed, exactly when a first checklist lacks required fields; otherwise 200: each of the user's checklists is merged with the request, or a first one is stored at the next id; the user is updated as above; other users' checklists and all other tables are untouched |
| OnboardingRoutes.ChecklistSavedMarkerOnce | server/routes.ts:678-682 | the marker is recorded at most once, after the earlier phases in order, and a list free of duplicates stays so |
| OnboardingRoutes.SaveCustomerChecklistIdempotent | server/routes.ts:627-691 | saving the same checklist again succeeds and leaves the users unchanged |
| OnboardingRoutes.SavedProgressDisagreesWithDashboard | server/routes.ts:685-690 | the stored 40 percent is not what the dashboard computes for "Checkliste" (0 or 20) |
| OnboardingRoutes.CompleteAfterSaveLowersProgress | server/routes.ts:548-562 | completing the wizard after a checklist save lowers the stored progress from 40 to 20 |
| OnboardingRoutes.AdminProgress | server/routes.ts:1995-2013 | the admin's percentage is always 20, 40, 60, 80 or 100 |
| OnboardingRoutes.AdminProgressAgreesWithDashboard | server/routes.ts:1995-2013 | for the canonical phases the admin's percentage is the dashboard's |
| OnboardingRoutes.AdminProgressIsCaseSensitive | server/routes.ts:1997 | the admin's switch is case-sensitive: "Ads" is stored as 20 but shown as 60 |
| OnboardingRoutes.TargetUser | server/routes.ts:1977-1991 | the path's user is found exactly when that id exists |
| OnboardingRoutes.PhaseSet | server/routes.ts:2015-2027 | sets the phase and the admin's percentage, and appends the phase to the completed ones only if absent |
| OnboardingRoutes.PhaseSetNoDup | server/routes.ts:2015-2027 | the update introduces no duplicate and records the phase |
| OnboardingRoutes.PhaseSetIdempotent | server/routes.ts:2015-2027 | setting the same phase twice is setting it once |
| OnboardingRoutes.TutorialFor | server/routes.ts:2030-2032 | finds a tutorial of the phase's category, or reports that there is none |
| OnboardingRoutes.AdminPhaseUpdate | server/routes.ts:1975-2057 | guard refusals and 400 for a missing or empty phase leave the store; an admitted admin with a phase gets 200 or 500, and 500, with nothing changed, exactly when the user is missing, the phase has a tutorial and no progress row for it exists; on success the user, if any, gets the phase update; a progress row for the phase's tutorial is added; no other table changes |
| OnboardingRoutes.AdminPhaseUpdateKeepsValid | server/routes.ts:2019-2048 | the phase update keeps the store invariant |
| OnboardingRoutes.AdminPhaseUpdateRecordsPhase | server/routes.ts:2014-2027 | for an existing user the update answers 200, sets the phase and the admin's percentage, and records the phase once in a duplicate-free list |
| OnboardingRoutes.AdminPhaseUpdateIdempotent | server/routes.ts:2014-2048 | repeating a successful update answers 200 and changes nothing more |
| CallbackRoutes.RequestCallback | server/routes.ts:1210-1248 | 401 without a user; 429 exactly when the user asked within the last hour; otherwise 201 exactly when the body has a phone, with exactly one pending callback for that user added, and 500 with nothing changed when it has none |
| CallbackRoutes.SecondRequestWithinHourRefused | server/routes.ts:1218-1234 | a second request within the hour is refused |
| CallbackRoutes.RequestCallbackKeepsSpacing | server/routes.ts:1218-1241 | a user's callbacks stay at least an hour apart |
| CallbackRoutes.RequestCallbackKeepsValid | server/routes.ts:1236-1241 | the request keeps the store invariant |
| CallbackRoutes.FoldStats | server/routes.ts:1326-1336 | the loop's total is the sum of the group counts, and "completed" and "pending" are their groups' counts |
| CallbackRoutes.LastCountOfMatches | server/routes.ts:1332-1334 | when each group's count is its status's number of referrals, a status's count is its number of referrals |
| CallbackRoutes.LastCountOfGrouping | server/routes.ts:1318-1334 | for a GROUP BY result, a status's count is the number of referrals with that status |
| CallbackRoutes.SumCountsOfGrouping | server/routes.ts:1318-1335 | for a GROUP BY result, the counts add up to the number of referrals |
| CallbackRoutes.FoldStatsCountsReferrals | server/routes.ts:1318-1336 | the referral statistics count the referrals: all of them, the completed ones and the pending ones |
| PasswordReset.NormalisedEmail | server/routes.ts:2098 | the lookup address has no upper-case letter and is no longer than the input |
| PasswordReset.RequestReset | server/routes.ts:2086-2159 | accepted exactly for a non-blank address of an approved customer; otherwise 400 with nothing changed; on success that user's old tokens are deleted and one unused token expiring an hour later is stored |
| PasswordReset.ResetOnlyForLowerCaseAddresses | server/routes.ts:2097-2098 | only users whose stored address has no upper-case letter can be found |
| PasswordReset.FindRedeemable | server/routes.ts:2164-2182 | finds an unused, unexpired token with this string whose owner is a customer, or none when no token is usable |
| PasswordReset.VerifyToken | server/routes.ts:2161-2189 | 200 exactly when the lookup shared with the reset finds a token, and then a usable token of a customer exists; 400 otherwise, and always when no token is usable |
| PasswordReset.VerifyTokenIff | server/routes.ts:2164-2182 | with unique token strings, 200 exactly when a usable token owned by a customer exists |
| PasswordReset.MarkUsed | server/routes.ts:2227-2229 | marks a token used and changes nothing else |
| PasswordReset.ResetPassword | server/routes.ts:2191-2232 | 400 exactly when verification fails; otherwise 200 when the body has a new password, whose hash becomes the owner's password as the token is spent, and 500 when it has none; nothing changes unless it succeeds |
| PasswordReset.MissingPasswordKeepsToken | server/routes.ts:2218-2219 | a reset without a new password answers 500 before the transaction, so the token is not spent and a retry with a password succeeds |
| PasswordReset.RequestResetKeepsTokensUnique | server/routes.ts:2126-2142 | with a fresh token, token strings stay unique |
| PasswordReset.ResetPasswordKeepsTokensUnique | server/routes.ts:2222-2230 | a reset keeps token strings unique |
| PasswordReset.IssuedTokenVerifies | server/routes.ts:2132-2168 | an issued token verifies for the hour after its issue |
| PasswordReset.IssuedTokenExpires | server/routes.ts:2132-2168 | an issued token no longer verifies once the hour is over |
| PasswordReset.ResetReplayRejected | server/routes.ts:2194-2229 | a token that reset a password is refused the second time |
| PasswordReset.RequestRevokesEarlierTokens | server/routes.ts:2126-2128 | a new request revokes the user's earlier tokens |
| PasswordReset.RequestResetKeepsValid | server/routes.ts:2126-2142 | a request keeps the store invariant |
| PasswordReset.RedeemsKeepsValid | server/routes.ts:2222-2230 | spending a token keeps the store invariant |
| PasswordReset.RedeemsKeepsIdentities | server/routes.ts:2222-2230 | spending a token changes no e-mail, company or token owner |
| PasswordReset.ResetPasswordKeepsValid | server/routes.ts:2191-2230 | a reset keeps the store invariant |
| TagInput.HandleKeyDown | client/src/components/ui/tag-input.tsx:17-26 | other keys, blank input or a disabled editor change nothing; Enter with text clears the input, keeps the tags in order and adds the trimmed text once |
| TagInput.RemoveTag | client/src/components/ui/tag-input.tsx:28-31 | removes every copy of the tag and keeps the others in order, unless disabled |
| TagInput.HandleKeyDownKeepsTagsDistinct | client/src/components/ui/tag-input.tsx:21-22 | adding never introduces a duplicate |
| TagInput.AddedTagIsTrimmed | client/src/components/ui/tag-input.tsx:19-22 | an added tag is the trimmed input: non-empty, with no space at either end |
| TagInput.RemoveUndoesAdd | client/src/components/ui/tag-input.tsx:17-31 | removing a tag just added restores the tags |
| TagInput.RemoveTagIdempotent | client/src/components/ui/tag-input.tsx:28-31 | removing twice is removing once |
| CustomersPage.FilterCustomers | client/src/pages/admin/Customers.tsx:175-188 | keeps, in order, exactly the customers matching both the search and the company filter |
| CustomersPage.SearchAgreesWithTracking | client/src/pages/admin/Customers.tsx:176-180 | the search is the tracking board's search |
| CustomersPage.NoneFilterMatchesWithoutCompany | client/src/pages/admin/Customers.tsx:184 | "none" matches exactly the customers with no (or a falsy) company; a company id 0 also matches "0" |
| CustomersPage.IdFilterMatchesThatCompany | client/src/pages/admin/Customers.tsx:185 | a printed id matches exactly the customers of that company |
| CustomersPage.PrintedIdIsNotKeyword | client/src/pages/admin/Customers.tsx:183-185 | no printed id reads "all" or "none" |
| CustomersPage.TypeSearch | client/src/pages/admin/Customers.tsx:45 | typing sets the term and leaves the company filter |
| CustomersPage.AfterTyping | client/src/pages/admin/Customers.tsx:45-46 | after typing, the term is the last input |
| CustomersPage.OnlySearchFilters | client/src/pages/admin/Customers.tsx:46 | the company filter never leaves "all", so only the search filters the list |
| CustomerDetails.Or | client/src/pages/admin/CustomerDetails.tsx:108-110 | `a \|\| b` is one of the two, and is truthy exactly when one of them is |
| CustomerDetails.Competitors | client/src/pages/admin/CustomerDetails.tsx:98-103 | an array is kept; a string gives its trimmed non-empty comma-separated pieces; anything else gives none |
| CustomerDetails.SplitNamesClean | client/src/pages/admin/CustomerDetails.tsx:102 | every piece is non-empty, trimmed and comma-free |
| CustomerDetails.CompetitorsOfJoinedNames | client/src/pages/admin/CustomerDetails.tsx:102 | clean names joined with commas normalise back to themselves |
| CustomerDetails.SplitNamesOfJoin | client/src/pages/admin/CustomerDetails.tsx:102 | splitting the comma-joined clean names gives them back |
| CustomerDetails.Interests | client/src/pages/admin/CustomerDetails.tsx:111-115 | the snake_case array, else the camelCase one, else none |
| CustomerDetails.Normalise | client/src/pages/admin/CustomerDetails.tsx:105-122 | each field takes its snake_case, camelCase or nested fall-back in order; text answers end as a truthy value or `''` |
| CustomerDetails.NormaliseIsStable | client/src/pages/admin/CustomerDetails.tsx:105-122 | normalising a normalised checklist changes nothing |
| CustomerDetails.GenderLabel | client/src/pages/admin/CustomerDetails.tsx:364-369 | the four known values get their German labels, other truthy values show as they are, falsy ones as "Nicht angegeben" |
| CustomerDetails.GenderLabelRoundTrip | client/src/pages/admin/CustomerDetails.tsx:364-369 | each known value can be read back from its label |
| CustomerDetails.LogoDownloadName | client/src/pages/admin/CustomerDetails.tsx:180-189 | a name exists exactly for a non-empty logo URL, and it starts `logo-<id>.` |
| CustomerDetails.LogoNameKeepsExtension | client/src/pages/admin/CustomerDetails.tsx:188-189 | the name ends with the URL's text after its last dot |
| CustomerDetails.LogoNameOfDotlessUrl | client/src/pages/admin/CustomerDetails.tsx:188 | a URL without a dot is used whole as the "extension" |
| Upload.FileFilter | server/upload.ts:39-75 | logo and thumbnail take exactly the four image types, file exactly the six video types, and any other field anything |
| Upload.NoTypeIsImageAndVideo | server/upload.ts:42-65 | no type is both an accepted image and an accepted video |
| Upload.DropTrailingSlashes | server/upload.ts:19 | `path.extname` ignores trailing slashes: what remains is a prefix that does not end in one |
| Upload.ExtName | server/upload.ts:19 | an extension is empty or a dot followed by no further dot |
| Upload.ExtNameOfFile | server/upload.ts:19 | the extension of `dir/stem.ext` is `.ext` |
| Upload.StoredName | server/upload.ts:17-22 | the stored name starts with the UUID and, for a UUID without dots or slashes, has the original file's extension |
| Upload.StoredNameKeepsExtension | server/upload.ts:17-22 | the stored name has the original file's extension |
| Upload.ExtNameHasNoSlash | server/upload.ts:19 | an extension contains no slash |
| Upload.UploadFile | server/upload.ts:78-102 | fails exactly when the file is missing; otherwise returns the name and a URL under `/uploads/` |
| Upload.UploadUrlEndsWithName | server/upload.ts:91-96 | the URL's last segment is the file name |
| OnboardingWizard.Progress | client/src/components/onboarding/OnboardingWizard.tsx:42 | the bar is step / 2 × 100: 0 on the first step, 100 on the last, within 0..100 |
| OnboardingWizard.SetFlag | client/src/components/onboarding/OnboardingWizard.tsx:74-76 | assigning past the end grows the array with false holes; exactly the index is set |
| OnboardingWizard.MarkWatched | client/src/components/onboarding/OnboardingWizard.tsx:71-84 | the current video becomes watched and no other flag changes |
| OnboardingWizard.HandleNextVideo | client/src/components/onboarding/OnboardingWizard.tsx:86-93 | the next video, unstarted, while there is one; else the checklist step |
| OnboardingWizard.Apply | client/src/components/onboarding/OnboardingWizard.tsx:71-93 | no event moves the wizard back a step; the checklist is reached only by "next" on a watched last video; "next" changes something only past a watched video; watching marks the current video; only a load changes the video count, and a load leaves nothing watched |
| OnboardingWizard.NextNeedsWatchedVideo | client/src/components/onboarding/OnboardingWizard.tsx:217 | "next" moves the wizard only when the current video is watched |
| OnboardingWizard.ChecklistOnlyAfterLastVideo | client/src/components/onboarding/OnboardingWizard.tsx:86-93 | the checklist step is reached only by "next" on the watched last video |
| OnboardingWizard.StepNeverDecreases | client/src/components/onboarding/OnboardingWizard.tsx:86-93 | no event moves the wizard back a step |
| OnboardingWizard.InitialInv | client/src/components/onboarding/OnboardingWizard.tsx:36-41 | the fresh wizard meets the invariant |
| OnboardingWizard.ApplyKeepsInv | client/src/components/onboarding/OnboardingWizard.tsx:87-88 | each event keeps the step among the three and the index on a video |
| OnboardingWizard.RunKeepsInv | client/src/components/onboarding/OnboardingWizard.tsx:87-88 | any run of events keeps the invariant |
| OnboardingWizard.ReachableWizard | client/src/components/onboarding/OnboardingWizard.tsx:87-88 | from a fresh wizard the index never passes the last video and the bar shows 0, 50 or 100 |
| OnboardingWizard.Render | client/src/components/onboarding/OnboardingWizard.tsx:259-278 | a user who completed onboarding is redirected to the dashboard; otherwise the step's title, "Schritt k von 3" with k one past the zero-based step, and the bar |
| TutorialList.Next | client/src/components/dashboard/TutorialList.tsx:43-48 | moves to the next tutorial, unstarted, unless on the last |
| TutorialList.Previous | client/src/components/dashboard/TutorialList.tsx:50-55 | moves to the previous tutorial, unstarted, unless on the first |
| TutorialList.Apply | client/src/components/dashboard/TutorialList.tsx:172-175 | a sidebar click shows that tutorial unstarted; the thumbnail starts the video |
| TutorialList.MovesResetStarted | client/src/components/dashboard/TutorialList.tsx:43-55 | every move to another tutorial, and every sidebar click, leaves it unstarted |
| TutorialList.PreviousUndoesNext | client/src/components/dashboard/TutorialList.tsx:43-55 | previous after next returns to the tutorial |
| TutorialList.MoveStaysInRange | client/src/components/dashboard/TutorialList.tsx:40-55 | on a non-empty list a move keeps the cursor on a tutorial |
| TutorialList.RunStaysInRange | client/src/components/dashboard/TutorialList.tsx:40-55 | any run of moves keeps the cursor on a tutorial |
| TutorialList.EmptyListNextLeaves | client/src/components/dashboard/TutorialList.tsx:39-48 | with no tutorials, "next" is enabled and moves the cursor off the list |
| TutorialList.CompletionTarget | client/src/components/dashboard/TutorialList.tsx:123-127 | a tutorial is marked completed exactly when one is current and its id is truthy |
| TutorialList.CompletionAfterRun | client/src/components/dashboard/TutorialList.tsx:123-127 | with stored tutorials (ids never 0), a video that ends after any prev/next/sidebar moves always marks a listed tutorial completed |
| ResetPage.TokenOfPath | client/src/pages/ResetPassword.tsx:35 | the token is the path's last slash-separated piece |
| ResetPage.TokenOfResetLink | server/routes.ts:2145 | the page reads back the token of the link the server mails |
| ResetPage.Submit | client/src/pages/ResetPassword.tsx:45-91 | nothing is sent for a form with issues; the reset is sent only after verification; only a successful reset changes the store and navigates to the login page |
| ResetPage.StoreChangesOnlyAfterVerify | client/src/pages/ResetPassword.tsx:50-74 | the password changes only for a strong password whose token verified |
| ResetPage.VerifiedTokenResets | client/src/pages/ResetPassword.tsx:50-81 | at one instant, a token that verifies also resets |
| ResetPage.SecondSubmitRefused | client/src/pages/ResetPassword.tsx:50-59 | submitting from the same link after a reset is refused at verification |
| Forms.Report | client/src/pages/ResetPassword.tsx:19-29 | at most one issue per rule |
| Forms.ReportEmpty | client/src/pages/ResetPassword.tsx:19-29 | no issue exactly when every rule passes |
| Forms.ReportHas | client/src/pages/ResetPassword.tsx:19-29 | an issue is reported exactly when a failing rule carries it |
| Forms.Min | client/src/pages/Register.tsx:21-25 | `min(n)` passes exactly for at least n UTF-16 code units, and reports its message on its field |
| Forms.MinOneIsNonEmpty | client/src/pages/Register.tsx:22-25 | `min(1)` means non-empty |
| Forms.PasswordMessagesDistinct | client/src/pages/ResetPassword.tsx:21-24 | the four password rules report different messages |
| Forms.ResetIssues | client/src/pages/ResetPassword.tsx:19-29 | no issue exactly for a password of 8 or more with an upper-case letter, a lower-case letter and a digit, repeated in the confirmation |
| Forms.ResetReportsRule | client/src/pages/ResetPassword.tsx:19-29 | each rule's message is reported exactly when that rule fails |
| Forms.ResetReportsEachRule | client/src/pages/ResetPassword.tsx:19-29 | each password message appears exactly when its condition fails, and the mismatch is reported on the confirmation |
| Forms.ReportsDistinctIssue | client/src/pages/Register.tsx:19-28 | a rule whose message no other rule carries is reported exactly when it fails |
| Forms.RegisterReportsRule | client/src/pages/Register.tsx:19-28 | each field rule of registration is reported exactly when it fails |
| Forms.RegisterReportsEachRule | client/src/pages/Register.tsx:19-28 | each registration field message appears exactly when its condition fails: invalid e-mail, password under 8 UTF-16 units, empty confirmation, first name, last name or company |
| Forms.PasswordChangeReportsEachRule | client/src/pages/admin/Settings.tsx:19-26 | each password-change message appears exactly when its condition fails: empty current password, new password under 8 UTF-16 units, empty confirmation |
| Forms.RegisterIssues | client/src/pages/Register.tsx:19-29 | no issue exactly for a valid e-mail, a password of 8 or more repeated in the confirmation, and non-empty names |
| Forms.RegisterReportsMismatch | client/src/pages/Register.tsx:26-29 | the mismatch is reported on the confirmation exactly when the two differ |
| Forms.RegisterRequest | client/src/pages/Register.tsx:54-60 | the body carries e-mail, password, names and company name as entered |
| Forms.RegisterRequestIgnoresConfirmation | client/src/pages/Register.tsx:54-60 | the confirmation is never sent |
| Forms.ValidRegistrationBody | client/src/pages/Register.tsx:19-60 | a form without issues sends a body carrying every field the server stores, with a valid e-mail, a password of 8 or more and non-empty names |
| Forms.CompanyIssues | client/src/pages/admin/Settings.tsx:12-17 | no issue exactly for a non-empty company name, phone and address and a valid e-mail |
| Forms.ProfileIssues | client/src/components/dashboard/CustomerSettings.tsx:28-32 | no issue exactly for non-empty names and a valid e-mail |
| Forms.CompanyReportsEachRule | client/src/pages/admin/Settings.tsx:12-17 | each empty field and an invalid e-mail report their own message, all at once |
| Forms.ProfileReportsEachRule | client/src/components/dashboard/CustomerSettings.tsx:28-32 | each empty name and an invalid e-mail report their own message, all at once |
| Forms.PasswordChangeIssues | client/src/pages/admin/Settings.tsx:19-26 | no issue exactly for a non-empty current password and a new one of 8 or more repeated in the confirmation |
| Forms.PasswordChangeReportsMismatch | client/src/pages/admin/Settings.tsx:19-26 | the mismatch is reported on the confirmation exactly when the two differ |
| Forms.PasswordChangeRequest | client/src/pages/admin/Settings.tsx:123-126 | the body carries the current and the new password |
| Forms.PasswordChangeRequestIgnoresConfirmation | client/src/pages/admin/Settings.tsx:123-126 | the confirmation is never sent |
| Forms.ValidPasswordChangeIsEnabled | client/src/components/dashboard/CustomerSettings.tsx:420-424 | a form without issues has its button enabled |
| Forms.EnabledPasswordChangeMayBeInvalid | client/src/components/dashboard/CustomerSettings.tsx:420-424 | the button is enabled for a form whose new password is too short |
| SettingsPages.HandleLogoChange | client/src/pages/admin/Settings.tsx:154-182 | no file changes nothing; a file over 10 MB is refused; then a type other than JPEG, PNG or GIF is refused; only a file passing both becomes the logo |
| SettingsPages.SizeCheckedBeforeType | client/src/pages/admin/Settings.tsx:157-164 | a file both too large and of the wrong type is reported as too large |
| SettingsPages.PageLogoPassesServer | client/src/pages/admin/Settings.tsx:166-175 | every logo the page accepts passes the server's filter |
| SettingsPages.WebpOnlyOnServer | client/src/pages/admin/Settings.tsx:166-173 | a WebP logo passes the server but is refused by the page |
| SettingsPages.UpdateUserImage | client/src/components/dashboard/CustomerSettings.tsx:54-66 | the cached user and the session's user get the image and keep every other field; the session keeps its other fields |
| SettingsPages.UpdateUserImageIdempotent | client/src/components/dashboard/CustomerSettings.tsx:54-66 | applying the update twice is applying it once |
| SettingsPages.UpdatedCachesAgree | client/src/components/dashboard/CustomerSettings.tsx:54-66 | afterwards both caches hold the same image |

## Left out

- Sending mail: the registration mail's outcome is a parameter of `Register`. The reset e-mail and the approval mails are not modelled. A mail failure after the token insert leaves the token stored; the model ends at the insert.
- AuthRoutes.Register: the e-mail is always present in the body; a request without one is not modelled.
- PasswordReset.ResetPassword: the token is always present in the body; a request without one is not modelled.
- OnboardingRoutes.AdminPhaseUpdate: the path id is an integer. A non-numeric id makes `parseInt` return `NaN` (server/routes.ts:1977), which the model cannot express.
- Bcrypt, `crypto.randomBytes` and `randomUUID` are parameters. The reset request assumes its random token is not already stored.
- Concurrency: each handler is one atomic step, and interleaved read-modify-write of `completedPhases` is not modelled.
- The database itself: SQL, joins and `returning()` are replaced by the in-memory tables. Drizzle's `.set()` is taken to skip undefined keys, so a checklist update merges the fields present in the request.
- JSON encoding, explicit JSON `null` in request bodies, and `NaN` truthiness are not modelled.
- `toLowerCase` and `trim` on non-ASCII characters: the model lower-cases ASCII letters only.
- The Google Drive and Meta integrations, and floating-point metrics and their formatting.
- The shadowed route handlers at server/routes.ts:1133-1207, 1821-1891, 2387-2482, 1250, 1741, 1762, 2240 and 2252. An earlier handler for the same path always answers first.
- Referral link creation (server/routes.ts:1299-1315): it only inserts a row.
- Multer's 1 GiB size limit and `path.extname` on Windows paths.
- CustomerDetails: gender values that are not strings and prototype keys of the label map are not modelled. Checklist fields beyond the normalised ones are not modelled either. The comparison of parsed JSON with `'{}'` is not modelled.
- OnboardingWizard: `handleComplete`'s network call is not modelled. "Watched at 95 %" is an abstract event. A refetch resetting the watched flags is modelled only as a load of the same count: the reachability invariant assumes every reload brings the same number of videos.
- SettingsPages: spreading a cached value that is neither an object nor empty is treated as empty.
- Forms: zod's e-mail check is a parameter `isEmail`. Zod runs the `refine` even when field checks fail, and the model keeps that behaviour.
- TutorialList: the completion mutation's request and the refetch are not modelled; only which tutorial it names is.
- Phases.Roadmap: its contract states only the number of marks; `Phases.RoadmapShape` states their content.
- Tracking.Dedup: its contract states only the length; `Tracking.DedupDistinct`, `Tracking.DedupCovers` and `Tracking.DedupFirstOccurrences` state the content.
- Forms.CompanyIssues: states when the form has no issue; `Forms.CompanyReportsEachRule` states which message each field reports.
- Forms.ProfileIssues: states when the form has no issue; `Forms.ProfileReportsEachRule` states which message each field reports.

=== FILE: auth_routes.dfy ===
/** The account side of the API (server/routes.ts): the `requireAuth` and
    `requireAdmin` middleware, registration, the customer login gate, and who
    may read a customer's checklist. Each handler is one atomic transition of
    the store; password hashing and comparison are parameters. */
module AuthRoutes {
  import opened Wrappers
  import opened Schema

  const Ok: int := 200
  const Created: int := 201
  const BadRequest: int := 400
  const Unauthorized: int := 401
  const Forbidden: int := 403
  const NotFound: int := 404
  const TooManyRequests: int := 429
  const ServerError: int := 500

  /** A handler's answer: the status code and the store afterwards. */
  datatype Reply = Reply(status: int, store: Store)

  /** `req.session.userId` is truthy: present and not the id 0. */
  predicate SignedIn(session: Option<nat>) {
    session.Some? && session.value != 0
  }

  /** The outcome of a middleware: the request goes on for a user, or is
      answered with a status. */
  datatype Guard = Admit(userId: nat) | Refuse(status: int)

  /** `requireAuth`: the guard's verdict and the session afterwards (a session
      naming a vanished user is destroyed). */
  function RequireAuth(st: Store, session: Option<nat>): (r: (Guard, Option<nat>))
    ensures r.0.Admit? <==> SignedIn(session) && session.value in st.users.rows
    ensures r.0.Admit? ==> r.0.userId == session.value && r.1 == session
    ensures r.0.Refuse? ==> r.0.status == Unauthorized
    ensures SignedIn(session) && session.value !in st.users.rows ==> r.1 == None
    ensures !SignedIn(session) ==> r.1 == session
  {
    if !SignedIn(session) then (Refuse(Unauthorized), session)
    else if session.value !in st.users.rows then (Refuse(Unauthorized), None)
    else (Admit(session.value), session)
  }

  /** `requireAdmin`: 401 without a session, 403 unless the session's user
      exists and has the role "admin". */
  function RequireAdmin(st: Store, session: Option<nat>): (g: Guard)
    ensures g.Admit? <==> SignedIn(session) && session.value in st.users.rows
                          && st.users.rows[session.value].role == "admin"
    ensures g.Admit? ==> g.userId == session.value
    ensures !SignedIn(session) ==> g == Refuse(Unauthorized)
    ensures SignedIn(session) && g.Refuse? ==> g.status == Forbidden
  {
    if !SignedIn(session) then Refuse(Unauthorized)
    else if session.value !in st.users.rows || st.users.rows[session.value].role != "admin" then Refuse(Forbidden)
    else Admit(session.value)
  }

  /** Every request the admin guard lets through, the plain guard lets
      through too, for the same user. */
  lemma AdminGuardImpliesAuth(st: Store, session: Option<nat>)
    requires RequireAdmin(st, session).Admit?
    ensures RequireAuth(st, session).0 == RequireAdmin(st, session)
  {
  }

  /** A refused session stays refused: `requireAuth` never admits the session
      it destroyed. */
  lemma RefusedSessionStaysRefused(st: Store, session: Option<nat>)
    requires RequireAuth(st, session).0.Refuse?
    ensures RequireAuth(st, RequireAuth(st, session).1).0.Refuse?
  {
  }

  // ------------------------------------------------------------ register

  /** The body of `POST /api/auth/register`; `None` is a field the request
      does not carry. */
  datatype RegisterBody = RegisterBody(
    email: string, password: Option<string>, firstName: Option<string>, lastName: Option<string>, companyName: Option<string>)

  /** The body carries every field registration stores. */
  predicate HasAllFields(body: RegisterBody) {
    body.password.Some? && body.firstName.Some? && body.lastName.Some? && body.companyName.Some?
  }

  /** Some user already holds `email` (compared exactly). */
  ghost predicate EmailTaken(users: Table<User>, email: string) {
    exists k :: k in users.rows && users.rows[k].email == email
  }

  /** Registration stores the account: the address is free and the body is
      complete. */
  ghost predicate Registers(st: Store, body: RegisterBody) {
    !EmailTaken(st.users, body.email) && HasAllFields(body)
  }

  /** The values registration inserts for a new user of company `companyId`. */
  function RegistrationValues(body: RegisterBody, passwordHash: string, companyId: nat): UserValues
    requires HasAllFields(body)
  {
    UserValues(body.email, passwordHash, body.firstName.value, body.lastName.value, Some(companyId),
               Some("customer"), Some(false), Some(false), None, Some("onboarding"), Some([]), Some(0))
  }

  /** `POST /api/auth/register`; `passwordHash` is the bcrypt hash of the
      password and `mailSent` whether the registration e-mail went out. A
      taken email is refused. Hashing a missing password throws, so does the
      company insert without a name; both answer 500 before anything is
      stored. A missing first or last name fails the user insert after the
      company is stored, leaving it without a user. Otherwise the company
      and the user are inserted and the e-mail is sent last: when sending
      fails the answer is 500, with both rows already stored. */
  function Register(st: Store, body: RegisterBody, passwordHash: string, mailSent: bool, now: int): (r: Reply)
    ensures r.status == BadRequest <==> EmailTaken(st.users, body.email)
    ensures r.status in {Ok, BadRequest, ServerError}
    ensures r.status == BadRequest ==> r.store == st
    ensures !EmailTaken(st.users, body.email) && (body.password.None? || body.companyName.None?) ==>
      r == Reply(ServerError, st)
    ensures !EmailTaken(st.users, body.email) && body.password.Some? && body.companyName.Some?
            && (body.firstName.None? || body.lastName.None?) ==>
      && r.status == ServerError
      && r.store == st.(companies := r.store.companies)
      && r.store.companies.rows == st.companies.rows[st.companies.nextId := Company(body.companyName.value, None, now)]
    ensures r.status == Ok ==> Registers(st, body)
    ensures Registers(st, body) ==> (r.status == Ok <==> mailSent) && (r.status == ServerError <==> !mailSent)
    ensures Registers(st, body) ==> st.users.nextId in r.store.users.rows
    ensures Registers(st, body) ==>
      var u := r.store.users.rows[st.users.nextId];
      && u.email == body.email && u.password == passwordHash
      && u.firstName == body.firstName.value && u.lastName == body.lastName.value
      && u.role == "customer" && !u.isApproved && !u.onboardingCompleted && u.isFirstLogin
      && u.currentPhase == "onboarding" && u.completedPhases == [] && u.progress == 0
      && u.companyId == Some(st.companies.nextId)
      && st.companies.nextId in r.store.companies.rows
      && r.store.companies.rows[st.companies.nextId].name == body.companyName.value
    ensures Registers(st, body) ==>
      r.store.tutorials == st.tutorials && r.store.progress == st.progress && r.store.callbacks == st.callbacks
      && r.store.referrals == st.referrals && r.store.checklists == st.checklists && r.store.resetTokens == st.resetTokens
  {
    match UserByEmail(st.users, body.email)
    case Some(_) => Reply(BadRequest, st)
    case None =>
      if body.password.None? || body.companyName.None? then Reply(ServerError, st)
      else
        var (companies', companyId) := Insert(st.companies, Company(body.companyName.value, None, now));
        if body.firstName.None? || body.lastName.None? then Reply(ServerError, st.(companies := companies'))
        else
          var (users', _) := Insert(st.users, UserRow(RegistrationValues(body, passwordHash, companyId), now));
          Reply(if mailSent then Ok else ServerError, st.(users := users', companies := companies'))
  }

  /** Registration adds exactly one user under a fresh key, changes no
      existing user, and keeps the database's constraints, also when it
      fails half-way. */
  lemma RegisterKeepsValid(st: Store, body: RegisterBody, passwordHash: string, mailSent: bool, now: int)
    requires Valid(st)
    ensures var r := Register(st, body, passwordHash, mailSent, now);
      && Valid(r.store)
      && (Registers(st, body) ==> st.users.nextId !in st.users.rows
                                  && r.store.users.rows.Keys == st.users.rows.Keys + {st.users.nextId}
                                  && forall k :: k in st.users.rows ==> r.store.users.rows[k] == st.users.rows[k])
  {
    var r := Register(st, body, passwordHash, mailSent, now);
    if Registers(st, body) {
      var st' := r.store;
      assert forall k :: k in st.users.rows ==> st.users.rows[k].email != body.email;
      assert UniqueEmails(st'.users);
      assert ReferencesHold(st');
    }
  }

  /** The same address cannot register twice, even when the first attempt
      was answered with 500 because the e-mail could not be sent. */
  lemma RegisterTwiceRefused(st: Store, body: RegisterBody, h1: string, h2: string, m1: bool, m2: bool, t1: int, t2: int)
    requires Registers(st, body)
    ensures Register(Register(st, body, h1, m1, t1).store, body, h2, m2, t2).status == BadRequest
  {
    var st' := Register(st, body, h1, m1, t1).store;
    assert st'.users.rows[st.users.nextId].email == body.email;
  }

  /** A failed registration e-mail leaves a registered account behind: the
      form reports a server error, and trying again is refused as a taken
      address. */
  lemma MailFailureStillRegisters(st: Store, body: RegisterBody, h1: string, h2: string, m2: bool, t1: int, t2: int)
    requires Registers(st, body)
    ensures Register(st, body, h1, false, t1).status == ServerError
    ensures EmailTaken(Register(st, body, h1, false, t1).store.users, body.email)
    ensures Register(Register(st, body, h1, false, t1).store, body, h2, m2, t2).status == BadRequest
  {
    RegisterTwiceRefused(st, body, h1, h2, false, m2, t1, t2);
  }

  /** A body without a last name answers 500 but leaves a company behind
      that no user belongs to; the address stays free, so a complete retry
      registers and stores a second company. */
  lemma MissingNameLeavesOrphanCompany(st: Store, body: RegisterBody, h1: string, h2: string, m: bool, t1: int, t2: int)
    requires Valid(st) && HasAllFields(body) && !EmailTaken(st.users, body.email)
    ensures var s1 := Register(st, body.(lastName := None), h1, m, t1).store;
      && Register(st, body.(lastName := None), h1, m, t1).status == ServerError
      && st.companies.nextId in s1.companies.rows
      && (forall k :: k in s1.users.rows ==> s1.users.rows[k].companyId != Some(st.companies.nextId))
      && Register(s1, body, h2, m, t2).status != BadRequest
      && |Register(s1, body, h2, m, t2).store.companies.rows| == |st.companies.rows| + 2
  {
    var s1 := Register(st, body.(lastName := None), h1, m, t1).store;
    assert s1.users == st.users;
    assert st.companies.nextId !in st.companies.rows;
    var s2 := Register(s1, body, h2, m, t2).store;
    assert s1.companies.nextId !in s1.companies.rows;
    assert |s1.companies.rows| == |st.companies.rows| + 1;
    assert s2.companies.rows.Keys == s1.companies.rows.Keys + {s1.companies.nextId};
  }

  // --------------------------------------------------------------- login

  /** What `POST /api/auth/login` answers: the status, the error message
      (empty on success), the session, the store and the onboarding redirect
      flag (false on failure). */
  datatype LoginReply = LoginReply(status: int, message: string, session: Option<nat>, store: Store, redirectToOnboarding: bool)

  const InvalidCredentials: string := "Ungültige Anmeldedaten"
  const NotYetApproved: string := "Ihr Account wurde noch nicht freigegeben"
  const LoginServerError: string := "Interner Serverfehler"

  /** The account `email` names may sign in with `password`: it exists, is a
      customer, is approved and the password matches its hash. */
  ghost predicate MayLogIn(st: Store, email: string, password: string, matches: (string, string) -> bool) {
    exists k :: k in st.users.rows && st.users.rows[k].email == email && st.users.rows[k].role == "customer"
                && st.users.rows[k].isApproved && matches(password, st.users.rows[k].password)
  }

  /** The account `email` names is an approved customer: the checks before
      the password comparison pass. */
  predicate ReachesComparison(st: Store, email: string) {
    match UserByEmail(st.users, email)
    case None => false
    case Some(k) => st.users.rows[k].role == "customer" && st.users.rows[k].isApproved
  }

  /** `POST /api/auth/login`; `matches(password, hash)` is bcrypt's
      comparison and `None` a body without a password, which makes the
      comparison throw: 500 once the account checks have passed. */
  function Login(st: Store, session: Option<nat>, email: string, password: Option<string>,
                 matches: (string, string) -> bool): (r: LoginReply)
    ensures r.status in {Ok, Unauthorized, ServerError}
    ensures r.status == ServerError <==> password.None? && ReachesComparison(st, email)
    ensures r.status == ServerError ==> r.message == LoginServerError
    ensures r.status != Ok ==> r.session == session && r.store == st && !r.redirectToOnboarding
    ensures r.status == Unauthorized ==> (r.message == NotYetApproved <==>
              (UserByEmail(st.users, email).Some? && st.users.rows[UserByEmail(st.users, email).value].role == "customer"
               && !st.users.rows[UserByEmail(st.users, email).value].isApproved))
    ensures r.status == Ok ==> r.session.Some? && r.session.value in st.users.rows && r.session.value in r.store.users.rows
    ensures r.status == Ok ==>
      var k := r.session.value;
      && UserByEmail(st.users, email) == Some(k)
      && st.users.rows[k].role == "customer" && st.users.rows[k].isApproved
      && password.Some? && matches(password.value, st.users.rows[k].password)
      && r.store.users.rows[k] == st.users.rows[k].(isFirstLogin := false)
      && r.redirectToOnboarding == !st.users.rows[k].onboardingCompleted
    ensures r.status == Ok ==> r.store == st.(users := UpdateRow(st.users, r.session.value, (u: User) => u.(isFirstLogin := false)))
  {
    match UserByEmail(st.users, email)
    case None => LoginReply(Unauthorized, InvalidCredentials, session, st, false)
    case Some(k) =>
      var u := st.users.rows[k];
      if u.role != "customer" then LoginReply(Unauthorized, InvalidCredentials, session, st, false)
      else if !u.isApproved then LoginReply(Unauthorized, NotYetApproved, session, st, false)
      else if password.None? then LoginReply(ServerError, LoginServerError, session, st, false)
      else if !matches(password.value, u.password) then LoginReply(Unauthorized, InvalidCredentials, session, st, false)
      else
        var st' := if u.isFirstLogin then st.(users := UpdateRow(st.users, k, (v: User) => v.(isFirstLogin := false))) else st;
        assert u.(isFirstLogin := false) == u ==> st' == st.(users := UpdateRow(st.users, k, (v: User) => v.(isFirstLogin := false)));
        LoginReply(Ok, "", Some(k), st', !u.onboardingCompleted)
  }

  /** With unique emails, login succeeds exactly for approved customers
      presenting their password. */
  lemma LoginSucceedsIff(st: Store, session: Option<nat>, email: string, password: Option<string>, matches: (string, string) -> bool)
    requires UniqueEmails(st.users)
    ensures Login(st, session, email, password, matches).status == Ok <==>
              password.Some? && MayLogIn(st, email, password.value, matches)
  {
    if password.Some? && MayLogIn(st, email, password.value, matches) {
      var k :| k in st.users.rows && st.users.rows[k].email == email && st.users.rows[k].role == "customer"
               && st.users.rows[k].isApproved && matches(password.value, st.users.rows[k].password);
      UserByEmailUnique(st.users, email, k);
    }
  }

  /** Login only clears the first-login flag, so it keeps the database's constraints. */
  lemma LoginKeepsValid(st: Store, session: Option<nat>, email: string, password: Option<string>, matches: (string, string) -> bool)
    requires Valid(st)
    ensures Valid(Login(st, session, email, password, matches).store)
  {
    var r := Login(st, session, email, password, matches);
    if r.status == Ok {
      UpdateUserValid(st, r.session.value, (u: User) => u.(isFirstLogin := false));
    }
  }

  // ---------------------------------------------------- checklist access

  /** `GET /api/customer-checklist/:userId`: a signed-in user reads the
      checklist of `target`; only admins may read someone else's. */
  function ReadChecklist(st: Store, session: Option<nat>, target: int): (r: (int, Option<Checklist>))
    ensures r.0 == Ok <==> r.1.Some?
    ensures r.0 == Ok ==>
      var requester := RequireAuth(st, session).0;
      && requester.Admit?
      && (st.users.rows[requester.userId].role == "admin" || requester.userId == target)
      && r.1.value.userId == target
      && exists k :: k in st.checklists.rows && st.checklists.rows[k] == r.1.value
    ensures RequireAuth(st, session).0.Refuse? ==> r.0 == Unauthorized
    ensures r.0 == NotFound ==> forall k :: k in st.checklists.rows ==> st.checklists.rows[k].userId != target
  {
    match RequireAuth(st, session).0
    case Refuse(status) => (status, None)
    case Admit(id) =>
      if st.users.rows[id].role != "admin" && id != target then (Forbidden, None)
      else
        match FirstWhere(st.checklists, (c: Checklist) => c.userId == target)
        case None => (NotFound, None)
        case Some(k) => (Ok, Some(st.checklists.rows[k]))
  }

  /** A customer reads only their own checklist, and an existing one is
      always found for its owner. */
  lemma ChecklistOwnerOnly(st: Store, session: Option<nat>, target: int)
    requires RequireAuth(st, session).0.Admit?
    ensures var id := RequireAuth(st, session).0.userId;
      && (st.users.rows[id].role != "admin" && id != target ==> ReadChecklist(st, session, target).0 == Forbidden)
      && ((id == target || st.users.rows[id].role == "admin")
          && (exists k :: k in st.checklists.rows && st.checklists.rows[k].userId == target)
          ==> ReadChecklist(st, session, target).0 == Ok)
  {
  }
}

=== FILE: callback_routes.dfy ===
/** The customer's callback request with its one-hour rate limit, and the
    referral statistics the partner page folds out of a `GROUP BY status`
    query (server/routes.ts). */
module CallbackRoutes {
  import opened Wrappers
  import opened Seqs
  import opened Schema
  import opened AuthRoutes

  /** One hour in milliseconds. */
  const OneHour: int := 60 * 60 * 1000

  /** `c` is a callback of `userId` created no earlier than an hour before `now`. */
  predicate IsRecent(c: Callback, userId: nat, now: int) {
    c.userId == userId && c.createdAt >= now - OneHour
  }

  /** The user has asked for a callback within the last hour. */
  ghost predicate AskedWithinHour(st: Store, userId: nat, now: int) {
    exists k :: k in st.callbacks.rows && IsRecent(st.callbacks.rows[k], userId, now)
  }

  /** `st'` is `st` with one pending callback added for `userId` under the
      fresh key `k`, and nothing else changed. */
  ghost predicate AddsOneCallback(st: Store, st': Store, k: nat, userId: nat, phone: string, now: int) {
    && k !in st.callbacks.rows
    && st'.callbacks.rows == st.callbacks.rows[k := Callback(userId, phone, Some(PendingStatus), now)]
    && st' == st.(callbacks := st'.callbacks)
  }

  /** `POST /api/callbacks`: refused with 429 when the user asked within the
      last hour, otherwise one pending callback is stored. A body without a
      phone number fails the NOT NULL column and answers 500. */
  function RequestCallback(st: Store, session: Option<nat>, phone: Option<string>, now: int): (r: Reply)
    ensures RequireAuth(st, session).0.Refuse? ==> r == Reply(Unauthorized, st)
    ensures RequireAuth(st, session).0.Admit? ==>
              (r.status == TooManyRequests <==> AskedWithinHour(st, session.value, now))
    ensures r.status in {Created, Unauthorized, TooManyRequests, ServerError}
    ensures r.status != Created ==> r.store == st
    ensures r.status == ServerError ==> phone.None?
    ensures RequireAuth(st, session).0.Admit? && !AskedWithinHour(st, session.value, now) ==>
              (r.status == Created <==> phone.Some?) && (r.status == ServerError <==> phone.None?)
    ensures r.status == Created ==>
              RequireAuth(st, session).0.Admit? && phone.Some? && !AskedWithinHour(st, session.value, now)
              && AddsOneCallback(st, r.store, st.callbacks.nextId, session.value, phone.value, now)
  {
    match RequireAuth(st, session).0
    case Refuse(status) => Reply(status, st)
    case Admit(id) =>
      var recent := FirstWhere(st.callbacks, (c: Callback) => IsRecent(c, id, now));
      if recent.Some? then
        Reply(TooManyRequests, st)
      else if phone.None? then
        Reply(ServerError, st)
      else
        var (callbacks', _) := Insert(st.callbacks, CallbackRow(id, phone.value, None, now));
        Reply(Created, st.(callbacks := callbacks'))
  }

  /** A second request within the hour after a successful one is refused,
      whatever phone number it gives. */
  lemma SecondRequestWithinHourRefused(st: Store, session: Option<nat>, p1: Option<string>, p2: Option<string>, t1: int, t2: int)
    requires RequestCallback(st, session, p1, t1).status == Created
    requires t1 <= t2 < t1 + OneHour
    ensures RequestCallback(RequestCallback(st, session, p1, t1).store, session, p2, t2).status == TooManyRequests
  {
    var s1 := RequestCallback(st, session, p1, t1).store;
    var k := st.callbacks.nextId;
    assert s1.users == st.users;
    assert k in s1.callbacks.rows && IsRecent(s1.callbacks.rows[k], session.value, t2);
  }

  /** Any two callbacks of one user lie at least an hour apart. */
  ghost predicate CallbacksSpaced(st: Store) {
    forall i, j :: i in st.callbacks.rows && j in st.callbacks.rows && i != j
      && st.callbacks.rows[i].userId == st.callbacks.rows[j].userId
      ==> st.callbacks.rows[i].createdAt + OneHour <= st.callbacks.rows[j].createdAt
          || st.callbacks.rows[j].createdAt + OneHour < st.callbacks.rows[i].createdAt
  }

  /** No callback was created after `now`. */
  ghost predicate NothingAfter(st: Store, now: int) {
    forall k :: k in st.callbacks.rows ==> st.callbacks.rows[k].createdAt <= now
  }

  /** With a clock that does not run backwards, the rate limit keeps every
      user's callbacks an hour apart. */
  lemma RequestCallbackKeepsSpacing(st: Store, session: Option<nat>, phone: Option<string>, now: int)
    requires CallbacksSpaced(st) && NothingAfter(st, now)
    ensures CallbacksSpaced(RequestCallback(st, session, phone, now).store)
    ensures NothingAfter(RequestCallback(st, session, phone, now).store, now)
  {
    var r := RequestCallback(st, session, phone, now);
    if r.status == Created {
      var k := st.callbacks.nextId;
      var rows := r.store.callbacks.rows;
      forall i | i in st.callbacks.rows && rows[i].userId == session.value
        ensures rows[i].createdAt + OneHour < now
      {
        assert !IsRecent(st.callbacks.rows[i], session.value, now);
      }
    }
  }

  /** The callback request keeps the database's constraints. */
  lemma RequestCallbackKeepsValid(st: Store, session: Option<nat>, phone: Option<string>, now: int)
    requires Valid(st)
    ensures Valid(RequestCallback(st, session, phone, now).store)
  {
  }

  // ------------------------------------------------------- referral stats

  /** One row of the `GROUP BY status` query: a status and how many of the
      user's referrals carry it. */
  datatype StatusCount = StatusCount(status: Option<string>, count: int)

  /** The `statsMap` the partner page receives. */
  datatype ReferralStats = ReferralStats(total: int, pending: int, completed: int)

  const CompletedStatus: string := "completed"

  /** The sum of the counts of `rows`. */
  function SumCounts(rows: seq<StatusCount>): int {
    if rows == [] then 0 else SumCounts(rows[..|rows| - 1]) + rows[|rows| - 1].count
  }

  /** The count of the last row carrying `status`, or 0 when none does. */
  function LastCountOf(rows: seq<StatusCount>, status: Option<string>): int {
    if rows == [] then 0
    else if rows[|rows| - 1].status == status then rows[|rows| - 1].count
    else LastCountOf(rows[..|rows| - 1], status)
  }

  /** `stats.forEach(...)`: each row overwrites the completed or pending
      figure when its status is one of those, and adds to the total. */
  method FoldStats(rows: seq<StatusCount>) returns (s: ReferralStats)
    ensures s.total == SumCounts(rows)
    ensures s.completed == LastCountOf(rows, Some(CompletedStatus))
    ensures s.pending == LastCountOf(rows, Some(PendingStatus))
  {
    s := ReferralStats(0, 0, 0);
    var i := 0;
    while i < |rows|
      invariant 0 <= i <= |rows|
      invariant s.total == SumCounts(rows[..i])
      invariant s.completed == LastCountOf(rows[..i], Some(CompletedStatus))
      invariant s.pending == LastCountOf(rows[..i], Some(PendingStatus))
    {
      var row := rows[i];
      assert rows[..i + 1][..i] == rows[..i];
      if row.status == Some(CompletedStatus) {
        s := s.(completed := row.count);
      }
      if row.status == Some(PendingStatus) {
        s := s.(pending := row.count);
      }
      s := s.(total := s.total + row.count);
      i := i + 1;
    }
    assert rows[..i] == rows;
  }

  /** The statuses the rows name, in order. */
  function Statuses(rows: seq<StatusCount>): (r: seq<Option<string>>)
    ensures |r| == |rows|
    ensures forall i :: 0 <= i < |rows| ==> r[i] == rows[i].status
  {
    if rows == [] then [] else Statuses(rows[..|rows| - 1]) + [rows[|rows| - 1].status]
  }

  /** Every row's count is the number of `refs` carrying its status. */
  ghost predicate CountsMatch(rows: seq<StatusCount>, refs: seq<Option<string>>) {
    rows == [] || (rows[|rows| - 1].count == Count(refs, rows[|rows| - 1].status) && CountsMatch(rows[..|rows| - 1], refs))
  }

  /** No status is named by two rows. */
  ghost predicate DistinctStatuses(rows: seq<StatusCount>) {
    rows == [] || (rows[|rows| - 1].status !in Statuses(rows[..|rows| - 1]) && DistinctStatuses(rows[..|rows| - 1]))
  }

  /** Every status of `refs` is named by some row. */
  ghost predicate Covers(rows: seq<StatusCount>, refs: seq<Option<string>>) {
    forall k :: 0 <= k < |refs| ==> refs[k] in Statuses(rows)
  }

  /** `rows` is what `GROUP BY status` returns for referrals whose statuses
      are `refs`: one row per status that occurs, with its count. */
  ghost predicate IsGrouping(rows: seq<StatusCount>, refs: seq<Option<string>>) {
    CountsMatch(rows, refs) && DistinctStatuses(rows) && Covers(rows, refs)
  }

  /** With matching counts, the figure for a status is the number of
      referrals carrying it, provided the status is named when it occurs. */
  lemma {:induction false} LastCountOfMatches(rows: seq<StatusCount>, refs: seq<Option<string>>, status: Option<string>)
    requires CountsMatch(rows, refs)
    requires status in refs ==> status in Statuses(rows)
    ensures LastCountOf(rows, status) == Count(refs, status)
  {
    if rows != [] && rows[|rows| - 1].status != status {
      var front := rows[..|rows| - 1];
      assert Statuses(rows) == Statuses(front) + [rows[|rows| - 1].status];
      LastCountOfMatches(front, refs, status);
    }
  }

  /** Fed by a grouping, each figure is the number of referrals carrying
      that status. */
  lemma LastCountOfGrouping(rows: seq<StatusCount>, refs: seq<Option<string>>, status: Option<string>)
    requires IsGrouping(rows, refs)
    ensures LastCountOf(rows, status) == Count(refs, status)
  {
    LastCountOfMatches(rows, refs, status);
  }

  /** Removing a status leaves the counts of the others as they were. */
  lemma {:induction false} CountRemoveAll<T>(xs: seq<T>, x: T, y: T)
    requires x != y
    ensures Count(RemoveAll(xs, x), y) == Count(xs, y)
  {
    if xs != [] {
      CountRemoveAll(xs[1..], x, y);
      if xs[0] != x {
        assert RemoveAll(xs, x) == [xs[0]] + RemoveAll(xs[1..], x);
      }
    }
  }

  /** Counts of statuses other than `x` survive removing the referrals with `x`. */
  lemma {:induction false} CountsMatchRemoveAll(rows: seq<StatusCount>, refs: seq<Option<string>>, x: Option<string>)
    requires CountsMatch(rows, refs) && x !in Statuses(rows)
    ensures CountsMatch(rows, RemoveAll(refs, x))
  {
    if rows != [] {
      var front := rows[..|rows| - 1];
      assert Statuses(rows) == Statuses(front) + [rows[|rows| - 1].status];
      CountRemoveAll(refs, x, rows[|rows| - 1].status);
      CountsMatchRemoveAll(front, refs, x);
    }
  }

  /** Fed by a grouping, the total is the number of referrals. */
  lemma {:induction false} SumCountsOfGrouping(rows: seq<StatusCount>, refs: seq<Option<string>>)
    requires IsGrouping(rows, refs)
    ensures SumCounts(rows) == |refs|
    decreases |rows|
  {
    if rows == [] {
      NoGroupsNoReferrals(refs);
    } else {
      var n := |rows| - 1;
      var rest := RemoveAll(refs, rows[n].status);
      GroupingOfFront(rows, refs);
      SumCountsOfGrouping(rows[..n], rest);
    }
  }

  /** Without any group, no referral is covered. */
  lemma NoGroupsNoReferrals(refs: seq<Option<string>>)
    ensures Covers([], refs) ==> refs == []
  {
    if refs != [] {
      assert refs[0] !in Statuses([]);
    }
  }

  /** Dropping the last group and its referrals leaves a grouping. */
  lemma GroupingOfFront(rows: seq<StatusCount>, refs: seq<Option<string>>)
    requires IsGrouping(rows, refs) && rows != []
    ensures IsGrouping(rows[..|rows| - 1], RemoveAll(refs, rows[|rows| - 1].status))
  {
    var n := |rows| - 1;
    var front := rows[..n];
    var last := rows[n].status;
    var rest := RemoveAll(refs, last);
    CountsMatchRemoveAll(front, refs, last);
    assert Statuses(rows) == Statuses(front) + [last];
    forall k | 0 <= k < |rest|
      ensures rest[k] in Statuses(front)
    {
      assert rest[k] in refs && rest[k] != last;
    }
  }

  /** The page's statistics count the user's referrals: all of them, the
      completed ones and the pending ones. */
  lemma FoldStatsCountsReferrals(rows: seq<StatusCount>, refs: seq<Option<string>>)
    requires IsGrouping(rows, refs)
    ensures SumCounts(rows) == |refs|
    ensures LastCountOf(rows, Some(CompletedStatus)) == Count(refs, Some(CompletedStatus))
    ensures LastCountOf(rows, Some(PendingStatus)) == Count(refs, Some(PendingStatus))
  {
    SumCountsOfGrouping(rows, refs);
    LastCountOfGrouping(rows, refs, Some(CompletedStatus));
    LastCountOfGrouping(rows, refs, Some(PendingStatus));
  }
}

=== FILE: customer_details.dfy ===
/** The admin's view of one customer's checklist
    (client/src/pages/admin/CustomerDetails.tsx): the query function that
    normalises the stored checklist, the gender label and the name of the
    downloaded logo. */
module CustomerDetails {
  import opened Wrappers
  import opened Seqs
  import opened Text

  /** The JSON values the normalisation looks at. Objects are opaque here:
      only their truthiness matters to it. */
  datatype Json = Str(s: string) | Num(n: int) | Bool(b: bool) | Null | Undefined | Arr(items: seq<Json>) | Obj

  /** JavaScript truthiness; NaN is left out. */
  predicate Truthy(v: Json) {
    match v
    case Str(s) => s != ""
    case Num(n) => n != 0
    case Bool(b) => b
    case Null => false
    case Undefined => false
    case Arr(_) => true
    case Obj => true
  }

  /** `a || b`: the first operand when it is truthy, else the second, whatever it is. */
  function Or(a: Json, b: Json): (r: Json)
    ensures Truthy(r) <==> Truthy(a) || Truthy(b)
    ensures r == a || r == b
  {
    if Truthy(a) then a else b
  }

  function Strs(xs: seq<string>): (r: seq<Json>)
    ensures |r| == |xs|
    ensures forall k :: 0 <= k < |xs| ==> r[k] == Str(xs[k])
  {
    seq(|xs|, k requires 0 <= k < |xs| => Str(xs[k]))
  }

  function TrimAll(xs: seq<string>): (r: seq<string>)
    ensures |r| == |xs|
    ensures forall k :: 0 <= k < |xs| ==> r[k] == Trim(xs[k])
  {
    seq(|xs|, k requires 0 <= k < |xs| => Trim(xs[k]))
  }

  /** `s.split(',').map(s => s.trim()).filter(Boolean)`. */
  function SplitNames(s: string): (r: seq<string>)
  {
    Filter(TrimAll(Split(s, ',')), (t: string) => t != "")
  }

  /** The competitor list: an array is kept as it is, a string is split at
      commas into trimmed non-empty names, anything else gives no
      competitors. */
  function Competitors(v: Json): (r: seq<Json>)
    ensures v.Arr? ==> r == v.items
    ensures v.Str? ==> forall k :: 0 <= k < |r| ==>
              r[k].Str? && r[k].s != "" && Trim(r[k].s) == r[k].s && Absent(',', r[k].s)
    ensures !v.Arr? && !v.Str? ==> r == []
  {
    match v
    case Arr(items) => items
    case Str(s) =>
      SplitNamesClean(s);
      Strs(SplitNames(s))
    case _ => []
  }

  /** Every name `SplitNames` returns is non-empty, trimmed and comma-free. */
  lemma SplitNamesClean(s: string)
    ensures forall k :: 0 <= k < |SplitNames(s)| ==>
              SplitNames(s)[k] != "" && Trim(SplitNames(s)[k]) == SplitNames(s)[k] && Absent(',', SplitNames(s)[k])
  {
    var parts := Split(s, ',');
    var trimmed := TrimAll(parts);
    SplitPiecesFree(s, ',');
    forall k | 0 <= k < |trimmed|
      ensures Trim(trimmed[k]) == trimmed[k] && Absent(',', trimmed[k])
    {
      TrimIdempotent(parts[k]);
      TrimKeepsAbsent(parts[k], ',');
    }
  }

  /** Trimming removes characters and adds none. */
  lemma TrimKeepsAbsent(s: string, c: char)
    requires Absent(c, s)
    ensures Absent(c, Trim(s))
  {
    var r := Trim(s);
    forall j | 0 <= j < |r|
      ensures r[j] != c
    {
      assert r[j] == s[LeadingSpace(s) + j];
    }
  }

  /** Names written with commas between them come back one by one. */
  lemma CompetitorsOfJoinedNames(names: seq<string>)
    requires names != []
    requires forall k :: 0 <= k < |names| ==> names[k] != "" && Trim(names[k]) == names[k] && Absent(',', names[k])
    ensures Competitors(Str(Join(names, ','))) == Strs(names)
  {
    SplitNamesOfJoin(names);
  }

  /** Splitting names joined with commas gives them back when each is
      non-empty, trimmed and comma-free. */
  lemma SplitNamesOfJoin(names: seq<string>)
    requires names != []
    requires forall k :: 0 <= k < |names| ==> names[k] != "" && Trim(names[k]) == names[k] && Absent(',', names[k])
    ensures SplitNames(Join(names, ',')) == names
  {
    SplitJoin(names, ',');
    TrimAllFixed(names);
    FilterAll(names, (t: string) => t != "");
  }

  lemma TrimAllFixed(names: seq<string>)
    requires forall k :: 0 <= k < |names| ==> Trim(names[k]) == names[k]
    ensures TrimAll(names) == names
  {
  }

  /** `Array.isArray(snake) ? snake : Array.isArray(camel) ? camel : []`. */
  function Interests(snake: Json, camel: Json): (r: seq<Json>)
    ensures snake.Arr? ==> r == snake.items
    ensures !snake.Arr? && camel.Arr? ==> r == camel.items
    ensures !snake.Arr? && !camel.Arr? ==> r == []
  {
    if snake.Arr? then snake.items else if camel.Arr? then camel.items else []
  }

  /** The fields of the server's checklist answer that the query function
      reads; a missing field is `Undefined`. `nested*` are the fields of the
      parsed `marketResearch` (Undefined when it is missing). */
  datatype RawChecklist = RawChecklist(
    snakeGender: Json, camelGender: Json,
    snakeAge: Json, camelAge: Json,
    snakeLocation: Json, camelLocation: Json,
    snakeInterests: Json, camelInterests: Json,
    competitors: Json,
    uniqueSellingPoint: Json, nestedUniqueSellingPoint: Json,
    marketSize: Json, nestedMarketSize: Json)

  /** The normalised fields the page renders. */
  datatype ChecklistView = ChecklistView(
    gender: Json, age: Json, location: Json, interests: seq<Json>,
    competitors: seq<Json>, uniqueSellingPoint: Json, marketSize: Json)

  /** The query function's normalisation. */
  function Normalise(raw: RawChecklist): (v: ChecklistView)
    ensures v.gender == Or(raw.snakeGender, raw.camelGender)
    ensures v.age == Or(raw.snakeAge, raw.camelAge)
    ensures v.location == Or(raw.snakeLocation, raw.camelLocation)
    ensures v.interests == Interests(raw.snakeInterests, raw.camelInterests)
    ensures v.competitors == Competitors(raw.competitors)
    ensures Truthy(v.uniqueSellingPoint) || v.uniqueSellingPoint == Str("")
    ensures Truthy(v.marketSize) || v.marketSize == Str("")
    ensures Truthy(raw.uniqueSellingPoint) ==> v.uniqueSellingPoint == raw.uniqueSellingPoint
    ensures !Truthy(raw.uniqueSellingPoint) && Truthy(raw.nestedUniqueSellingPoint) ==>
              v.uniqueSellingPoint == raw.nestedUniqueSellingPoint
    ensures Truthy(raw.marketSize) ==> v.marketSize == raw.marketSize
    ensures !Truthy(raw.marketSize) && Truthy(raw.nestedMarketSize) ==> v.marketSize == raw.nestedMarketSize
  {
    ChecklistView(
      Or(raw.snakeGender, raw.camelGender),
      Or(raw.snakeAge, raw.camelAge),
      Or(raw.snakeLocation, raw.camelLocation),
      Interests(raw.snakeInterests, raw.camelInterests),
      Competitors(raw.competitors),
      Or(Or(raw.uniqueSellingPoint, raw.nestedUniqueSellingPoint), Str("")),
      Or(Or(raw.marketSize, raw.nestedMarketSize), Str("")))
  }

  /** The view sent back as camelCase fields, as a save would store it. */
  function AsRaw(v: ChecklistView): RawChecklist {
    RawChecklist(
      Undefined, v.gender, Undefined, v.age, Undefined, v.location,
      Undefined, Arr(v.interests), Arr(v.competitors),
      v.uniqueSellingPoint, Undefined, v.marketSize, Undefined)
  }

  /** Normalising a normalised checklist changes nothing. */
  lemma NormaliseIsStable(raw: RawChecklist)
    ensures Normalise(AsRaw(Normalise(raw))) == Normalise(raw)
  {
  }

  const NotGiven: string := "Nicht angegeben"

  /** The target-group gender cell: the four known values are translated,
      any other truthy value is shown as it is, a falsy one as "not given". */
  function GenderLabel(g: Json): (r: Json)
    ensures !Truthy(g) ==> r == Str(NotGiven)
    ensures g == Str("all") ==> r == Str("Alle")
    ensures g == Str("male") ==> r == Str("Männlich")
    ensures g == Str("female") ==> r == Str("Weiblich")
    ensures g == Str("diverse") ==> r == Str("Divers")
    ensures Truthy(g) && g !in {Str("all"), Str("male"), Str("female"), Str("diverse")} ==> r == g
  {
    if !Truthy(g) then Str(NotGiven)
    else if g == Str("all") then Str("Alle")
    else if g == Str("male") then Str("Männlich")
    else if g == Str("female") then Str("Weiblich")
    else if g == Str("diverse") then Str("Divers")
    else g
  }

  /** The form value behind a translated label. */
  function GenderValue(shown: string): Option<string> {
    if shown == "Alle" then Some("all")
    else if shown == "Männlich" then Some("male")
    else if shown == "Weiblich" then Some("female")
    else if shown == "Divers" then Some("diverse")
    else None
  }

  /** Each known value's label leads back to the value. */
  lemma GenderLabelRoundTrip(value: string)
    requires value in {"all", "male", "female", "diverse"}
    ensures GenderLabel(Str(value)).Str? && GenderValue(GenderLabel(Str(value)).s) == Some(value)
  {
  }

  /** `handleLogoDownload`'s file name, `logo-<id>.<url.split('.').pop()>`;
      `None` when there is no logo URL or it is not a string (the `split`
      throws and the error is caught). */
  function LogoDownloadName(customerId: string, logoUrl: Json): (r: Option<string>)
    ensures r.Some? <==> logoUrl.Str? && logoUrl.s != ""
    ensures r.Some? ==> IsPrefix("logo-" + customerId + ".", r.value)
  {
    match logoUrl
    case Str(url) =>
      if url == "" then None else Some("logo-" + customerId + "." + AfterLast(url, '.'))
    case _ => None
  }

  /** The name ends with the URL's extension, the text after its last dot. */
  lemma LogoNameKeepsExtension(customerId: string, base: string, ext: string)
    requires Absent('.', ext)
    ensures LogoDownloadName(customerId, Str(base + "." + ext)) == Some("logo-" + customerId + "." + ext)
  {
    AfterLastOfTail(base, '.', ext);
  }

  /** A URL without a dot is taken whole as the "extension". */
  lemma LogoNameOfDotlessUrl(customerId: string, url: string)
    requires url != "" && Absent('.', url)
    ensures LogoDownloadName(customerId, Str(url)) == Some("logo-" + customerId + "." + url)
  {
    IndexOfCharFirst(url, '.');
  }
}

=== FILE: customers_page.dfy ===
/** The admin customer list (client/src/pages/admin/Customers.tsx): a
    search box and a company filter over the customers the server sends. */
module CustomersPage {
  import opened Wrappers
  import opened Seqs
  import opened Text
  import Tracking

  /** The fields of a listed customer the filter reads. */
  datatype Customer = Customer(id: int, firstName: string, lastName: string, email: string, companyId: Option<int>)

  /** `searchTerm ? searchString.toLowerCase().includes(searchTerm.toLowerCase()) : true`. */
  predicate MatchesSearch(c: Customer, searchTerm: string) {
    searchTerm == "" || Includes(ToLower(Tracking.SearchString(c.firstName, c.lastName, c.email)), ToLower(searchTerm))
  }

  /** `!customer.companyId`: no company, or the falsy id 0. */
  predicate NoCompany(c: Customer) {
    c.companyId.None? || c.companyId.value == 0
  }

  /** `filterCompany === "all" || (filterCompany === "none" && !customer.companyId)
      || customer.companyId?.toString() === filterCompany`. */
  predicate MatchesCompany(c: Customer, filterCompany: string) {
    || filterCompany == "all"
    || (filterCompany == "none" && NoCompany(c))
    || (c.companyId.Some? && IntToString(c.companyId.value) == filterCompany)
  }

  predicate Shown(c: Customer, searchTerm: string, filterCompany: string) {
    MatchesSearch(c, searchTerm) && MatchesCompany(c, filterCompany)
  }

  /** `filteredCustomers`. */
  function FilterCustomers(customers: seq<Customer>, searchTerm: string, filterCompany: string): (r: seq<Customer>)
    ensures IsSubsequence(r, customers)
    ensures forall k :: 0 <= k < |r| ==> MatchesSearch(r[k], searchTerm) && MatchesCompany(r[k], filterCompany)
    ensures forall k :: 0 <= k < |customers| && Shown(customers[k], searchTerm, filterCompany) ==> customers[k] in r
  {
    Filter(customers, (c: Customer) => Shown(c, searchTerm, filterCompany))
  }

  /** The guard on the empty term changes nothing: every string includes
      the empty string, so the test is the tracking page's test. */
  lemma SearchAgreesWithTracking(c: Customer, searchTerm: string)
    ensures MatchesSearch(c, searchTerm)
            <==> Tracking.MatchesTerm(Tracking.CustomerData(c.id, c.firstName, c.lastName, c.email, "", None), searchTerm)
  {
    IncludesEmpty(ToLower(Tracking.SearchString(c.firstName, c.lastName, c.email)));
  }

  /** "none" lists exactly the customers without a company, which includes
      a customer whose company id is 0. */
  lemma NoneFilterMatchesWithoutCompany(c: Customer)
    ensures MatchesCompany(c, "none") <==> NoCompany(c)
    ensures c.companyId == Some(0) ==> MatchesCompany(c, "none") && MatchesCompany(c, "0")
  {
    if c.companyId.Some? {
      PrintedIdIsNotKeyword(c.companyId.value);
    }
  }

  /** Any printed company id selects exactly the customers of that company. */
  lemma IdFilterMatchesThatCompany(c: Customer, id: int)
    ensures MatchesCompany(c, IntToString(id)) <==> c.companyId == Some(id)
  {
    PrintedIdIsNotKeyword(id);
    if c.companyId.Some? && IntToString(c.companyId.value) == IntToString(id) {
      IntToStringInjective(c.companyId.value, id);
    }
  }

  /** A printed integer starts with a digit or a minus sign, so it is never
      one of the two keywords. */
  lemma PrintedIdIsNotKeyword(n: int)
    ensures IntToString(n) != "all" && IntToString(n) != "none"
  {
    SignShows(n);
    if n >= 0 {
      assert IsAsciiDigit(IntToString(n)[0]);
    }
  }

  /** The page's filter state. */
  datatype PageState = PageState(searchTerm: string, filterCompany: string)

  /** `useState("")` and `useState<string>("all")`. */
  const InitialPage: PageState := PageState("", "all")

  /** The only state change the page wires up: typing in the search box. */
  function TypeSearch(st: PageState, value: string): (r: PageState)
    ensures r.searchTerm == value && r.filterCompany == st.filterCompany
  {
    st.(searchTerm := value)
  }

  /** The state after a run of search inputs from the initial state. */
  function AfterTyping(inputs: seq<string>): (st: PageState)
    ensures inputs == [] ==> st == InitialPage
    ensures inputs != [] ==> st.searchTerm == inputs[|inputs| - 1]
  {
    if inputs == [] then InitialPage else TypeSearch(AfterTyping(inputs[..|inputs| - 1]), inputs[|inputs| - 1])
  }

  /** Nothing ever calls `setFilterCompany`, so the company filter stays
      "all" and only the search decides what is listed. */
  lemma {:induction false} OnlySearchFilters(inputs: seq<string>, customers: seq<Customer>)
    ensures AfterTyping(inputs).filterCompany == "all"
    ensures FilterCustomers(customers, AfterTyping(inputs).searchTerm, "all")
            == Filter(customers, (c: Customer) => MatchesSearch(c, AfterTyping(inputs).searchTerm))
  {
    if inputs != [] {
      OnlySearchFilters(inputs[..|inputs| - 1], customers);
    }
    var term := AfterTyping(inputs).searchTerm;
    FilterSame(customers, (c: Customer) => Shown(c, term, "all"), (c: Customer) => MatchesSearch(c, term));
  }
}

=== FILE: forms.dfy ===
/** The zod schemas behind the client's forms and the request bodies built
    from them: the new-password form (client/src/pages/ResetPassword.tsx),
    registration (client/src/pages/Register.tsx), the admin's company and
    password forms (client/src/pages/admin/Settings.tsx) and the customer's
    profile and password forms
    (client/src/components/dashboard/CustomerSettings.tsx).

    A schema is modelled as the list of issues it reports, in zod's order:
    the fields in declaration order, each field's checks in order, then the
    object's `refine`. Field checks do not abort the object, so the `refine`
    runs even when a field has failed and every issue is reported. `.email()`
    is the parameter `isEmail`. */
module Forms {
  import opened Wrappers
  import opened Text
  import AuthRoutes

  /** A validation issue: the field it is shown under and its message. */
  datatype Issue = Issue(path: string, message: string)

  /** One check of a schema: whether it holds, and what it reports when it
      does not. */
  datatype Rule = Rule(ok: bool, issue: Issue)

  /** The issues of the failing rules, in the rules' order. */
  function Report(rules: seq<Rule>): (issues: seq<Issue>)
    ensures |issues| <= |rules|
    decreases |rules|
  {
    if rules == [] then []
    else (if rules[0].ok then [] else [rules[0].issue]) + Report(rules[1..])
  }

  /** A schema passes exactly when every rule holds. */
  lemma {:induction false} ReportEmpty(rules: seq<Rule>)
    ensures Report(rules) == [] <==> forall r :: r in rules ==> r.ok
    decreases |rules|
  {
    if rules != [] {
      ReportEmpty(rules[1..]);
      assert rules == [rules[0]] + rules[1..];
    }
  }

  /** An issue is reported exactly when some failing rule reports it: every
      failing rule is reported, not only the first. */
  lemma {:induction false} ReportHas(rules: seq<Rule>, i: Issue)
    ensures i in Report(rules) <==> Rule(false, i) in rules
    decreases |rules|
  {
    if rules != [] {
      ReportHas(rules[1..], i);
      assert rules == [rules[0]] + rules[1..];
    }
  }

  /** A rule whose issue no other rule carries is reported exactly when it
      fails. */
  lemma ReportsDistinctIssue(rules: seq<Rule>, k: nat)
    requires k < |rules|
    requires forall j :: 0 <= j < |rules| && j != k ==> rules[j].issue != rules[k].issue
    ensures rules[k].issue in Report(rules) <==> !rules[k].ok
  {
    ReportHas(rules, rules[k].issue);
    if Rule(false, rules[k].issue) in rules {
      var j :| 0 <= j < |rules| && rules[j] == Rule(false, rules[k].issue);
      assert j == k;
    }
  }

  /** `z.string().min(n, message)`; JavaScript counts UTF-16 units. */
  function Min(path: string, value: string, n: nat, message: string): (r: Rule)
    ensures r.ok <==> Utf16Length(value) >= n
    ensures r.issue == Issue(path, message)
  {
    Rule(Utf16Length(value) >= n, Issue(path, message))
  }

  /** `.min(1)`: the field is not empty. */
  lemma MinOneIsNonEmpty(value: string)
    ensures Utf16Length(value) >= 1 <==> value != ""
  {
    Utf16LengthZero(value);
  }

  // ------------------------------------------------------- reset password

  predicate HasUpper(s: string) { exists i :: 0 <= i < |s| && IsAsciiUpper(s[i]) }
  predicate HasLower(s: string) { exists i :: 0 <= i < |s| && IsAsciiLower(s[i]) }
  predicate HasDigit(s: string) { exists i :: 0 <= i < |s| && IsAsciiDigit(s[i]) }

  /** The new-password rules: at least 8 characters, an upper-case letter,
      a lower-case letter and a digit. */
  predicate StrongPassword(p: string) {
    Utf16Length(p) >= 8 && HasUpper(p) && HasLower(p) && HasDigit(p)
  }

  const TooShort8: string := "Das Passwort muss mindestens 8 Zeichen lang sein"
  const NeedsUpper: string := "Das Passwort muss mindestens einen Großbuchstaben enthalten"
  const NeedsLower: string := "Das Passwort muss mindestens einen Kleinbuchstaben enthalten"
  const NeedsDigit: string := "Das Passwort muss mindestens eine Zahl enthalten"
  const ResetMismatch: string := "Die Passwörter stimmen nicht überein"

  datatype ResetForm = ResetForm(password: string, confirmPassword: string)

  /** The four password messages tell the rules apart. */
  lemma PasswordMessagesDistinct()
    ensures TooShort8 != NeedsUpper && TooShort8 != NeedsLower && TooShort8 != NeedsDigit
    ensures NeedsUpper != NeedsLower && NeedsUpper != NeedsDigit && NeedsLower != NeedsDigit
  {
    assert |TooShort8| == |NeedsDigit| < |NeedsUpper| < |NeedsLower|;
    assert TooShort8[29] == '8' && NeedsDigit[29] == 'e';
  }

  /** `resetPasswordSchema`'s checks: the password's four, then the
      `refine`. */
  function ResetRules(v: ResetForm): seq<Rule> {
    [ Min("password", v.password, 8, TooShort8),
      Rule(HasUpper(v.password), Issue("password", NeedsUpper)),
      Rule(HasLower(v.password), Issue("password", NeedsLower)),
      Rule(HasDigit(v.password), Issue("password", NeedsDigit)),
      Rule(v.password == v.confirmPassword, Issue("confirmPassword", ResetMismatch)) ]
  }

  /** `resetPasswordSchema`. */
  function ResetIssues(v: ResetForm): (issues: seq<Issue>)
    ensures issues == [] <==> StrongPassword(v.password) && v.password == v.confirmPassword
  {
    ReportEmpty(ResetRules(v));
    Report(ResetRules(v))
  }

  /** A password rule's message is reported exactly when that rule fails:
      the other rules' issues carry other messages or another field. */
  lemma ResetReportsRule(v: ResetForm, k: nat)
    requires k < |ResetRules(v)|
    ensures ResetRules(v)[k].issue in ResetIssues(v) <==> !ResetRules(v)[k].ok
  {
    var rules := ResetRules(v);
    PasswordMessagesDistinct();
    assert |ResetMismatch| != |TooShort8| && |ResetMismatch| != |NeedsUpper|;
    assert |ResetMismatch| != |NeedsLower| && |ResetMismatch| != |NeedsDigit|;
    ReportHas(rules, rules[k].issue);
  }

  /** Each failing rule reports its own message, the mismatch on the
      confirmation field even when the password has failed too. */
  lemma ResetReportsEachRule(v: ResetForm)
    ensures Issue("password", TooShort8) in ResetIssues(v) <==> Utf16Length(v.password) < 8
    ensures Issue("password", NeedsUpper) in ResetIssues(v) <==> !HasUpper(v.password)
    ensures Issue("password", NeedsLower) in ResetIssues(v) <==> !HasLower(v.password)
    ensures Issue("password", NeedsDigit) in ResetIssues(v) <==> !HasDigit(v.password)
    ensures Issue("confirmPassword", ResetMismatch) in ResetIssues(v) <==> v.password != v.confirmPassword
  {
    ResetReportsRule(v, 0);
    ResetReportsRule(v, 1);
    ResetReportsRule(v, 2);
    ResetReportsRule(v, 3);
    ResetReportsRule(v, 4);
  }

  // ------------------------------------------------------------- register

  const InvalidEmail: string := "Ungültige E-Mail-Adresse"
  const PasswordTooShort: string := "Passwort muss mindestens 8 Zeichen lang sein"
  const ConfirmRequired: string := "Passwort bestätigen ist erforderlich"
  const FirstNameRequired: string := "Vorname ist erforderlich"
  const LastNameRequired: string := "Nachname ist erforderlich"
  const CompanyNameRequired: string := "Firmenname ist erforderlich"
  const Mismatch: string := "Passwörter stimmen nicht überein"

  datatype RegisterForm = RegisterForm(
    email: string, password: string, confirmPassword: string,
    firstName: string, lastName: string, companyName: string)

  function RegisterRules(v: RegisterForm, isEmail: string -> bool): seq<Rule> {
    [ Rule(isEmail(v.email), Issue("email", InvalidEmail)),
      Min("password", v.password, 8, PasswordTooShort),
      Min("confirmPassword", v.confirmPassword, 1, ConfirmRequired),
      Min("firstName", v.firstName, 1, FirstNameRequired),
      Min("lastName", v.lastName, 1, LastNameRequired),
      Min("companyName", v.companyName, 1, CompanyNameRequired),
      Rule(v.password == v.confirmPassword, Issue("confirmPassword", Mismatch)) ]
  }

  /** `registerSchema`. */
  function RegisterIssues(v: RegisterForm, isEmail: string -> bool): (issues: seq<Issue>)
    ensures issues == [] <==>
              isEmail(v.email) && Utf16Length(v.password) >= 8 && v.confirmPassword != ""
              && v.firstName != "" && v.lastName != "" && v.companyName != ""
              && v.password == v.confirmPassword
  {
    MinOneIsNonEmpty(v.confirmPassword);
    MinOneIsNonEmpty(v.firstName);
    MinOneIsNonEmpty(v.lastName);
    MinOneIsNonEmpty(v.companyName);
    ReportEmpty(RegisterRules(v, isEmail));
    Report(RegisterRules(v, isEmail))
  }

  /** The mismatch is reported on the confirmation field whenever the two
      passwords differ. */
  lemma RegisterReportsMismatch(v: RegisterForm, isEmail: string -> bool)
    ensures Issue("confirmPassword", Mismatch) in RegisterIssues(v, isEmail) <==> v.password != v.confirmPassword
  {
    var rules := RegisterRules(v, isEmail);
    ReportHas(rules, Issue("confirmPassword", Mismatch));
    assert |Mismatch| != |ConfirmRequired|;
  }

  /** A register rule's issue is reported exactly when that rule fails; the
      six field issues differ from every other rule's. */
  lemma RegisterReportsRule(v: RegisterForm, isEmail: string -> bool, k: nat)
    requires k < 6
    ensures RegisterRules(v, isEmail)[k].issue in RegisterIssues(v, isEmail) <==> !RegisterRules(v, isEmail)[k].ok
  {
    var rules := RegisterRules(v, isEmail);
    assert |Mismatch| != |ConfirmRequired|;
    assert "password"[0] != "lastName"[0];
    forall j | 0 <= j < |rules| && j != k
      ensures rules[j].issue != rules[k].issue
    {
      assert rules[j].issue.path != rules[k].issue.path || rules[j].issue.message != rules[k].issue.message;
    }
    ReportsDistinctIssue(rules, k);
  }

  /** Each failing field reports its own message, all at once; the
      confirmation can carry both its messages. */
  lemma RegisterReportsEachRule(v: RegisterForm, isEmail: string -> bool)
    ensures Issue("email", InvalidEmail) in RegisterIssues(v, isEmail) <==> !isEmail(v.email)
    ensures Issue("password", PasswordTooShort) in RegisterIssues(v, isEmail) <==> Utf16Length(v.password) < 8
    ensures Issue("confirmPassword", ConfirmRequired) in RegisterIssues(v, isEmail) <==> v.confirmPassword == ""
    ensures Issue("firstName", FirstNameRequired) in RegisterIssues(v, isEmail) <==> v.firstName == ""
    ensures Issue("lastName", LastNameRequired) in RegisterIssues(v, isEmail) <==> v.lastName == ""
    ensures Issue("companyName", CompanyNameRequired) in RegisterIssues(v, isEmail) <==> v.companyName == ""
  {
    MinOneIsNonEmpty(v.confirmPassword);
    MinOneIsNonEmpty(v.firstName);
    MinOneIsNonEmpty(v.lastName);
    MinOneIsNonEmpty(v.companyName);
    RegisterReportsRule(v, isEmail, 0);
    RegisterReportsRule(v, isEmail, 1);
    RegisterReportsRule(v, isEmail, 2);
    RegisterReportsRule(v, isEmail, 3);
    RegisterReportsRule(v, isEmail, 4);
    RegisterReportsRule(v, isEmail, 5);
  }

  /** The body sent to `POST /api/auth/register`: the five fields the
      server reads, without the confirmation. */
  function RegisterRequest(v: RegisterForm): (b: AuthRoutes.RegisterBody)
    ensures b.email == v.email && b.password == Some(v.password)
    ensures b.firstName == Some(v.firstName) && b.lastName == Some(v.lastName) && b.companyName == Some(v.companyName)
  {
    AuthRoutes.RegisterBody(v.email, Some(v.password), Some(v.firstName), Some(v.lastName), Some(v.companyName))
  }

  /** The confirmation never reaches the server: the body does not depend on it. */
  lemma RegisterRequestIgnoresConfirmation(v: RegisterForm, other: string)
    ensures RegisterRequest(v.(confirmPassword := other)) == RegisterRequest(v)
  {
  }

  /** A form that passes sends every field the server stores, a password
      of at least 8 characters and non-empty names. */
  lemma ValidRegistrationBody(v: RegisterForm, isEmail: string -> bool)
    requires RegisterIssues(v, isEmail) == []
    ensures var b := RegisterRequest(v);
            AuthRoutes.HasAllFields(b)
            && isEmail(b.email) && Utf16Length(b.password.value) >= 8
            && b.firstName.value != "" && b.lastName.value != "" && b.companyName.value != ""
  {
  }

  // ------------------------------------------------------ settings forms

  const PhoneRequired: string := "Telefonnummer ist erforderlich"
  const AddressRequired: string := "Adresse ist erforderlich"

  datatype CompanyForm = CompanyForm(companyName: string, email: string, phone: string, address: string)

  function CompanyRules(v: CompanyForm, isEmail: string -> bool): seq<Rule> {
    [ Min("companyName", v.companyName, 1, CompanyNameRequired),
      Rule(isEmail(v.email), Issue("email", InvalidEmail)),
      Min("phone", v.phone, 1, PhoneRequired),
      Min("address", v.address, 1, AddressRequired) ]
  }

  /** `companySettingsSchema` of the admin settings. */
  function CompanyIssues(v: CompanyForm, isEmail: string -> bool): (issues: seq<Issue>)
    ensures issues == [] <==> v.companyName != "" && isEmail(v.email) && v.phone != "" && v.address != ""
  {
    MinOneIsNonEmpty(v.companyName);
    MinOneIsNonEmpty(v.phone);
    MinOneIsNonEmpty(v.address);
    ReportEmpty(CompanyRules(v, isEmail));
    Report(CompanyRules(v, isEmail))
  }

  /** Each empty field and an invalid address report their own message, all
      at once. */
  lemma CompanyReportsEachRule(v: CompanyForm, isEmail: string -> bool)
    ensures Issue("companyName", CompanyNameRequired) in CompanyIssues(v, isEmail) <==> v.companyName == ""
    ensures Issue("email", InvalidEmail) in CompanyIssues(v, isEmail) <==> !isEmail(v.email)
    ensures Issue("phone", PhoneRequired) in CompanyIssues(v, isEmail) <==> v.phone == ""
    ensures Issue("address", AddressRequired) in CompanyIssues(v, isEmail) <==> v.address == ""
  {
    var rules := CompanyRules(v, isEmail);
    MinOneIsNonEmpty(v.companyName);
    MinOneIsNonEmpty(v.phone);
    MinOneIsNonEmpty(v.address);
    ReportHas(rules, Issue("companyName", CompanyNameRequired));
    ReportHas(rules, Issue("email", InvalidEmail));
    ReportHas(rules, Issue("phone", PhoneRequired));
    ReportHas(rules, Issue("address", AddressRequired));
  }

  datatype ProfileForm = ProfileForm(firstName: string, lastName: string, email: string)

  function ProfileRules(v: ProfileForm, isEmail: string -> bool): seq<Rule> {
    [ Min("firstName", v.firstName, 1, FirstNameRequired),
      Min("lastName", v.lastName, 1, LastNameRequired),
      Rule(isEmail(v.email), Issue("email", InvalidEmail)) ]
  }

  /** `customerSettingsSchema`. */
  function ProfileIssues(v: ProfileForm, isEmail: string -> bool): (issues: seq<Issue>)
    ensures issues == [] <==> v.firstName != "" && v.lastName != "" && isEmail(v.email)
  {
    MinOneIsNonEmpty(v.firstName);
    MinOneIsNonEmpty(v.lastName);
    ReportEmpty(ProfileRules(v, isEmail));
    Report(ProfileRules(v, isEmail))
  }

  /** Each empty name and an invalid address report their own message, all
      at once. */
  lemma ProfileReportsEachRule(v: ProfileForm, isEmail: string -> bool)
    ensures Issue("firstName", FirstNameRequired) in ProfileIssues(v, isEmail) <==> v.firstName == ""
    ensures Issue("lastName", LastNameRequired) in ProfileIssues(v, isEmail) <==> v.lastName == ""
    ensures Issue("email", InvalidEmail) in ProfileIssues(v, isEmail) <==> !isEmail(v.email)
  {
    var rules := ProfileRules(v, isEmail);
    MinOneIsNonEmpty(v.firstName);
    MinOneIsNonEmpty(v.lastName);
    ReportHas(rules, Issue("firstName", FirstNameRequired));
    ReportHas(rules, Issue("lastName", LastNameRequired));
    ReportHas(rules, Issue("email", InvalidEmail));
  }

  const CurrentRequired: string := "Aktuelles Passwort ist erforderlich"
  const NewTooShort: string := "Neues Passwort muss mindestens 8 Zeichen lang sein"

  datatype PasswordChangeForm = PasswordChangeForm(currentPassword: string, newPassword: string, confirmPassword: string)

  function PasswordChangeRules(v: PasswordChangeForm): seq<Rule> {
    [ Min("currentPassword", v.currentPassword, 1, CurrentRequired),
      Min("newPassword", v.newPassword, 8, NewTooShort),
      Min("confirmPassword", v.confirmPassword, 1, ConfirmRequired),
      Rule(v.newPassword == v.confirmPassword, Issue("confirmPassword", Mismatch)) ]
  }

  /** `passwordChangeSchema`, the same in the admin and the customer
      settings. */
  function PasswordChangeIssues(v: PasswordChangeForm): (issues: seq<Issue>)
    ensures issues == [] <==>
              v.currentPassword != "" && Utf16Length(v.newPassword) >= 8 && v.confirmPassword != ""
              && v.newPassword == v.confirmPassword
  {
    MinOneIsNonEmpty(v.currentPassword);
    MinOneIsNonEmpty(v.confirmPassword);
    ReportEmpty(PasswordChangeRules(v));
    Report(PasswordChangeRules(v))
  }

  /** The mismatch is reported on the confirmation field whenever the new
      password and its confirmation differ. */
  lemma PasswordChangeReportsMismatch(v: PasswordChangeForm)
    ensures Issue("confirmPassword", Mismatch) in PasswordChangeIssues(v) <==> v.newPassword != v.confirmPassword
  {
    var rules := PasswordChangeRules(v);
    ReportHas(rules, Issue("confirmPassword", Mismatch));
    assert |Mismatch| != |ConfirmRequired|;
  }

  /** Each failing field reports its own message, all at once. */
  lemma PasswordChangeReportsEachRule(v: PasswordChangeForm)
    ensures Issue("currentPassword", CurrentRequired) in PasswordChangeIssues(v) <==> v.currentPassword == ""
    ensures Issue("newPassword", NewTooShort) in PasswordChangeIssues(v) <==> Utf16Length(v.newPassword) < 8
    ensures Issue("confirmPassword", ConfirmRequired) in PasswordChangeIssues(v) <==> v.confirmPassword == ""
  {
    var rules := PasswordChangeRules(v);
    assert |Mismatch| != |ConfirmRequired|;
    MinOneIsNonEmpty(v.currentPassword);
    MinOneIsNonEmpty(v.confirmPassword);
    ReportHas(rules, Issue("currentPassword", CurrentRequired));
    ReportHas(rules, Issue("newPassword", NewTooShort));
    ReportHas(rules, Issue("confirmPassword", ConfirmRequired));
  }

  /** The body of the change-password request. */
  datatype PasswordChangeBody = PasswordChangeBody(currentPassword: string, newPassword: string)

  function PasswordChangeRequest(v: PasswordChangeForm): (b: PasswordChangeBody)
    ensures b.currentPassword == v.currentPassword && b.newPassword == v.newPassword
  {
    PasswordChangeBody(v.currentPassword, v.newPassword)
  }

  /** The confirmation stays in the browser. */
  lemma PasswordChangeRequestIgnoresConfirmation(v: PasswordChangeForm, other: string)
    ensures PasswordChangeRequest(v.(confirmPassword := other)) == PasswordChangeRequest(v)
  {
  }

  /** The customer's "change password" button: enabled once all three
      fields hold something. */
  predicate ChangePasswordEnabled(v: PasswordChangeForm) {
    v.currentPassword != "" && v.newPassword != "" && v.confirmPassword != ""
  }

  /** Every form the schema accepts can be submitted; the button does not
      hide a valid form. */
  lemma ValidPasswordChangeIsEnabled(v: PasswordChangeForm)
    requires PasswordChangeIssues(v) == []
    ensures ChangePasswordEnabled(v)
  {
    Utf16LengthZero(v.newPassword);
  }

  /** The button is weaker than the schema: it lets through a form the
      schema then rejects. */
  lemma EnabledPasswordChangeMayBeInvalid()
    ensures var v := PasswordChangeForm("alt", "neu", "neu");
            ChangePasswordEnabled(v) && PasswordChangeIssues(v) == [Issue("newPassword", NewTooShort)]
  {
    var v := PasswordChangeForm("alt", "neu", "neu");
    var rules := PasswordChangeRules(v);
    assert Utf16Length("alt") == 3 && Utf16Length("neu") == 3;
    assert rules[0].ok && !rules[1].ok && rules[2].ok && rules[3].ok;
    assert Report(rules[3..]) == [] by { assert rules[3..][1..] == []; }
    assert Report(rules[2..]) == [] by { assert rules[2..][1..] == rules[3..]; }
    assert Report(rules[1..]) == [rules[1].issue] by { assert rules[1..][1..] == rules[2..]; }
  }
}

=== FILE: onboarding_routes.dfy ===
/** The server-side onboarding transitions (server/routes.ts): the two legacy
    handlers that complete onboarding once both the checklist and the intro
    video are done, the wizard's completion call, the effective checklist save
    of `POST /api/customer/checklist`, and the admin's phase update. */
module OnboardingRoutes {
  import opened Wrappers
  import opened Seqs
  import opened Schema
  import opened AuthRoutes
  import Phases
  import Text

  const ChecklistMarker: string := "Checkliste"
  const IntroVideoMarker: string := "Einführungsvideo"

  /** The checklist form as the client posts it; `None` is an absent field.
      The JSON sections are carried as their `JSON.stringify` text. */
  datatype ChecklistBody = ChecklistBody(
    paymentOption: Option<string>,
    paymentMethod: Option<string>,
    taxId: Option<string>,
    domain: Option<string>,
    targetAudience: Option<string>,
    companyInfo: Option<string>,
    webDesign: Option<string>,
    marketResearch: Option<string>,
    legalInfo: Option<string>,
    targetGroupGender: Option<string>,
    targetGroupAge: Option<string>,
    targetGroupLocation: Option<string>,
    targetGroupInterests: Option<seq<string>>,
    uniqueSellingPoint: Option<string>,
    marketSize: Option<string>)

  /** The body carries every field the NOT NULL columns need. */
  predicate HasRequiredFields(b: ChecklistBody) {
    b.paymentOption.Some? && b.taxId.Some? && b.domain.Some?
    && b.webDesign.Some? && b.marketResearch.Some? && b.legalInfo.Some?
  }

  /** Rewrites one user's row. */
  function SetUser(st: Store, id: nat, f: User -> User): Store {
    st.(users := UpdateRow(st.users, id, f))
  }

  /** `st'` differs from `st` in the row of user `id` at most. */
  ghost predicate OnlyUserChanged(st: Store, st': Store, id: nat) {
    st' == st.(users := st'.users)
    && st'.users.nextId == st.users.nextId && st'.users.rows.Keys == st.users.rows.Keys
    && forall k :: k in st.users.rows && k != id ==> st'.users.rows[k] == st.users.rows[k]
  }

  // ----------------------------------------------------- POST /api/checklist

  /** The values the legacy checklist handler inserts. */
  function LegacyValues(b: ChecklistBody): ChecklistValues {
    ChecklistValues(b.paymentOption, None, b.taxId, b.domain, b.targetAudience, b.companyInfo,
      b.targetGroupGender, b.targetGroupAge, b.targetGroupLocation, Some(b.targetGroupInterests.GetOr([])),
      Some(""), Some(""), b.webDesign, b.marketResearch, b.legalInfo, Some("{}"), Some("{}"))
  }

  /** `POST /api/checklist`: stores a new checklist row, then either completes
      onboarding (the intro video is already done) or appends the checklist
      marker, without checking whether it is already there. */
  function LegacySaveChecklist(st: Store, session: Option<nat>, body: ChecklistBody, now: int): (r: Reply)
    ensures RequireAuth(st, session).0.Refuse? ==> r == Reply(Unauthorized, st)
    ensures RequireAuth(st, session).0.Admit? && !HasRequiredFields(body) ==> r == Reply(ServerError, st)
    ensures r.status == Ok <==> RequireAuth(st, session).0.Admit? && HasRequiredFields(body)
    ensures r.status == Ok ==>
      var id := RequireAuth(st, session).0.userId;
      var u := st.users.rows[id];
      && id in r.store.users.rows && r.store.users.rows.Keys == st.users.rows.Keys
      && (IntroVideoMarker in u.completedPhases ==>
            r.store.users.rows[id] == u.(onboardingCompleted := true, currentPhase := "Complete", progress := 100,
                                         completedPhases := [ChecklistMarker, "Onboarding", IntroVideoMarker]))
      && (IntroVideoMarker !in u.completedPhases ==>
            r.store.users.rows[id] == u.(completedPhases := u.completedPhases + [ChecklistMarker]))
      && st.checklists.nextId in r.store.checklists.rows
      && r.store.checklists.rows[st.checklists.nextId].userId == id
    ensures r.status == Ok ==>
      var id := RequireAuth(st, session).0.userId;
      && r.store == st.(users := r.store.users, checklists := r.store.checklists)
      && r.store.users.nextId == st.users.nextId
      && (forall j :: j in st.users.rows && j != id ==> r.store.users.rows[j] == st.users.rows[j])
      && ChecklistRow(id, LegacyValues(body), now).Some?
      && r.store.checklists.rows == st.checklists.rows[st.checklists.nextId := ChecklistRow(id, LegacyValues(body), now).value]
  {
    match RequireAuth(st, session).0
    case Refuse(status) => Reply(status, st)
    case Admit(id) =>
      match ChecklistRow(id, LegacyValues(body), now)
      case None => Reply(ServerError, st)
      case Some(row) =>
        var (checklists', _) := Insert(st.checklists, row);
        var st1 := st.(checklists := checklists');
        var completed := st.users.rows[id].completedPhases;
        if IntroVideoMarker in completed then
          Reply(Ok, SetUser(st1, id, (u: User) => u.(onboardingCompleted := true, currentPhase := "Complete", progress := 100,
                                                      completedPhases := [ChecklistMarker, "Onboarding", IntroVideoMarker])))
        else
          Reply(Ok, SetUser(st1, id, (u: User) => u.(completedPhases := completed + [ChecklistMarker])))
  }

  /** The row the legacy handler stores carries the posted fields, no
      payment method, empty selling point and market size, an empty interest
      list when none is posted, and `{}` for the two unused sections. */
  lemma LegacySaveStoredRow(st: Store, session: Option<nat>, body: ChecklistBody, now: int)
    requires LegacySaveChecklist(st, session, body, now).status == Ok
    ensures var c := LegacySaveChecklist(st, session, body, now).store.checklists.rows[st.checklists.nextId];
      && c.userId == session.value && c.createdAt == now
      && Some(c.paymentOption) == body.paymentOption && Some(c.taxId) == body.taxId && Some(c.domain) == body.domain
      && Some(c.webDesign) == body.webDesign && Some(c.legalInfo) == body.legalInfo
      && c.targetAudience == body.targetAudience && c.targetGroupAge == body.targetGroupAge
      && c.paymentMethod == None
      && c.uniqueSellingPoint == Some("") && c.marketSize == Some("")
      && c.targetGroupInterests == Some(body.targetGroupInterests.GetOr([]))
      && c.idealCustomerProfile == "{}" && c.qualificationQuestions == "{}"
  {
  }

  // -------------------------------------------- POST /api/onboarding/checklist

  /** `POST /api/onboarding/checklist` (the intro videos are watched): either
      completes onboarding (the checklist is already done) or appends the
      intro-video marker, without checking whether it is already there. */
  function LegacyFinishVideos(st: Store, session: Option<nat>): (r: Reply)
    ensures RequireAuth(st, session).0.Refuse? ==> r == Reply(Unauthorized, st)
    ensures r.status == Ok <==> RequireAuth(st, session).0.Admit?
    ensures r.status == Ok ==>
      var id := RequireAuth(st, session).0.userId;
      var u := st.users.rows[id];
      && id in r.store.users.rows && OnlyUserChanged(st, r.store, id)
      && (ChecklistMarker in u.completedPhases ==>
            r.store.users.rows[id] == u.(onboardingCompleted := true, currentPhase := "Abgeschlossen", progress := 100,
                                         completedPhases := ["Willkommen", IntroVideoMarker, ChecklistMarker]))
      && (ChecklistMarker !in u.completedPhases ==>
            r.store.users.rows[id] == u.(completedPhases := u.completedPhases + [IntroVideoMarker]))
  {
    match RequireAuth(st, session).0
    case Refuse(status) => Reply(status, st)
    case Admit(id) =>
      var completed := st.users.rows[id].completedPhases;
      if ChecklistMarker in completed then
        Reply(Ok, SetUser(st, id, (u: User) => u.(onboardingCompleted := true, currentPhase := "Abgeschlossen",
                                                  completedPhases := ["Willkommen", IntroVideoMarker, ChecklistMarker],
                                                  progress := 100)))
      else
        Reply(Ok, SetUser(st, id, (u: User) => u.(completedPhases := completed + [IntroVideoMarker])))
  }

  /** The two legacy handlers mirror each other: starting from a user with
      neither marker, doing the checklist and the videos in either order ends
      with onboarding completed at 100 percent. */
  lemma LegacyHandlersCompleteInEitherOrder(st: Store, session: Option<nat>, body: ChecklistBody, now: int)
    requires RequireAuth(st, session).0.Admit?
    requires HasRequiredFields(body)
    requires var u := st.users.rows[session.value];
      ChecklistMarker !in u.completedPhases && IntroVideoMarker !in u.completedPhases
    ensures var id := session.value;
      var a := LegacyFinishVideos(LegacySaveChecklist(st, session, body, now).store, session).store;
      var b := LegacySaveChecklist(LegacyFinishVideos(st, session).store, session, body, now).store;
      && id in a.users.rows && a.users.rows[id].onboardingCompleted && a.users.rows[id].progress == 100
      && id in b.users.rows && b.users.rows[id].onboardingCompleted && b.users.rows[id].progress == 100
      && a.users.rows[id].currentPhase == "Abgeschlossen" && b.users.rows[id].currentPhase == "Complete"
  {
    var id := session.value;
    var s1 := LegacySaveChecklist(st, session, body, now).store;
    assert ChecklistMarker in s1.users.rows[id].completedPhases by {
      assert s1.users.rows[id].completedPhases == st.users.rows[id].completedPhases + [ChecklistMarker];
    }
    assert RequireAuth(s1, session).0.Admit?;
    var s2 := LegacyFinishVideos(st, session).store;
    assert IntroVideoMarker in s2.users.rows[id].completedPhases by {
      assert s2.users.rows[id].completedPhases == st.users.rows[id].completedPhases + [IntroVideoMarker];
    }
    assert RequireAuth(s2, session).0.Admit?;
  }

  /** The legacy checklist handler does not de-duplicate: saving twice
      before the videos records the checklist marker twice. */
  lemma LegacyChecklistDuplicatesMarker(st: Store, session: Option<nat>, body: ChecklistBody, t1: int, t2: int)
    requires RequireAuth(st, session).0.Admit?
    requires HasRequiredFields(body)
    requires IntroVideoMarker !in st.users.rows[session.value].completedPhases
    ensures var s := LegacySaveChecklist(LegacySaveChecklist(st, session, body, t1).store, session, body, t2).store;
      session.value in s.users.rows
      && s.users.rows[session.value].completedPhases
         == st.users.rows[session.value].completedPhases + [ChecklistMarker, ChecklistMarker]
  {
    var id := session.value;
    var s1 := LegacySaveChecklist(st, session, body, t1).store;
    assert s1.users.rows[id].completedPhases == st.users.rows[id].completedPhases + [ChecklistMarker];
    assert IntroVideoMarker !in s1.users.rows[id].completedPhases;
  }

  // -------------------------------------- POST /api/customer/onboarding/complete

  /** `POST /api/customer/onboarding/complete`: the wizard's final step. */
  function CompleteOnboarding(st: Store, session: Option<nat>): (r: Reply)
    ensures RequireAuth(st, session).0.Refuse? ==> r == Reply(Unauthorized, st)
    ensures r.status == Ok <==> RequireAuth(st, session).0.Admit?
    ensures r.status == Ok ==>
      var id := session.value;
      && id in r.store.users.rows && OnlyUserChanged(st, r.store, id)
      && r.store.users.rows[id] == st.users.rows[id].(onboardingCompleted := true, currentPhase := "onboarding", progress := 20,
                                                       completedPhases := ["onboarding", IntroVideoMarker, ChecklistMarker])
  {
    match RequireAuth(st, session).0
    case Refuse(status) => Reply(status, st)
    case Admit(id) =>
      Reply(Ok, SetUser(st, id, (u: User) => u.(onboardingCompleted := true, currentPhase := "onboarding", progress := 20,
                                                completedPhases := ["onboarding", IntroVideoMarker, ChecklistMarker])))
  }

  /** After the wizard completes, the dashboard computes the very percentage
      the server stored, and checks only the first roadmap step. */
  lemma CompleteOnboardingMatchesDashboard(st: Store, session: Option<nat>)
    requires CompleteOnboarding(st, session).status == Ok
    ensures var u := CompleteOnboarding(st, session).store.users.rows[session.value];
      && Phases.CalculateProgress(u.currentPhase, u.completedPhases) == u.progress
      && Phases.IsStepCompleted(1, u.currentPhase, u.completedPhases)
      && !Phases.IsStepCompleted(2, u.currentPhase, u.completedPhases)
  {
    Phases.PhaseIndexOfSequence(0);
  }

  // ----------------------------------------------- POST /api/customer/checklist

  /** The values the effective checklist handler inserts. */
  function SaveValues(b: ChecklistBody): ChecklistValues {
    ChecklistValues(b.paymentOption, b.paymentMethod, b.taxId, b.domain, b.targetAudience, b.companyInfo,
      b.targetGroupGender, b.targetGroupAge, b.targetGroupLocation, b.targetGroupInterests,
      b.uniqueSellingPoint, b.marketSize, b.webDesign, b.marketResearch, b.legalInfo, Some("{}"), Some("{}"))
  }

  /** The ORM leaves a column alone when its new value is undefined. */
  function Keep<T>(given: Option<T>, stored: T): T {
    given.GetOr(stored)
  }

  /** `Keep` for a nullable column. */
  function KeepNullable<T>(given: Option<T>, stored: Option<T>): Option<T> {
    if given.Some? then given else stored
  }

  /** The update of an existing checklist: fields the body carries replace
      the stored ones, absent ones are kept, the two unused JSON sections are
      reset to `{}` and the update time is stamped. */
  function MergeChecklist(c: Checklist, b: ChecklistBody, now: int): (m: Checklist)
    ensures m.userId == c.userId && m.createdAt == c.createdAt && m.updatedAt == now
    ensures b.paymentOption.Some? ==> m.paymentOption == b.paymentOption.value
    ensures b.paymentOption.None? ==> m.paymentOption == c.paymentOption
    ensures b.webDesign.Some? ==> m.webDesign == b.webDesign.value
    ensures b.webDesign.None? ==> m.webDesign == c.webDesign
    ensures b.targetGroupInterests.Some? ==> m.targetGroupInterests == b.targetGroupInterests
    ensures b.targetGroupInterests.None? ==> m.targetGroupInterests == c.targetGroupInterests
    ensures m.idealCustomerProfile == "{}" && m.qualificationQuestions == "{}"
  {
    c.(paymentOption := Keep(b.paymentOption, c.paymentOption),
       paymentMethod := KeepNullable(b.paymentMethod, c.paymentMethod),
       taxId := Keep(b.taxId, c.taxId),
       domain := Keep(b.domain, c.domain),
       targetAudience := KeepNullable(b.targetAudience, c.targetAudience),
       companyInfo := KeepNullable(b.companyInfo, c.companyInfo),
       webDesign := Keep(b.webDesign, c.webDesign),
       marketResearch := Keep(b.marketResearch, c.marketResearch),
       legalInfo := Keep(b.legalInfo, c.legalInfo),
       targetGroupGender := KeepNullable(b.targetGroupGender, c.targetGroupGender),
       targetGroupAge := KeepNullable(b.targetGroupAge, c.targetGroupAge),
       targetGroupLocation := KeepNullable(b.targetGroupLocation, c.targetGroupLocation),
       targetGroupInterests := KeepNullable(b.targetGroupInterests, c.targetGroupInterests),
       uniqueSellingPoint := KeepNullable(b.uniqueSellingPoint, c.uniqueSellingPoint),
       marketSize := KeepNullable(b.marketSize, c.marketSize),
       idealCustomerProfile := "{}",
       qualificationQuestions := "{}",
       updatedAt := now)
  }

  /** Merging the same body twice at the same time is merging it once. */
  lemma MergeChecklistIdempotent(c: Checklist, b: ChecklistBody, now: int)
    ensures MergeChecklist(MergeChecklist(c, b, now), b, now) == MergeChecklist(c, b, now)
  {
  }

  /** The customer's phase after a checklist save. */
  function ChecklistSaved(u: User): (v: User)
    ensures v.currentPhase == ChecklistMarker && v.progress == 40
    ensures v.completedPhases == AppendIfAbsent(u.completedPhases, ChecklistMarker)
    ensures v == u.(currentPhase := v.currentPhase, progress := v.progress, completedPhases := v.completedPhases)
  {
    u.(currentPhase := ChecklistMarker, progress := 40, completedPhases := AppendIfAbsent(u.completedPhases, ChecklistMarker))
  }

  /** The user has at least one stored checklist. */
  ghost predicate HasChecklist(st: Store, id: nat) {
    exists k :: k in st.checklists.rows && st.checklists.rows[k].userId == id
  }

  /** `POST /api/customer/checklist` (the handler registered first for this
      path): update every checklist of the user if one exists, insert one
      otherwise, then record the checklist phase at 40 percent. */
  function SaveCustomerChecklist(st: Store, session: Option<nat>, body: ChecklistBody, now: int): (r: Reply)
    ensures RequireAuth(st, session).0.Refuse? ==> r == Reply(Unauthorized, st)
    ensures r.status == Ok || r.status == Unauthorized || r.status == ServerError
    ensures r.status == Unauthorized <==> RequireAuth(st, session).0.Refuse?
    ensures r.status == ServerError <==>
      RequireAuth(st, session).0.Admit? && !HasChecklist(st, session.value)
      && !HasRequiredChecklistFields(SaveValues(body))
    ensures r.status == ServerError ==>
      r.store == st && !HasRequiredChecklistFields(SaveValues(body))
      && forall k :: k in st.checklists.rows ==> st.checklists.rows[k].userId != session.value
    ensures r.status == Ok ==>
      var id := session.value;
      && RequireAuth(st, session).0.Admit? && id in r.store.users.rows
      && r.store.users == UpdateRow(st.users, id, ChecklistSaved)
      && (exists k :: k in r.store.checklists.rows && r.store.checklists.rows[k].userId == id)
      && (forall k :: k in st.checklists.rows && st.checklists.rows[k].userId != id ==>
            k in r.store.checklists.rows && r.store.checklists.rows[k] == st.checklists.rows[k])
    ensures r.status == Ok ==>
      var id := session.value;
      && r.store == st.(users := r.store.users, checklists := r.store.checklists)
      && (HasChecklist(st, id) ==>
            && r.store.checklists.nextId == st.checklists.nextId
            && r.store.checklists.rows.Keys == st.checklists.rows.Keys
            && forall k :: k in st.checklists.rows && st.checklists.rows[k].userId == id ==>
                 r.store.checklists.rows[k] == MergeChecklist(st.checklists.rows[k], body, now))
      && (!HasChecklist(st, id) ==>
            && ChecklistRow(id, SaveValues(body), now).Some?
            && r.store.checklists.rows == st.checklists.rows[st.checklists.nextId := ChecklistRow(id, SaveValues(body), now).value])
  {
    match RequireAuth(st, session).0
    case Refuse(status) => Reply(status, st)
    case Admit(id) =>
      var mine := (c: Checklist) => c.userId == id;
      match FirstWhere(st.checklists, mine)
      case Some(k) =>
        var checklists' := UpdateWhere(st.checklists, mine, (c: Checklist) => MergeChecklist(c, body, now));
        assert checklists'.rows[k].userId == id;
        Reply(Ok, st.(checklists := checklists', users := UpdateRow(st.users, id, ChecklistSaved)))
      case None =>
        match ChecklistRow(id, SaveValues(body), now)
        case None => Reply(ServerError, st)
        case Some(row) =>
          var (checklists', k) := Insert(st.checklists, row);
          assert checklists'.rows[k].userId == id;
          Reply(Ok, st.(checklists := checklists', users := UpdateRow(st.users, id, ChecklistSaved)))
  }

  /** The checklist marker is recorded exactly once by a save, after the
      phases already completed, which stay in order. */
  lemma ChecklistSavedMarkerOnce(u: User)
    ensures Count(ChecklistSaved(u).completedPhases, ChecklistMarker)
            == (if ChecklistMarker in u.completedPhases then Count(u.completedPhases, ChecklistMarker) else 1)
    ensures ChecklistSaved(u).completedPhases[..|u.completedPhases|] == u.completedPhases
    ensures NoDup(u.completedPhases) ==> NoDup(ChecklistSaved(u).completedPhases)
  {
    if NoDup(u.completedPhases) {
      AppendIfAbsentNoDup(u.completedPhases, ChecklistMarker);
    }
  }

  /** Saving the same checklist again changes nothing more about the user. */
  lemma SaveCustomerChecklistIdempotent(st: Store, session: Option<nat>, body: ChecklistBody, t1: int, t2: int)
    requires SaveCustomerChecklist(st, session, body, t1).status == Ok
    ensures var s1 := SaveCustomerChecklist(st, session, body, t1).store;
      SaveCustomerChecklist(s1, session, body, t2).status == Ok
      && SaveCustomerChecklist(s1, session, body, t2).store.users == s1.users
  {
    var id := session.value;
    var s1 := SaveCustomerChecklist(st, session, body, t1).store;
    assert RequireAuth(s1, session).0.Admit?;
    var u1 := s1.users.rows[id];
    assert ChecklistMarker in u1.completedPhases;
    assert ChecklistSaved(u1) == u1;
    var k :| k in s1.checklists.rows && s1.checklists.rows[k].userId == id;
    assert FirstWhere(s1.checklists, (c: Checklist) => c.userId == id).Some?;
    UpdateRowFixed(s1.users, id, ChecklistSaved);
  }

  /** The stored 40 percent is not what the dashboard shows for the
      checklist phase: the dashboard does not know "Checkliste" and reads it
      as 20 (0 before the "onboarding" marker). */
  lemma SavedProgressDisagreesWithDashboard(u: User)
    ensures var v := ChecklistSaved(u);
      v.progress == 40 && Phases.CalculateProgress(v.currentPhase, v.completedPhases) in {0, 20}
  {
    var v := ChecklistSaved(u);
    assert v.currentPhase[0] == 'C';
    assert Text.ToLower(v.currentPhase)[0] == 'c';
  }

  /** Completing the wizard after a checklist save lowers the stored
      progress from 40 to 20. */
  lemma CompleteAfterSaveLowersProgress(st: Store, session: Option<nat>, body: ChecklistBody, now: int)
    requires SaveCustomerChecklist(st, session, body, now).status == Ok
    ensures var s1 := SaveCustomerChecklist(st, session, body, now).store;
      && s1.users.rows[session.value].progress == 40
      && CompleteOnboarding(s1, session).status == Ok
      && CompleteOnboarding(s1, session).store.users.rows[session.value].progress == 20
  {
    var s1 := SaveCustomerChecklist(st, session, body, now).store;
    assert RequireAuth(s1, session).0.Admit?;
  }

  // --------------------------------------- POST /api/admin/user-phase/:userId

  /** The admin handler's progress switch, matched case-sensitively. */
  function AdminProgress(phase: string): (pct: int)
    ensures pct in {20, 40, 60, 80, 100}
  {
    if phase == "landingpage" then 40
    else if phase == "ads" then 60
    else if phase == "whatsapp" then 80
    else if phase == "webinar" then 100
    else 20
  }

  /** For the lower-case phase names the admin page sends, the server's
      percentage is the dashboard's percentage once "onboarding" is done. */
  lemma AdminProgressAgreesWithDashboard(k: nat, completed: seq<string>)
    requires k < |Phases.Sequence|
    requires Phases.OnboardingMarker in completed
    ensures AdminProgress(Phases.Sequence[k]) == Phases.CalculateProgress(Phases.Sequence[k], completed)
  {
    Phases.PhaseIndexOfSequence(k);
  }

  /** Unlike the dashboard, the server does not lower-case the phase. */
  lemma AdminProgressIsCaseSensitive()
    ensures AdminProgress("Ads") == 20
    ensures Phases.CalculateProgress("Ads", ["onboarding"]) == 60
  {
    assert "Ads"[0] != "ads"[0];
    assert Text.ToLower("Ads") == "ads";
    Phases.PhaseIndexOfSequence(2);
  }

  /** The target user of the phase update, when `userId` names one. */
  function TargetUser(st: Store, userId: int): (r: Option<nat>)
    ensures r.Some? <==> 0 <= userId && userId as nat in st.users.rows
    ensures r.Some? ==> r.value == userId
  {
    if 0 <= userId && userId as nat in st.users.rows then Some(userId as nat) else None
  }

  /** The user's phase after the admin sets `phase`. */
  function PhaseSet(u: User, phase: string): (v: User)
    ensures v.currentPhase == phase && v.progress == AdminProgress(phase)
    ensures v.completedPhases == AppendIfAbsent(u.completedPhases, phase)
    ensures v == u.(currentPhase := v.currentPhase, progress := v.progress, completedPhases := v.completedPhases)
  {
    u.(currentPhase := phase, progress := AdminProgress(phase), completedPhases := AppendIfAbsent(u.completedPhases, phase))
  }

  /** The admin's phase update records a phase as completed at most once. */
  lemma PhaseSetNoDup(u: User, phase: string)
    requires NoDup(u.completedPhases)
    ensures NoDup(PhaseSet(u, phase).completedPhases) && phase in PhaseSet(u, phase).completedPhases
  {
    AppendIfAbsentNoDup(u.completedPhases, phase);
  }

  /** Setting the same phase again changes nothing. */
  lemma PhaseSetIdempotent(u: User, phase: string)
    ensures PhaseSet(PhaseSet(u, phase), phase) == PhaseSet(u, phase)
  {
  }

  /** The first tutorial whose category is `phase`. */
  function TutorialFor(st: Store, phase: string): (r: Option<nat>)
    ensures r.Some? ==> r.value in st.tutorials.rows && st.tutorials.rows[r.value].category == phase
    ensures r.None? <==> forall t :: t in st.tutorials.rows ==> st.tutorials.rows[t].category != phase
  {
    FirstWhere(st.tutorials, (t: Tutorial) => t.category == phase)
  }

  /** A progress row for this user and tutorial exists. */
  ghost predicate HasProgress(st: Store, userId: int, tutorialId: nat) {
    exists k :: k in st.progress.rows && st.progress.rows[k].userId == userId && st.progress.rows[k].tutorialId == tutorialId
  }

  /** `POST /api/admin/user-phase/:userId` with body `{ phase }`: sets the
      phase and its percentage, records it as completed once, and marks the
      tutorial of that category as watched unless a progress row exists. */
  function AdminPhaseUpdate(st: Store, session: Option<nat>, userId: int, phase: Option<string>, now: int): (r: Reply)
    ensures RequireAdmin(st, session).Refuse? ==> r == Reply(RequireAdmin(st, session).status, st)
    ensures RequireAdmin(st, session).Admit? && (phase.None? || phase.value == "") ==> r == Reply(BadRequest, st)
    ensures r.status == Ok || r.status == ServerError ==>
      RequireAdmin(st, session).Admit? && phase.Some? && phase.value != ""
    ensures RequireAdmin(st, session).Admit? && phase.Some? && phase.value != "" ==>
      r.status == Ok || r.status == ServerError
    ensures r.status == ServerError <==>
      RequireAdmin(st, session).Admit? && phase.Some? && phase.value != ""
      && TargetUser(st, userId).None? && TutorialFor(st, phase.value).Some?
      && !HasProgress(st, userId, TutorialFor(st, phase.value).value)
    ensures r.status == ServerError ==> r.store == st
    ensures r.status == Ok && TargetUser(st, userId).Some? ==>
      r.store.users == UpdateRow(st.users, userId as nat, (u: User) => PhaseSet(u, phase.value))
    ensures r.status == Ok && TargetUser(st, userId).None? ==> r.store == st
    ensures r.status == Ok ==> r.store.checklists == st.checklists && r.store.callbacks == st.callbacks
                               && r.store.resetTokens == st.resetTokens && r.store.tutorials == st.tutorials
    ensures r.status == Ok && TargetUser(st, userId).Some? && TutorialFor(st, phase.value).Some? ==>
      exists p :: p in r.store.progress.rows && r.store.progress.rows[p].userId == userId
                  && r.store.progress.rows[p].tutorialId == TutorialFor(st, phase.value).value
    ensures r.status == Ok ==> forall p :: p in st.progress.rows ==>
      p in r.store.progress.rows && r.store.progress.rows[p] == st.progress.rows[p]
    ensures r.status == Ok ==> forall p :: p in r.store.progress.rows && p !in st.progress.rows ==>
      TutorialFor(st, phase.value).Some?
      && r.store.progress.rows[p] == ProgressRow(userId as nat, TutorialFor(st, phase.value).value, Some(true), Some(now))
  {
    match RequireAdmin(st, session)
    case Refuse(status) => Reply(status, st)
    case Admit(_) =>
      if phase.None? || phase.value == "" then Reply(BadRequest, st)
      else
        var p := phase.value;
        var target := TargetUser(st, userId);
        var st1 := if target.Some? then SetUser(st, target.value, (u: User) => PhaseSet(u, p)) else st;
        match TutorialFor(st, p)
        case None => Reply(Ok, st1)
        case Some(t) =>
          var existing := FirstWhere(st1.progress, (row: ProgressRow) => row.userId == userId && row.tutorialId == t);
          if existing.Some? then
            Reply(Ok, st1)
          else if target.None? then
            Reply(ServerError, st)
          else
            var (progress', _) := Insert(st1.progress, ProgressRowOf(target.value, t, Some(true), Some(now)));
            Reply(Ok, st1.(progress := progress'))
  }

  /** The phase update keeps the database's constraints: the user keeps its
      e-mail and company, and a new progress row names an existing user and
      tutorial. */
  lemma AdminPhaseUpdateKeepsValid(st: Store, session: Option<nat>, userId: int, phase: Option<string>, now: int)
    requires Valid(st)
    ensures Valid(AdminPhaseUpdate(st, session, userId, phase, now).store)
  {
    var r := AdminPhaseUpdate(st, session, userId, phase, now);
    if r.status == Ok && TargetUser(st, userId).Some? {
      var p := phase.value;
      UpdateUserValid(st, userId as nat, (u: User) => PhaseSet(u, p));
      var st1 := SetUser(st, userId as nat, (u: User) => PhaseSet(u, p));
      assert r.store == st1.(progress := r.store.progress);
      assert ReferencesHold(r.store);
    }
  }

  /** Moving an existing user to a phase answers 200, sets the phase and the
      admin's percentage, and records the phase as completed without
      introducing a duplicate. */
  lemma AdminPhaseUpdateRecordsPhase(st: Store, session: Option<nat>, userId: int, phase: string, now: int)
    requires RequireAdmin(st, session).Admit? && phase != ""
    requires TargetUser(st, userId).Some? && NoDup(st.users.rows[userId as nat].completedPhases)
    ensures var r := AdminPhaseUpdate(st, session, userId, Some(phase), now);
      && r.status == Ok
      && userId as nat in r.store.users.rows
      && r.store.users.rows[userId as nat].currentPhase == phase
      && r.store.users.rows[userId as nat].progress == AdminProgress(phase)
      && phase in r.store.users.rows[userId as nat].completedPhases
      && NoDup(r.store.users.rows[userId as nat].completedPhases)
  {
    PhaseSetNoDup(st.users.rows[userId as nat], phase);
  }

  /** Repeating a successful phase update changes nothing more: the phase is
      already recorded and the tutorial's progress row already exists. */
  lemma AdminPhaseUpdateIdempotent(st: Store, session: Option<nat>, userId: int, phase: Option<string>, t1: int, t2: int)
    requires AdminPhaseUpdate(st, session, userId, phase, t1).status == Ok
    ensures var s1 := AdminPhaseUpdate(st, session, userId, phase, t1).store;
      AdminPhaseUpdate(s1, session, userId, phase, t2) == Reply(Ok, s1)
  {
    var p := phase.value;
    var s1 := AdminPhaseUpdate(st, session, userId, phase, t1).store;
    assert RequireAdmin(s1, session) == RequireAdmin(st, session);
    assert TutorialFor(s1, p) == TutorialFor(st, p);
    if TargetUser(st, userId).Some? {
      var id := userId as nat;
      PhaseSetIdempotent(st.users.rows[id], p);
      UpdateRowFixed(s1.users, id, (u: User) => PhaseSet(u, p));
    }
    if TutorialFor(st, p).Some? {
      assert HasProgress(s1, userId, TutorialFor(st, p).value);
    }
  }
}

=== FILE: onboarding_wizard.dfy ===
/** The first-login wizard (client/src/components/onboarding/OnboardingWizard.tsx):
    three steps (welcome, intro videos, checklist), a progress bar, a video
    cursor that only moves on once the current video is watched, and the
    hand-off to the dashboard for a user who has finished onboarding. */
module OnboardingWizard {
  import opened Wrappers

  datatype StepInfo = StepInfo(title: string, description: string)

  /** `steps`. */
  const Steps: seq<StepInfo> := [
    StepInfo("Willkommen", "Erste Schritte im Portal"),
    StepInfo("Einführungsvideos", "Lernen Sie die wichtigsten Funktionen kennen"),
    StepInfo("Checkliste", "Wichtige Informationen für den Start")
  ]

  const WelcomeStep: nat := 0
  const VideoStep: nat := 1
  const ChecklistStep: nat := 2

  /** The wizard's state: `currentStep`, `currentVideoIndex`, the number of
      fetched videos (0 until the list arrives), `videoWatched` and
      `videoStarted`. */
  datatype Wizard = Wizard(step: nat, videoIndex: nat, videoCount: nat, watched: seq<bool>, started: bool)

  const Initial: Wizard := Wizard(WelcomeStep, 0, 0, [], false)

  /** `(currentStep / (steps.length - 1)) * 100` with `steps.length - 1`
      = 2; for a whole step number `(step / 2) * 100` is exactly `step * 50`. */
  function Progress(step: int): (pct: int)
    ensures pct * 2 == step * 100
    ensures step == WelcomeStep ==> pct == 0
    ensures step == |Steps| - 1 ==> pct == 100
    ensures 0 <= step < |Steps| ==> 0 <= pct <= 100
  {
    step * 50
  }

  /** `videoWatched[i]`, where an index the array does not reach (or a
      hole left by an assignment past its end) reads as `undefined`, which
      is falsy. */
  predicate Watched(w: Wizard, i: int) {
    0 <= i < |w.watched| && w.watched[i]
  }

  /** `a[i] = true` on a copy of the array: past the end the array grows,
      and the holes in between read as false. */
  function SetFlag(a: seq<bool>, i: nat): (r: seq<bool>)
    ensures |r| == if i < |a| then |a| else i + 1
    ensures forall j :: 0 <= j < |r| ==> r[j] == (j == i || (j < |a| && a[j]))
  {
    if i < |a| then a[i := true] else a + seq(i - |a|, _ => false) + [true]
  }

  /** `handleVideoEnded`, and `handleVideoTimeUpdate` once 95% have been
      played (when that happens is not modelled; it is an event). */
  function MarkWatched(w: Wizard): (r: Wizard)
    ensures Watched(r, w.videoIndex)
    ensures forall j :: j != w.videoIndex ==> (Watched(r, j) <==> Watched(w, j))
    ensures r == w.(watched := r.watched)
  {
    w.(watched := SetFlag(w.watched, w.videoIndex))
  }

  /** The "next" button's `disabled`. */
  predicate NextDisabled(w: Wizard) {
    !Watched(w, w.videoIndex)
  }

  /** `handleNextVideo`: the next video while there is one, else the
      checklist step. */
  function HandleNextVideo(w: Wizard): (r: Wizard)
    ensures w.videoIndex + 1 < w.videoCount ==> r.videoIndex == w.videoIndex + 1 && !r.started && r.step == w.step
    ensures w.videoIndex + 1 >= w.videoCount ==> r.step == ChecklistStep && r.videoIndex == w.videoIndex && r.started == w.started
    ensures r.watched == w.watched && r.videoCount == w.videoCount
  {
    if (w.videoIndex as int) < w.videoCount - 1 then w.(videoIndex := w.videoIndex + 1, started := false)
    else w.(step := ChecklistStep)
  }

  /** What can happen to the wizard: the "Starten" button, the video list
      arriving (`setVideoWatched(new Array(data.length).fill(false))`), a
      video being watched to the end, the thumbnail being clicked, and the
      "next" button. */
  datatype Event = Start | VideosLoaded(count: nat) | Watch | Play | Next

  /** The video block, with its buttons, is only shown on the video step
      when there are videos. */
  predicate ShowsVideo(w: Wizard) {
    w.step == VideoStep && w.videoCount > 0
  }

  /** One event: the wizard never goes back a step, reaches the checklist
      only from a watched last video, moves on "next" only past a watched
      video, and a fresh video list starts with nothing watched. */
  function Apply(w: Wizard, e: Event): (r: Wizard)
    ensures r.step >= w.step
    ensures r.step == ChecklistStep && w.step != ChecklistStep ==>
              e == Next && w.step == VideoStep && Watched(w, w.videoIndex) && w.videoIndex + 1 >= w.videoCount
    ensures e == Next && r != w ==> ShowsVideo(w) && Watched(w, w.videoIndex)
    ensures e == Watch && ShowsVideo(w) ==> Watched(r, w.videoIndex)
    ensures !e.VideosLoaded? ==> r.videoCount == w.videoCount
    ensures e.VideosLoaded? ==> r.videoCount == e.count && forall i :: !Watched(r, i)
  {
    match e
    case Start => if w.step == WelcomeStep then w.(step := VideoStep) else w
    case VideosLoaded(n) => w.(videoCount := n, watched := seq(n, _ => false))
    case Watch => if ShowsVideo(w) then MarkWatched(w) else w
    case Play => if ShowsVideo(w) && !w.started then w.(started := true) else w
    case Next => if ShowsVideo(w) && !NextDisabled(w) then HandleNextVideo(w) else w
  }

  function Run(w: Wizard, events: seq<Event>): Wizard
    decreases |events|
  {
    if events == [] then w else Run(Apply(w, events[0]), events[1..])
  }

  /** Pressing "next" moves the wizard only when the current video has been
      watched. */
  lemma NextNeedsWatchedVideo(w: Wizard)
    ensures Apply(w, Next) != w ==> ShowsVideo(w) && Watched(w, w.videoIndex)
  {
  }

  /** The checklist step is reached only from the last video, and only once
      that video has been watched. */
  lemma ChecklistOnlyAfterLastVideo(w: Wizard, e: Event)
    requires w.step != ChecklistStep && Apply(w, e).step == ChecklistStep
    ensures e == Next && w.step == VideoStep
    ensures Watched(w, w.videoIndex) && w.videoIndex + 1 >= w.videoCount
  {
  }

  /** The wizard never goes back a step. */
  lemma StepNeverDecreases(w: Wizard, e: Event)
    ensures Apply(w, e).step >= w.step
  {
  }

  /** What stays true while the video list keeps the same length: the step
      is one of the three and the video index stays below the number of
      videos (or at 0 when there are none). */
  ghost predicate Inv(w: Wizard, n: nat) {
    w.step < |Steps| && (w.videoCount == 0 || w.videoCount == n) && (w.videoIndex == 0 || w.videoIndex < w.videoCount)
  }

  /** Every load of the video list brings the same number of videos. */
  ghost predicate LoadsCount(events: seq<Event>, n: nat) {
    forall i :: 0 <= i < |events| && events[i].VideosLoaded? ==> events[i].count == n
  }

  lemma InitialInv(n: nat)
    ensures Inv(Initial, n)
  {
  }

  lemma ApplyKeepsInv(w: Wizard, e: Event, n: nat)
    requires Inv(w, n) && (e.VideosLoaded? ==> e.count == n)
    ensures Inv(Apply(w, e), n)
  {
  }

  lemma {:induction false} RunKeepsInv(w: Wizard, events: seq<Event>, n: nat)
    requires Inv(w, n) && LoadsCount(events, n)
    ensures Inv(Run(w, events), n)
    decreases |events|
  {
    if events != [] {
      ApplyKeepsInv(w, events[0], n);
      assert LoadsCount(events[1..], n) by {
        forall i | 0 <= i < |events[1..]| && events[1..][i].VideosLoaded?
          ensures events[1..][i].count == n
        {
          assert events[1..][i] == events[i + 1];
        }
      }
      RunKeepsInv(Apply(w, events[0]), events[1..], n);
    }
  }

  /** From a fresh wizard, however the user clicks, the video index never
      passes the last video and the progress bar shows 0, 50 or 100. */
  lemma ReachableWizard(events: seq<Event>, n: nat)
    requires LoadsCount(events, n)
    ensures var w := Run(Initial, events);
            (n == 0 ==> w.videoIndex == 0) && (n > 0 ==> w.videoIndex <= n - 1)
            && Progress(w.step) in {0, 50, 100}
  {
    InitialInv(n);
    RunKeepsInv(Initial, events, n);
  }

  /** What the wizard shows: nothing but a redirect for a user who has
      completed onboarding, else the step's title, "Schritt k von 3" and the
      progress bar. */
  datatype View = Redirect(to: string) | Page(title: string, stepNumber: int, stepCount: int, progress: int)

  /** The render, with the effect that navigates away; `completed` is
      `user?.onboardingCompleted` (false without a user). */
  function Render(completed: bool, w: Wizard): (v: View)
    requires w.step < |Steps|
    ensures v.Redirect? <==> completed
    ensures v.Redirect? ==> v.to == "/dashboard"
    ensures v.Page? ==> v.title == Steps[w.step].title && v.stepCount == |Steps|
    ensures v.Page? ==> v.stepNumber == w.step + 1 && 1 <= v.stepNumber <= v.stepCount
    ensures v.Page? ==> 0 <= v.progress <= 100 && v.progress * 2 == w.step * 100
  {
    if completed then Redirect("/dashboard")
    else Page(Steps[w.step].title, w.step + 1, |Steps|, Progress(w.step))
  }
}

=== FILE: password_reset.dfy ===
/** The password-reset token lifecycle (server/routes.ts): a customer asks
    for a token by e-mail address, the page verifies it, and the reset sets
    the new password and spends the token. The random token and the bcrypt
    hash are parameters; the e-mail itself is not modelled. */
module PasswordReset {
  import opened Wrappers
  import opened Text
  import opened Schema
  import opened AuthRoutes

  /** A reset token is valid for one hour. */
  const TokenLifetime: int := 3600000

  /** The address the lookup uses: `email.trim().toLowerCase()`. */
  function NormalisedEmail(email: string): (e: string)
    ensures forall i :: 0 <= i < |e| ==> !IsAsciiUpper(e[i])
    ensures |e| <= |email|
  {
    ToLowerHasNoUpper(Trim(email));
    ToLower(Trim(email))
  }

  /** Only approved customers may reset their password. */
  predicate MayReset(u: User) {
    u.role == "customer" && u.isApproved
  }

  /** The request names an approved customer by a non-blank address. */
  ghost predicate Accepts(st: Store, email: Option<string>) {
    && email.Some? && !IsBlank(email.value)
    && UserByEmail(st.users, NormalisedEmail(email.value)).Some?
    && MayReset(st.users.rows[UserByEmail(st.users, NormalisedEmail(email.value)).value])
  }

  /** `st'` is `st` with every token of `id` deleted and exactly one new,
      unused token for `id` stored under `k`, expiring an hour after `now`;
      other users' tokens and the other tables are unchanged. */
  ghost predicate IssuesToken(st: Store, st': Store, id: nat, k: nat, token: string, now: int) {
    && st' == st.(resetTokens := st'.resetTokens)
    && k !in st.resetTokens.rows
    && k in st'.resetTokens.rows
    && st'.resetTokens.rows[k] == ResetToken(id, token, now + TokenLifetime, now, false)
    && (forall j :: j in st'.resetTokens.rows && j != k ==>
          j in st.resetTokens.rows && st'.resetTokens.rows[j] == st.resetTokens.rows[j]
          && st.resetTokens.rows[j].userId != id)
    && (forall j :: j in st.resetTokens.rows && st.resetTokens.rows[j].userId != id ==> j in st'.resetTokens.rows)
  }

  /** `POST /api/password-reset/request`. `email` is `None` when the body
      has none; `token` is the freshly generated random token. */
  function RequestReset(st: Store, email: Option<string>, token: string, now: int): (r: Reply)
    ensures r.status == Ok || r.status == BadRequest
    ensures r.status == Ok <==> Accepts(st, email)
    ensures r.status == BadRequest ==> r.store == st
    ensures r.status == Ok ==>
              IssuesToken(st, r.store, UserByEmail(st.users, NormalisedEmail(email.value)).value,
                          st.resetTokens.nextId, token, now)
  {
    if email.None? then Reply(BadRequest, st)
    else
      TrimEmptyIffBlank(email.value);
      if Trim(email.value) == "" then Reply(BadRequest, st)
      else match UserByEmail(st.users, NormalisedEmail(email.value))
      case None => Reply(BadRequest, st)
      case Some(id) =>
        var u := st.users.rows[id];
        if u.role != "customer" then Reply(BadRequest, st)
        else if !u.isApproved then Reply(BadRequest, st)
        else
          var kept := DeleteWhere(st.resetTokens, (t: ResetToken) => t.userId == id);
          var (tokens', _) := Insert(kept, ResetTokenRow(id, token, now + TokenLifetime, Some(false), now));
          Reply(Ok, st.(resetTokens := tokens'))
  }

  /** The lookup lower-cases the address but registration stores it as
      typed: a user whose stored address holds a capital letter is never
      found, so only all-lower-case addresses can be reset. */
  lemma ResetOnlyForLowerCaseAddresses(st: Store, email: Option<string>, token: string, now: int)
    requires RequestReset(st, email, token, now).status == Ok
    ensures var u := st.users.rows[UserByEmail(st.users, NormalisedEmail(email.value)).value];
      forall i :: 0 <= i < |u.email| ==> !IsAsciiUpper(u.email[i])
  {
  }

  /** A token the lookups accept at `now`: this string, unused, not expired. */
  predicate Usable(t: ResetToken, token: string, now: int) {
    t.token == token && !t.used && t.expiresAt > now
  }

  /** The lookup shared by verify and reset: the first usable token with
      this string, if its owner exists and is a customer. */
  function FindRedeemable(st: Store, token: string, now: int): (r: Option<nat>)
    ensures r.Some? ==> r.value in st.resetTokens.rows && Usable(st.resetTokens.rows[r.value], token, now)
    ensures r.Some? ==> st.resetTokens.rows[r.value].userId in st.users.rows
                        && st.users.rows[st.resetTokens.rows[r.value].userId].role == "customer"
    ensures (forall k :: k in st.resetTokens.rows ==> !Usable(st.resetTokens.rows[k], token, now)) ==> r.None?
  {
    match FirstWhere(st.resetTokens, (t: ResetToken) => Usable(t, token, now))
    case None => None
    case Some(k) =>
      var owner := st.resetTokens.rows[k].userId;
      if owner in st.users.rows && st.users.rows[owner].role == "customer" then Some(k) else None
  }

  /** `POST /api/password-reset/verify`: 200 for a usable token of a
      customer, 400 otherwise; nothing changes. */
  function VerifyToken(st: Store, token: string, now: int): (status: int)
    ensures status == Ok || status == BadRequest
    ensures status == Ok ==> exists k :: k in st.resetTokens.rows && Usable(st.resetTokens.rows[k], token, now)
    ensures (forall k :: k in st.resetTokens.rows ==> !Usable(st.resetTokens.rows[k], token, now)) ==> status == BadRequest
    ensures status == Ok <==> FindRedeemable(st, token, now).Some?
    ensures status == Ok ==> exists k :: k in st.resetTokens.rows && Usable(st.resetTokens.rows[k], token, now)
                                         && CustomerOwned(st, st.resetTokens.rows[k])
  {
    if FindRedeemable(st, token, now).Some? then Ok else BadRequest
  }

  /** The token's owner exists and is a customer. */
  predicate CustomerOwned(st: Store, t: ResetToken) {
    t.userId in st.users.rows && st.users.rows[t.userId].role == "customer"
  }

  /** With unique token strings, verification accepts exactly a usable token
      that belongs to a customer. */
  lemma {:induction false} VerifyTokenIff(st: Store, token: string, now: int)
    requires UniqueTokens(st)
    ensures VerifyToken(st, token, now) == Ok <==>
      exists k :: k in st.resetTokens.rows && Usable(st.resetTokens.rows[k], token, now)
                  && CustomerOwned(st, st.resetTokens.rows[k])
  {
    if k :| k in st.resetTokens.rows && Usable(st.resetTokens.rows[k], token, now) && CustomerOwned(st, st.resetTokens.rows[k]) {
      var first := FirstWhere(st.resetTokens, (t: ResetToken) => Usable(t, token, now));
      assert first.Some?;
      assert first.value == k;
    }
  }

  /** A token spent by a reset. */
  function MarkUsed(t: ResetToken): (u: ResetToken)
    ensures u.used && u == t.(used := u.used)
  {
    t.(used := true)
  }

  /** `st'` is `st` with the password of the token's owner replaced by
      `hashed` and token `k` marked used; nothing else changes. */
  ghost predicate Redeems(st: Store, st': Store, k: nat, hashed: string) {
    && k in st.resetTokens.rows
    && var owner := st.resetTokens.rows[k].userId;
    && owner in st.users.rows
    && st' == st.(users := st'.users, resetTokens := st'.resetTokens)
    && st'.users.nextId == st.users.nextId && st'.users.rows.Keys == st.users.rows.Keys
    && st'.users.rows[owner] == st.users.rows[owner].(password := hashed)
    && (forall j :: j in st.users.rows && j != owner ==> st'.users.rows[j] == st.users.rows[j])
    && st'.resetTokens == UpdateRow(st.resetTokens, k, MarkUsed)
  }

  /** `PUT /api/password-reset/reset`: with a token the verify step accepts,
      store `hash(newPassword)` for its owner and mark the token used, in
      one transaction; otherwise 400 and nothing changes. Hashing a missing
      password throws after the token has been found: 500, and the token
      stays usable. */
  function ResetPassword(st: Store, token: string, newPassword: Option<string>, hash: string -> string, now: int): (r: Reply)
    ensures r.status in {Ok, BadRequest, ServerError}
    ensures r.status == BadRequest <==> VerifyToken(st, token, now) != Ok
    ensures r.status == Ok <==> VerifyToken(st, token, now) == Ok && newPassword.Some?
    ensures r.status == ServerError <==> VerifyToken(st, token, now) == Ok && newPassword.None?
    ensures r.status != Ok ==> r.store == st
    ensures r.status == Ok ==>
              Usable(st.resetTokens.rows[FindRedeemable(st, token, now).value], token, now)
              && Redeems(st, r.store, FindRedeemable(st, token, now).value, hash(newPassword.value))
  {
    match FindRedeemable(st, token, now)
    case None => Reply(BadRequest, st)
    case Some(k) =>
      if newPassword.None? then Reply(ServerError, st)
      else
        var owner := st.resetTokens.rows[k].userId;
        var hashed := hash(newPassword.value);
        var users' := UpdateRow(st.users, owner, (u: User) => u.(password := hashed));
        Reply(Ok, st.(users := users', resetTokens := UpdateRow(st.resetTokens, k, MarkUsed)))
  }

  /** A reset whose body lacks the new password fails with 500 before the
      transaction, so the token is not spent and a retry with a password
      succeeds. */
  lemma MissingPasswordKeepsToken(st: Store, token: string, pw: string, hash: string -> string, t: int)
    requires VerifyToken(st, token, t) == Ok
    ensures ResetPassword(st, token, None, hash, t) == Reply(ServerError, st)
    ensures ResetPassword(ResetPassword(st, token, None, hash, t).store, token, Some(pw), hash, t).status == Ok
  {
  }

  // ----------------------------------------------------------- lifecycle

  /** No two reset tokens share a string. */
  ghost predicate UniqueTokens(st: Store) {
    forall i, j :: i in st.resetTokens.rows && j in st.resetTokens.rows && i != j
      ==> st.resetTokens.rows[i].token != st.resetTokens.rows[j].token
  }

  /** No stored token has this string: what a fresh random token is assumed to be. */
  ghost predicate Fresh(st: Store, token: string) {
    forall k :: k in st.resetTokens.rows ==> st.resetTokens.rows[k].token != token
  }

  /** A request with a fresh token keeps token strings unique. */
  lemma RequestResetKeepsTokensUnique(st: Store, email: Option<string>, token: string, now: int)
    requires UniqueTokens(st) && Fresh(st, token)
    ensures UniqueTokens(RequestReset(st, email, token, now).store)
  {
  }

  /** A reset only flips `used`, so token strings stay unique. */
  lemma ResetPasswordKeepsTokensUnique(st: Store, token: string, pw: Option<string>, hash: string -> string, now: int)
    requires UniqueTokens(st)
    ensures UniqueTokens(ResetPassword(st, token, pw, hash, now).store)
  {
  }

  /** Within the hour, the token a request issued passes verification. */
  lemma IssuedTokenVerifies(st: Store, email: Option<string>, token: string, t1: int, t2: int)
    requires Fresh(st, token)
    requires RequestReset(st, email, token, t1).status == Ok
    requires t1 <= t2 < t1 + TokenLifetime
    ensures VerifyToken(RequestReset(st, email, token, t1).store, token, t2) == Ok
  {
    var s1 := RequestReset(st, email, token, t1).store;
    var id := UserByEmail(st.users, NormalisedEmail(email.value)).value;
    var k := st.resetTokens.nextId;
    forall j | j in s1.resetTokens.rows && Usable(s1.resetTokens.rows[j], token, t2)
      ensures j == k
    {
    }
    assert FirstWhere(s1.resetTokens, (t: ResetToken) => Usable(t, token, t2)) == Some(k);
  }

  /** Once the hour has passed, the token no longer verifies. */
  lemma IssuedTokenExpires(st: Store, email: Option<string>, token: string, t1: int, t2: int)
    requires Fresh(st, token)
    requires RequestReset(st, email, token, t1).status == Ok
    requires t2 >= t1 + TokenLifetime
    ensures VerifyToken(RequestReset(st, email, token, t1).store, token, t2) == BadRequest
  {
  }

  /** A token works once: replaying it after a successful reset is refused. */
  lemma ResetReplayRejected(st: Store, token: string, pw1: Option<string>, pw2: Option<string>, hash: string -> string, t1: int, t2: int)
    requires UniqueTokens(st)
    requires ResetPassword(st, token, pw1, hash, t1).status == Ok
    ensures ResetPassword(ResetPassword(st, token, pw1, hash, t1).store, token, pw2, hash, t2).status == BadRequest
  {
    var k := FindRedeemable(st, token, t1).value;
    var s1 := ResetPassword(st, token, pw1, hash, t1).store;
    forall j | j in s1.resetTokens.rows
      ensures !Usable(s1.resetTokens.rows[j], token, t2)
    {
      if j != k {
        assert st.resetTokens.rows[j].token != token;
      }
    }
  }

  /** A new request makes earlier links of the same user useless. */
  lemma RequestRevokesEarlierTokens(st: Store, email: Option<string>, token: string, earlier: string, now: int, t: int)
    requires Fresh(st, token) && earlier != token
    requires RequestReset(st, email, token, now).status == Ok
    requires forall k :: k in st.resetTokens.rows && st.resetTokens.rows[k].token == earlier ==>
               st.resetTokens.rows[k].userId == UserByEmail(st.users, NormalisedEmail(email.value)).value
    ensures VerifyToken(RequestReset(st, email, token, now).store, earlier, t) == BadRequest
  {
  }

  /** The reset request keeps the database's constraints. */
  lemma RequestResetKeepsValid(st: Store, email: Option<string>, token: string, now: int)
    requires Valid(st)
    ensures Valid(RequestReset(st, email, token, now).store)
  {
  }

  /** Redeeming a token keeps the database's constraints. */
  lemma RedeemsKeepsValid(st: Store, st': Store, k: nat, hashed: string)
    requires Valid(st) && Redeems(st, st', k, hashed)
    ensures Valid(st')
  {
    var mid := st.(users := st'.users);
    RedeemsKeepsIdentities(st, st', k, hashed);
    ReplaceUsersValid(st, st'.users);
    ReplaceTokensValid(mid, st'.resetTokens);
  }

  /** Redeeming a token changes no user's address or company and no token's owner. */
  lemma RedeemsKeepsIdentities(st: Store, st': Store, k: nat, hashed: string)
    requires Redeems(st, st', k, hashed)
    ensures forall j :: j in st'.users.rows ==>
              j in st.users.rows && st'.users.rows[j].email == st.users.rows[j].email
              && st'.users.rows[j].companyId == st.users.rows[j].companyId
    ensures forall j :: j in st'.resetTokens.rows ==>
              j in st.resetTokens.rows && st'.resetTokens.rows[j].userId == st.resetTokens.rows[j].userId
  {
  }

  /** The password reset keeps the database's constraints. */
  lemma ResetPasswordKeepsValid(st: Store, token: string, pw: Option<string>, hash: string -> string, now: int)
    requires Valid(st)
    ensures Valid(ResetPassword(st, token, pw, hash, now).store)
  {
    var r := ResetPassword(st, token, pw, hash, now);
    if r.status == Ok {
      RedeemsKeepsValid(st, r.store, FindRedeemable(st, token, now).value, hash(pw.value));
    }
  }
}

=== FILE: phases.dfy ===
/** The onboarding-phase tracker of the portal's front end: the dashboard's
    progress percentage and roadmap check-marks
    (client/src/components/dashboard/OnboardingProgress.tsx) and the admin
    tracking page's next/previous phase controls
    (client/src/pages/admin/Tracking.tsx).

    Phases are arbitrary strings, as in the source: the fixed sequence below is
    only what the helpers recognise, after lower-casing. */
module Phases {
  import opened Text
  import opened Seqs

  /** `["onboarding", "landingpage", "ads", "whatsapp", "webinar"]`. */
  const Sequence: seq<string> := ["onboarding", "landingpage", "ads", "whatsapp", "webinar"]

  /** The completed-phase marker the dashboard gates on, compared exactly. */
  const OnboardingMarker: string := "onboarding"

  /** `phases.indexOf(phase.toLowerCase())`. */
  function PhaseIndex(phase: string): (i: int)
    ensures -1 <= i < |Sequence|
    ensures 0 <= i ==> ToLower(phase) == Sequence[i]
    ensures i == -1 <==> ToLower(phase) !in Sequence
  {
    IndexOf(Sequence, ToLower(phase))
  }

  /** The five phases are distinct, so a phase's index is its only position. */
  lemma {:induction false} PhaseIndexOfSequence(k: nat)
    requires k < |Sequence|
    ensures PhaseIndex(Sequence[k]) == k
  {
    ToLowerOfLower(Sequence[k]);
    var i := PhaseIndex(Sequence[k]);
    assert |Sequence[i]| == |Sequence[k]|;
    PhaseLengths();
  }

  /** The five names have five different lengths, which tells them apart. */
  lemma PhaseLengths()
    ensures forall i, j :: 0 <= i < j < |Sequence| ==> |Sequence[i]| != |Sequence[j]|
  {
  }

  /** Lower-casing a phase does not change its index. */
  lemma PhaseIndexOfLower(phase: string)
    ensures PhaseIndex(ToLower(phase)) == PhaseIndex(phase)
  {
    ToLowerIdempotent(phase);
  }

  /** `calculateProgress(phase, completedPhases)`: nothing before the
      "onboarding" marker is completed; after it, 20 points per phase of the
      (lower-cased) current phase, and 20 for a phase it does not know. */
  function CalculateProgress(phase: string, completedPhases: seq<string>): (pct: int)
    ensures OnboardingMarker !in completedPhases ==> pct == 0
    ensures OnboardingMarker in completedPhases && PhaseIndex(phase) >= 0 ==>
              pct == 20 * (PhaseIndex(phase) + 1)
    ensures OnboardingMarker in completedPhases && PhaseIndex(phase) < 0 ==> pct == 20
  {
    if OnboardingMarker in completedPhases then
      var p := ToLower(phase);
      if p == "onboarding" then 20
      else if p == "landingpage" then 40
      else if p == "ads" then 60
      else if p == "whatsapp" then 80
      else if p == "webinar" then 100
      else 20
    else 0
  }

  /** The percentage is always one of 0, 20, 40, 60, 80, 100. */
  lemma ProgressValues(phase: string, completedPhases: seq<string>)
    ensures CalculateProgress(phase, completedPhases) in {0, 20, 40, 60, 80, 100}
    ensures 0 <= CalculateProgress(phase, completedPhases) <= 100
  {
  }

  /** The current phase is matched without regard to case. */
  lemma ProgressIgnoresPhaseCase(phase: string, completedPhases: seq<string>)
    ensures CalculateProgress(phase, completedPhases) == CalculateProgress(ToLower(phase), completedPhases)
  {
    PhaseIndexOfLower(phase);
  }

  /** The marker is matched exactly: a capitalised "Onboarding" does not count. */
  lemma {:induction false} MarkerIsCaseSensitive()
    ensures CalculateProgress("webinar", ["Onboarding"]) == 0
    ensures CalculateProgress("webinar", ["onboarding"]) == 100
  {
    assert "Onboarding"[0] != "onboarding"[0];
    PhaseIndexOfSequence(4);
  }

  /** `phaseOrder[currentPhase.toLowerCase()] || 1`. */
  function PhaseRank(phase: string): (rank: int)
    ensures 1 <= rank <= 5
    ensures PhaseIndex(phase) >= 0 ==> rank == PhaseIndex(phase) + 1
    ensures PhaseIndex(phase) < 0 ==> rank == 1
  {
    var p := ToLower(phase);
    if p == "onboarding" then 1
    else if p == "landingpage" then 2
    else if p == "ads" then 3
    else if p == "whatsapp" then 4
    else if p == "webinar" then 5
    else 1
  }

  /** `isStepCompleted(step, currentPhase, completedPhases)`: step 1 is the
      "onboarding" marker; a later step is checked when the current phase
      sits at or after its position in the sequence. */
  function IsStepCompleted(stepId: int, currentPhase: string, completedPhases: seq<string>): (done: bool)
    ensures stepId == 1 ==> (done <==> OnboardingMarker in completedPhases)
    ensures stepId != 1 && PhaseIndex(currentPhase) >= 0 ==> (done <==> stepId - 1 <= PhaseIndex(currentPhase))
    ensures stepId != 1 && PhaseIndex(currentPhase) < 0 ==> (done <==> stepId <= 1)
  {
    if stepId == 1 then OnboardingMarker in completedPhases
    else stepId <= PhaseRank(currentPhase)
  }

  /** Step 1 is checked exactly when the marker is present, whatever the phase. */
  lemma StepOneIsTheMarker(currentPhase: string, completedPhases: seq<string>)
    ensures IsStepCompleted(1, currentPhase, completedPhases) <==> OnboardingMarker in completedPhases
  {
  }

  /** Steps 2..5 are checked up to the rank of the current phase. */
  lemma LaterStepsFollowRank(stepId: int, currentPhase: string, completedPhases: seq<string>)
    requires 2 <= stepId <= 5
    ensures PhaseIndex(currentPhase) >= 0 ==>
              (IsStepCompleted(stepId, currentPhase, completedPhases) <==> stepId <= PhaseIndex(currentPhase) + 1)
    ensures PhaseIndex(currentPhase) < 0 ==> !IsStepCompleted(stepId, currentPhase, completedPhases)
  {
  }

  /** The checked steps among 2..5 form an initial run. */
  lemma StepsDownwardClosed(i: int, j: int, currentPhase: string, completedPhases: seq<string>)
    requires 2 <= i <= j
    requires IsStepCompleted(j, currentPhase, completedPhases)
    ensures IsStepCompleted(i, currentPhase, completedPhases)
  {
  }

  /** Once the marker is present, the check-marks of steps 2..5 agree with
      the percentage bar: step `id` is checked iff the bar reaches `20 * id`. */
  lemma StepsAgreeWithProgress(stepId: int, currentPhase: string, completedPhases: seq<string>)
    requires OnboardingMarker in completedPhases
    requires 2 <= stepId <= 5
    ensures IsStepCompleted(stepId, currentPhase, completedPhases) <==>
              CalculateProgress(currentPhase, completedPhases) >= 20 * stepId
  {
  }

  /** One entry of the dashboard roadmap. */
  datatype Step = Step(id: int, title: string, description: string, completed: bool)

  /** `defaultSteps`: the five roadmap entries, none pre-checked. */
  const DefaultSteps: seq<Step> := [
    Step(1, "Onboarding & Checkliste", "Erste Schritte und Grundeinstellung", false),
    Step(2, "Landingpage", "Erstellung und Optimierung der Landingpage", false),
    Step(3, "Werbeanzeigen", "Einrichtung und Aktivierung von Werbekampagnen", false),
    Step(4, "WhatsApp-Bot", "Integration der WhatsApp-Kommunikation", false),
    Step(5, "Webinar", "Abschließendes Training und Schulung", false)
  ]

  /** The check-marks the dashboard draws, one per default step. */
  function Roadmap(currentPhase: string, completedPhases: seq<string>): (marks: seq<bool>)
    ensures |marks| == |DefaultSteps|
  {
    seq(|DefaultSteps|, k requires 0 <= k < |DefaultSteps| =>
      IsStepCompleted(DefaultSteps[k].id, currentPhase, completedPhases))
  }

  /** The roadmap shows the marker step, then a run of phase steps ending at
      the current phase's rank. */
  lemma RoadmapShape(currentPhase: string, completedPhases: seq<string>)
    ensures Roadmap(currentPhase, completedPhases)[0] == (OnboardingMarker in completedPhases)
    ensures forall k :: 1 <= k < 5 ==>
              Roadmap(currentPhase, completedPhases)[k] == (k + 1 <= PhaseRank(currentPhase))
  {
    var marks := Roadmap(currentPhase, completedPhases);
    DefaultStepIds();
    forall k | 0 <= k < 5
      ensures marks[k] == IsStepCompleted(k + 1, currentPhase, completedPhases)
    {
    }
  }

  /** The default steps are numbered 1 to 5 in order. */
  lemma DefaultStepIds()
    ensures forall k :: 0 <= k < |DefaultSteps| ==> DefaultSteps[k].id == k + 1
  {
  }

  /** `getNextPhase(currentPhase)`: one position further in the sequence, an
      unknown phase counting as position -1; the last phase stays. */
  function NextPhase(currentPhase: string): (next: string)
    ensures PhaseIndex(currentPhase) < |Sequence| - 1 ==>
              next in Sequence && PhaseIndex(next) == PhaseIndex(currentPhase) + 1
    ensures PhaseIndex(currentPhase) == |Sequence| - 1 ==> next == currentPhase
  {
    var i := PhaseIndex(currentPhase);
    if i < |Sequence| - 1 then PhaseIndexOfSequence(i + 1); Sequence[i + 1] else currentPhase
  }

  /** `getPreviousPhase(currentPhase)`: one position back in the sequence;
      the first phase and unknown ones stay. */
  function PreviousPhase(currentPhase: string): (prev: string)
    ensures PhaseIndex(currentPhase) > 0 ==> prev in Sequence && PhaseIndex(prev) == PhaseIndex(currentPhase) - 1
    ensures PhaseIndex(currentPhase) <= 0 ==> prev == currentPhase
  {
    var i := PhaseIndex(currentPhase);
    if i > 0 then PhaseIndexOfSequence(i - 1); Sequence[i - 1] else currentPhase
  }

  /** What the successor and predecessor are, phase by phase, including the
      fall-backs for the ends and for unknown strings. */
  lemma NeighbourPhases(p: string)
    ensures 0 <= PhaseIndex(p) < 4 ==> NextPhase(p) == Sequence[PhaseIndex(p) + 1]
    ensures PhaseIndex(p) == 4 ==> NextPhase(p) == p
    ensures PhaseIndex(p) == -1 ==> NextPhase(p) == "onboarding"
    ensures PhaseIndex(p) > 0 ==> PreviousPhase(p) == Sequence[PhaseIndex(p) - 1]
    ensures PhaseIndex(p) <= 0 ==> PreviousPhase(p) == p
  {
  }

  /** Stepping forward then back returns the (lower-cased) phase. */
  lemma {:induction false} PreviousAfterNext(p: string)
    requires 0 <= PhaseIndex(p) < 4
    ensures PreviousPhase(NextPhase(p)) == ToLower(p)
  {
    var i := PhaseIndex(p);
    NeighbourPhases(p);
    PhaseIndexOfSequence(i + 1);
    NeighbourPhases(Sequence[i + 1]);
  }

  /** Stepping back then forward returns the (lower-cased) phase. */
  lemma {:induction false} NextAfterPrevious(p: string)
    requires 0 < PhaseIndex(p)
    ensures NextPhase(PreviousPhase(p)) == ToLower(p)
  {
    var i := PhaseIndex(p);
    NeighbourPhases(p);
    PhaseIndexOfSequence(i - 1);
    NeighbourPhases(Sequence[i - 1]);
  }

  /** On the sequence itself the round trip is exact. */
  lemma PreviousAfterNextCanonical(k: nat)
    requires k < 4
    ensures PreviousPhase(NextPhase(Sequence[k])) == Sequence[k]
  {
    PhaseIndexOfSequence(k);
    ToLowerOfLower(Sequence[k]);
    PreviousAfterNext(Sequence[k]);
  }

  /** `getNextPhase` never yields the empty (falsy) string. */
  lemma NextPhaseNonEmpty(p: string)
    ensures NextPhase(p) != ""
  {
    if PhaseIndex(p) == 4 {
      assert |ToLower(p)| == |Sequence[4]|;
    }
  }

  /** `getPreviousPhase` yields the empty string only for the empty string. */
  lemma PreviousPhaseEmpty(p: string)
    ensures PreviousPhase(p) == "" <==> p == ""
  {
  }

  /** The end position `Array.prototype.slice(0, end)` uses: a negative end
      counts from the back. */
  function SliceEnd(len: nat, end: int): (e: nat)
    ensures e <= len
    ensures 0 <= end <= len ==> e == end
    ensures end < 0 && 0 <= len + end ==> e == len + end
  {
    if end < 0 then (if len + end < 0 then 0 else len + end)
    else if end > len then len
    else end
  }

  /** `getAllPreviousPhases(phase)`: `phases.slice(0, phases.indexOf(p) || 0)`,
      a prefix of the sequence: the phases before a known one, and all but
      the last for an unknown one. */
  function AllPreviousPhases(phase: string): (prev: seq<string>)
    ensures prev <= Sequence
    ensures |prev| == if PhaseIndex(phase) >= 0 then PhaseIndex(phase) else |Sequence| - 1
  {
    var i := PhaseIndex(phase);
    var end := if i != 0 then i else 0;
    Sequence[..SliceEnd(|Sequence|, end)]
  }

  /** A known phase's predecessors are the prefix before it; an unknown one's
      are the first four phases, because -1 is truthy and `slice(0, -1)`
      drops only the last. */
  lemma AllPreviousPhasesShape(phase: string)
    ensures PhaseIndex(phase) >= 0 ==> AllPreviousPhases(phase) == Sequence[..PhaseIndex(phase)]
    ensures PhaseIndex(phase) < 0 ==> AllPreviousPhases(phase) == Sequence[..4]
    ensures PhaseIndex(phase) == 0 ==> AllPreviousPhases(phase) == []
  {
  }

  /** A known phase is never among its own predecessors. */
  lemma AllPreviousExcludesPhase(phase: string)
    requires PhaseIndex(phase) >= 0
    ensures ToLower(phase) !in AllPreviousPhases(phase)
  {
  }

  /** On the sequence itself, a phase's predecessors are the phases before it. */
  lemma AllPreviousOfSequence(k: nat)
    requires k < |Sequence|
    ensures AllPreviousPhases(Sequence[k]) == Sequence[..k]
  {
    PhaseIndexOfSequence(k);
    AllPreviousPhasesShape(Sequence[k]);
  }

  /** Advancing adds exactly the phase left behind to the predecessors. */
  lemma {:induction false} AllPreviousOfNext(p: string)
    requires 0 <= PhaseIndex(p) < 4
    ensures AllPreviousPhases(NextPhase(p)) == AllPreviousPhases(p) + [ToLower(p)]
  {
    var i := PhaseIndex(p);
    NeighbourPhases(p);
    AllPreviousOfSequence(i + 1);
    AllPreviousPhasesShape(p);
    PrefixStep(Sequence, i);
  }

  lemma PrefixStep<T>(xs: seq<T>, i: nat)
    requires i < |xs|
    ensures xs[..i + 1] == xs[..i] + [xs[i]]
  {
  }
}

=== FILE: reset_page.dfy ===
/** The page behind the e-mailed reset link (client/src/pages/ResetPassword.tsx):
    the token is read from the path, the form is checked, the token is
    verified with the server and only then is the new password sent. The
    two requests run against the server model of module PasswordReset, each
    at its own instant. */
module ResetPage {
  import opened Wrappers
  import opened Text
  import opened Schema
  import opened AuthRoutes
  import PasswordReset
  import Forms

  /** `window.location.pathname.split("/").pop()`. */
  function TokenOfPath(path: string): (t: string)
    ensures Absent('/', t)
    ensures t == Split(path, '/')[|Split(path, '/')| - 1]
  {
    AfterLastFree(path, '/');
    AfterLastIsLastPiece(path, '/');
    AfterLast(path, '/')
  }

  /** The page opened from the link `/reset-password/<token>` reads back
      the token the server issued (hex digits, so no slash). */
  lemma TokenOfResetLink(token: string)
    requires Absent('/', token)
    ensures TokenOfPath("/reset-password/" + token) == token
  {
    assert "/reset-password/" + token == "/reset-password" + ['/'] + token;
    AfterLastOfTail("/reset-password", '/', token);
  }

  /** How far a submission got. */
  datatype Stage = Invalid | VerifyRefused | ResetRefused | Done

  /** The outcome of pressing the button: how far it got, the server's
      store afterwards, and where the page navigates. */
  datatype Submission = Submission(stage: Stage, store: Store, navigateTo: Option<string>)

  /** `form.handleSubmit(onSubmit)`: nothing is sent for a form with
      issues; otherwise `POST /api/password-reset/verify` at `verifyAt` and,
      only when that answers OK, `PUT /api/password-reset/reset` at
      `resetAt`; success leads to the login page. */
  function Submit(st: Store, path: string, form: Forms.ResetForm, hash: string -> string, verifyAt: int, resetAt: int): (r: Submission)
    ensures r.stage == Invalid <==> Forms.ResetIssues(form) != []
    ensures r.stage == VerifyRefused ==> PasswordReset.VerifyToken(st, TokenOfPath(path), verifyAt) != Ok
    ensures r.stage == Done <==>
              Forms.ResetIssues(form) == []
              && PasswordReset.VerifyToken(st, TokenOfPath(path), verifyAt) == Ok
              && PasswordReset.VerifyToken(st, TokenOfPath(path), resetAt) == Ok
    ensures r.stage != Done ==> r.store == st && r.navigateTo.None?
    ensures r.stage == Done ==>
              r.navigateTo == Some("/")
              && r.store == PasswordReset.ResetPassword(st, TokenOfPath(path), Some(form.password), hash, resetAt).store
  {
    var token := TokenOfPath(path);
    if Forms.ResetIssues(form) != [] then Submission(Invalid, st, None)
    else if PasswordReset.VerifyToken(st, token, verifyAt) != Ok then Submission(VerifyRefused, st, None)
    else
      var reply := PasswordReset.ResetPassword(st, token, Some(form.password), hash, resetAt);
      if reply.status != Ok then Submission(ResetRefused, st, None)
      else Submission(Done, reply.store, Some("/"))
  }

  /** The password changes only after the verify step has accepted the
      token and the form has passed. */
  lemma StoreChangesOnlyAfterVerify(st: Store, path: string, form: Forms.ResetForm, hash: string -> string, verifyAt: int, resetAt: int)
    requires Submit(st, path, form, hash, verifyAt, resetAt).store != st
    ensures Forms.StrongPassword(form.password)
    ensures PasswordReset.VerifyToken(st, TokenOfPath(path), verifyAt) == Ok
  {
  }

  /** When both requests happen at the same instant, a token the verify
      step accepts also gets the password reset. */
  lemma VerifiedTokenResets(st: Store, path: string, form: Forms.ResetForm, hash: string -> string, t: int)
    requires Forms.ResetIssues(form) == []
    requires PasswordReset.VerifyToken(st, TokenOfPath(path), t) == Ok
    ensures Submit(st, path, form, hash, t, t).stage == Done
  {
  }

  /** Submitting from the same link again after a reset is refused at the
      verify step: the token has been spent. */
  lemma SecondSubmitRefused(st: Store, path: string, f1: Forms.ResetForm, f2: Forms.ResetForm, hash: string -> string,
                            v1: int, r1: int, v2: int, r2: int)
    requires PasswordReset.UniqueTokens(st)
    requires Submit(st, path, f1, hash, v1, r1).stage == Done
    requires Forms.ResetIssues(f2) == []
    ensures Submit(Submit(st, path, f1, hash, v1, r1).store, path, f2, hash, v2, r2).stage == VerifyRefused
  {
    var token := TokenOfPath(path);
    var s1 := Submit(st, path, f1, hash, v1, r1).store;
    PasswordReset.ResetReplayRejected(st, token, Some(f1.password), Some(f2.password), hash, r1, v2);
    assert PasswordReset.ResetPassword(s1, token, Some(f2.password), hash, v2).status == BadRequest;
  }
}

=== FILE: schema.dfy ===
/** The record shapes, column defaults and constraints of the portal's
    database (db/schema.ts), and an immutable in-memory store standing in for
    it: one table per relation, keyed by the identity column. */
module Schema {
  import opened Wrappers
  import opened Seqs

  // ---------------------------------------------------------------- tables

  /** A table's rows keyed by their identity id, and the next id the
      identity column hands out. */
  datatype RawTable<T> = RawTable(rows: map<nat, T>, nextId: nat)

  /** Every key was handed out by the identity column, which starts at 1. */
  predicate WellKeyed<T>(t: RawTable<T>) {
    1 <= t.nextId && forall k | k in t.rows :: 1 <= k < t.nextId
  }

  /** A table of the database. */
  type Table<T> = t: RawTable<T> | WellKeyed(t) witness RawTable(map[], 1)

  /** A table with no rows. */
  function EmptyTable<T>(): Table<T> {
    RawTable(map[], 1)
  }

  /** `insert(...).returning()`: the new row gets the next identity, a key
      no existing row holds. */
  function Insert<T>(t: Table<T>, row: T): (r: (Table<T>, nat))
    ensures r.1 !in t.rows && r.0.rows == t.rows[r.1 := row]
    ensures r.0.rows.Keys == t.rows.Keys + {r.1}
  {
    (RawTable(t.rows[t.nextId := row], t.nextId + 1), t.nextId)
  }

  /** `findFirst({ where })` on a column that is not the key: this model
      returns the matching row with the smallest id. */
  function FirstWhere<T>(t: Table<T>, p: T -> bool): (r: Option<nat>)
    ensures r.Some? ==> r.value in t.rows && p(t.rows[r.value])
    ensures r.Some? ==> forall k :: k in t.rows && p(t.rows[k]) ==> r.value <= k
    ensures r.None? <==> forall k :: k in t.rows ==> !p(t.rows[k])
  {
    FirstFrom(t, p, 0)
  }

  /** The scan behind `FirstWhere`: the smallest matching key at or above `from`. */
  function FirstFrom<T>(t: Table<T>, p: T -> bool, from: nat): (r: Option<nat>)
    ensures r.Some? ==> from <= r.value && r.value in t.rows && p(t.rows[r.value])
    ensures r.Some? ==> forall k :: from <= k && k in t.rows && p(t.rows[k]) ==> r.value <= k
    ensures r.None? ==> forall k :: from <= k && k in t.rows ==> !p(t.rows[k])
    decreases t.nextId - from
  {
    if t.nextId <= from then None
    else if from in t.rows && p(t.rows[from]) then Some(from)
    else FirstFrom(t, p, from + 1)
  }

  /** `delete(table).where(p)`. */
  function DeleteWhere<T>(t: Table<T>, p: T -> bool): (r: Table<T>)
    ensures r.nextId == t.nextId
    ensures forall k :: k in r.rows <==> k in t.rows && !p(t.rows[k])
    ensures forall k :: k in r.rows ==> r.rows[k] == t.rows[k]
  {
    RawTable(map k | k in t.rows && !p(t.rows[k]) :: t.rows[k], t.nextId)
  }

  /** `update(table).set(...).where(eq(id, key))`: a no-op when the key is absent. */
  function UpdateRow<T>(t: Table<T>, key: nat, f: T -> T): (r: Table<T>)
    ensures r.nextId == t.nextId && r.rows.Keys == t.rows.Keys
    ensures key in t.rows ==> r.rows[key] == f(t.rows[key])
    ensures forall k :: k in t.rows && k != key ==> r.rows[k] == t.rows[k]
  {
    if key in t.rows then RawTable(t.rows[key := f(t.rows[key])], t.nextId) else t
  }

  /** An update that leaves the row as it is leaves the table as it is. */
  lemma UpdateRowFixed<T>(t: Table<T>, key: nat, f: T -> T)
    requires key in t.rows ==> f(t.rows[key]) == t.rows[key]
    ensures UpdateRow(t, key, f) == t
  {
    if key in t.rows {
      assert t.rows[key := f(t.rows[key])] == t.rows;
    }
  }

  /** `update(table).set(...).where(p)`: every matching row rewritten. */
  function UpdateWhere<T>(t: Table<T>, p: T -> bool, f: T -> T): (r: Table<T>)
    ensures r.nextId == t.nextId && r.rows.Keys == t.rows.Keys
    ensures forall k :: k in t.rows && p(t.rows[k]) ==> r.rows[k] == f(t.rows[k])
    ensures forall k :: k in t.rows && !p(t.rows[k]) ==> r.rows[k] == t.rows[k]
  {
    RawTable(map k | k in t.rows :: if p(t.rows[k]) then f(t.rows[k]) else t.rows[k], t.nextId)
  }

  // ------------------------------------------------------------------ rows

  /** `users` (integration columns for Google Drive and Meta omitted). */
  datatype User = User(
    email: string,
    password: string,
    firstName: string,
    lastName: string,
    companyId: Option<nat>,
    role: string,
    isApproved: bool,
    profileImage: Option<string>,
    createdAt: int,
    assignedAdmin: string,
    onboardingCompleted: bool,
    isFirstLogin: bool,
    currentPhase: string,
    completedPhases: seq<string>,
    progress: int)

  /** `companies`. */
  datatype Company = Company(name: string, adminId: Option<nat>, createdAt: int)

  /** `tutorials`: the columns the phase update looks at. */
  datatype Tutorial = Tutorial(title: string, category: string, order: int)

  /** `user_progress`. */
  datatype ProgressRow = ProgressRow(userId: nat, tutorialId: nat, completed: Option<bool>, completedAt: Option<int>)

  /** `callbacks`. */
  datatype Callback = Callback(userId: nat, phone: string, status: Option<string>, createdAt: int)

  /** `referrals`. */
  datatype Referral = Referral(referrerId: nat, referredId: Option<nat>, code: string, status: Option<string>, createdAt: int)

  /** `password_reset_tokens`. */
  datatype ResetToken = ResetToken(userId: nat, token: string, expiresAt: int, createdAt: int, used: bool)

  /** `customer_checklist`: the JSON columns hold their JSON text. */
  datatype Checklist = Checklist(
    userId: nat,
    paymentOption: string,
    paymentMethod: Option<string>,
    taxId: string,
    domain: string,
    targetAudience: Option<string>,
    companyInfo: Option<string>,
    targetGroupGender: Option<string>,
    targetGroupAge: Option<string>,
    targetGroupLocation: Option<string>,
    targetGroupInterests: Option<seq<string>>,
    uniqueSellingPoint: Option<string>,
    marketSize: Option<string>,
    webDesign: string,
    marketResearch: string,
    legalInfo: string,
    idealCustomerProfile: string,
    qualificationQuestions: string,
    createdAt: int,
    updatedAt: int)

  // -------------------------------------------------------------- defaults

  const DefaultRole: string := "customer"
  const DefaultAssignedAdmin: string := "admin@nextmove.de"
  const DefaultPhase: string := "Checkliste"
  const PendingStatus: string := "pending"

  /** The values an insert into `users` names; `None` leaves the column to
      its default. */
  datatype UserValues = UserValues(
    email: string,
    password: string,
    firstName: string,
    lastName: string,
    companyId: Option<nat>,
    role: Option<string>,
    isApproved: Option<bool>,
    onboardingCompleted: Option<bool>,
    isFirstLogin: Option<bool>,
    currentPhase: Option<string>,
    completedPhases: Option<seq<string>>,
    progress: Option<int>)

  /** The row an insert of `v` at time `now` stores. */
  function UserRow(v: UserValues, now: int): (u: User)
    ensures u.email == v.email && u.password == v.password
    ensures u.firstName == v.firstName && u.lastName == v.lastName && u.companyId == v.companyId
    ensures u.profileImage == None && u.createdAt == now
  {
    User(v.email, v.password, v.firstName, v.lastName, v.companyId,
         v.role.GetOr(DefaultRole), v.isApproved.GetOr(false), None, now, DefaultAssignedAdmin,
         v.onboardingCompleted.GetOr(false), v.isFirstLogin.GetOr(true),
         v.currentPhase.GetOr(DefaultPhase), v.completedPhases.GetOr([]), v.progress.GetOr(0))
  }

  /** A user inserted with only the required columns is an unapproved
      customer on the checklist phase with nothing completed. */
  lemma UserDefaults(email: string, password: string, firstName: string, lastName: string, now: int)
    ensures var u := UserRow(UserValues(email, password, firstName, lastName, None, None, None, None, None, None, None, None), now);
      u.role == "customer" && !u.isApproved && !u.onboardingCompleted && u.isFirstLogin
      && u.currentPhase == "Checkliste" && u.completedPhases == [] && u.progress == 0
      && u.assignedAdmin == "admin@nextmove.de"
  {
  }

  /** A column the insert names overrides its default. */
  lemma UserValuesOverride(v: UserValues, now: int)
    ensures v.role.Some? ==> UserRow(v, now).role == v.role.value
    ensures v.isApproved.Some? ==> UserRow(v, now).isApproved == v.isApproved.value
    ensures v.currentPhase.Some? ==> UserRow(v, now).currentPhase == v.currentPhase.value
    ensures v.completedPhases.Some? ==> UserRow(v, now).completedPhases == v.completedPhases.value
    ensures v.progress.Some? ==> UserRow(v, now).progress == v.progress.value
    ensures v.onboardingCompleted.Some? ==> UserRow(v, now).onboardingCompleted == v.onboardingCompleted.value
  {
  }

  /** A callback inserted without a status is pending. */
  function CallbackRow(userId: nat, phone: string, status: Option<string>, now: int): (c: Callback)
    ensures status.None? ==> c.status == Some(PendingStatus)
    ensures status.Some? ==> c.status == status
    ensures c.userId == userId && c.phone == phone && c.createdAt == now
  {
    Callback(userId, phone, Some(status.GetOr(PendingStatus)), now)
  }

  /** A referral inserted without a status is pending. */
  function ReferralRow(referrerId: nat, code: string, status: Option<string>, now: int): (r: Referral)
    ensures status.None? ==> r.status == Some(PendingStatus)
    ensures status.Some? ==> r.status == status
    ensures r.referrerId == referrerId && r.code == code && r.referredId == None
  {
    Referral(referrerId, None, code, Some(status.GetOr(PendingStatus)), now)
  }

  /** A progress row inserted without `completed` is not completed. */
  function ProgressRowOf(userId: nat, tutorialId: nat, completed: Option<bool>, completedAt: Option<int>): (p: ProgressRow)
    ensures completed.None? ==> p.completed == Some(false)
    ensures completed.Some? ==> p.completed == completed
    ensures p.userId == userId && p.tutorialId == tutorialId && p.completedAt == completedAt
  {
    ProgressRow(userId, tutorialId, Some(completed.GetOr(false)), completedAt)
  }

  /** A reset token inserted without `used` is unused. */
  function ResetTokenRow(userId: nat, token: string, expiresAt: int, used: Option<bool>, now: int): (t: ResetToken)
    ensures used.None? ==> !t.used
    ensures used.Some? ==> t.used == used.value
    ensures t.userId == userId && t.token == token && t.expiresAt == expiresAt && t.createdAt == now
  {
    ResetToken(userId, token, expiresAt, now, used.GetOr(false))
  }

  /** The values an insert into `customer_checklist` names; `None` is an
      `undefined` value, which leaves the column NULL. */
  datatype ChecklistValues = ChecklistValues(
    paymentOption: Option<string>,
    paymentMethod: Option<string>,
    taxId: Option<string>,
    domain: Option<string>,
    targetAudience: Option<string>,
    companyInfo: Option<string>,
    targetGroupGender: Option<string>,
    targetGroupAge: Option<string>,
    targetGroupLocation: Option<string>,
    targetGroupInterests: Option<seq<string>>,
    uniqueSellingPoint: Option<string>,
    marketSize: Option<string>,
    webDesign: Option<string>,
    marketResearch: Option<string>,
    legalInfo: Option<string>,
    idealCustomerProfile: Option<string>,
    qualificationQuestions: Option<string>)

  /** The NOT NULL columns of `customer_checklist` all have a value. */
  predicate HasRequiredChecklistFields(v: ChecklistValues) {
    v.paymentOption.Some? && v.taxId.Some? && v.domain.Some?
    && v.webDesign.Some? && v.marketResearch.Some? && v.legalInfo.Some?
    && v.idealCustomerProfile.Some? && v.qualificationQuestions.Some?
  }

  /** The row an insert of `v` stores, or `None` when a NOT NULL column is
      left empty and the database refuses the insert. */
  function ChecklistRow(userId: nat, v: ChecklistValues, now: int): (r: Option<Checklist>)
    ensures r.Some? <==> HasRequiredChecklistFields(v)
    ensures r.Some? ==> r.value.userId == userId && r.value.createdAt == now && r.value.updatedAt == now
    ensures r.Some? ==> (Some(r.value.paymentOption) == v.paymentOption && Some(r.value.taxId) == v.taxId
                         && Some(r.value.domain) == v.domain && Some(r.value.webDesign) == v.webDesign
                         && Some(r.value.marketResearch) == v.marketResearch && Some(r.value.legalInfo) == v.legalInfo)
    ensures r.Some? ==> (r.value.paymentMethod == v.paymentMethod && r.value.targetGroupInterests == v.targetGroupInterests
                         && r.value.uniqueSellingPoint == v.uniqueSellingPoint && r.value.marketSize == v.marketSize)
    ensures r.Some? ==> (Some(r.value.idealCustomerProfile) == v.idealCustomerProfile
                         && Some(r.value.qualificationQuestions) == v.qualificationQuestions)
    ensures r.Some? ==> (r.value.targetAudience == v.targetAudience && r.value.companyInfo == v.companyInfo
                         && r.value.targetGroupGender == v.targetGroupGender && r.value.targetGroupAge == v.targetGroupAge
                         && r.value.targetGroupLocation == v.targetGroupLocation)
  {
    if HasRequiredChecklistFields(v) then
      Some(Checklist(userId, v.paymentOption.value, v.paymentMethod, v.taxId.value, v.domain.value,
        v.targetAudience, v.companyInfo, v.targetGroupGender, v.targetGroupAge, v.targetGroupLocation,
        v.targetGroupInterests, v.uniqueSellingPoint, v.marketSize, v.webDesign.value, v.marketResearch.value,
        v.legalInfo.value, v.idealCustomerProfile.value, v.qualificationQuestions.value, now, now))
    else None
  }

  // ----------------------------------------------------------------- store

  /** The relations the modelled handlers read or write. */
  datatype Store = Store(
    users: Table<User>,
    companies: Table<Company>,
    tutorials: Table<Tutorial>,
    progress: Table<ProgressRow>,
    callbacks: Table<Callback>,
    referrals: Table<Referral>,
    checklists: Table<Checklist>,
    resetTokens: Table<ResetToken>)

  /** An empty database. */
  function EmptyStore(): Store {
    Store(EmptyTable(), EmptyTable(), EmptyTable(), EmptyTable(), EmptyTable(), EmptyTable(), EmptyTable(), EmptyTable())
  }

  /** `email` is unique: no two users share one. */
  ghost predicate UniqueEmails(users: Table<User>) {
    forall i, j :: i in users.rows && j in users.rows && i != j ==> users.rows[i].email != users.rows[j].email
  }

  /** `code` is unique: no two referrals share one. */
  ghost predicate UniqueCodes(referrals: Table<Referral>) {
    forall i, j :: i in referrals.rows && j in referrals.rows && i != j ==> referrals.rows[i].code != referrals.rows[j].code
  }

  /** Every reference column points at an existing row. */
  ghost predicate ReferencesHold(st: Store) {
    (forall k :: k in st.users.rows && st.users.rows[k].companyId.Some? ==> st.users.rows[k].companyId.value in st.companies.rows)
    && (forall k :: k in st.progress.rows ==> st.progress.rows[k].userId in st.users.rows && st.progress.rows[k].tutorialId in st.tutorials.rows)
    && (forall k :: k in st.callbacks.rows ==> st.callbacks.rows[k].userId in st.users.rows)
    && (forall k :: k in st.referrals.rows ==> st.referrals.rows[k].referrerId in st.users.rows)
    && (forall k :: k in st.referrals.rows && st.referrals.rows[k].referredId.Some? ==> st.referrals.rows[k].referredId.value in st.users.rows)
    && (forall k :: k in st.checklists.rows ==> st.checklists.rows[k].userId in st.users.rows)
    && (forall k :: k in st.resetTokens.rows ==> st.resetTokens.rows[k].userId in st.users.rows)
  }

  /** The constraints the database enforces. */
  ghost predicate Valid(st: Store) {
    UniqueEmails(st.users) && UniqueCodes(st.referrals) && ReferencesHold(st)
  }

  lemma EmptyStoreValid()
    ensures Valid(EmptyStore())
  {
  }

  /** `findFirst({ where: eq(users.email, email) })`. */
  function UserByEmail(users: Table<User>, email: string): (r: Option<nat>)
    ensures r.Some? ==> r.value in users.rows && users.rows[r.value].email == email
    ensures r.None? <==> forall k :: k in users.rows ==> users.rows[k].email != email
  {
    FirstWhere(users, (u: User) => u.email == email)
  }

  /** With unique emails the lookup finds the one user holding the address. */
  lemma UserByEmailUnique(users: Table<User>, email: string, k: nat)
    requires UniqueEmails(users)
    requires k in users.rows && users.rows[k].email == email
    ensures UserByEmail(users, email) == Some(k)
  {
  }

  /** Rewriting a user's non-key columns, keeping the email, keeps the store valid. */
  lemma UpdateUserValid(st: Store, id: nat, f: User -> User)
    requires Valid(st)
    requires id in st.users.rows ==>
               f(st.users.rows[id]).email == st.users.rows[id].email
               && f(st.users.rows[id]).companyId == st.users.rows[id].companyId
    ensures Valid(st.(users := UpdateRow(st.users, id, f)))
  {
    var st' := st.(users := UpdateRow(st.users, id, f));
    forall i, j | i in st'.users.rows && j in st'.users.rows && i != j
      ensures st'.users.rows[i].email != st'.users.rows[j].email
    {
      assert st'.users.rows[i].email == st.users.rows[i].email;
      assert st'.users.rows[j].email == st.users.rows[j].email;
    }
  }

  /** Replacing the users by rows with the same keys, emails and companies
      keeps the store valid. */
  lemma ReplaceUsersValid(st: Store, users': Table<User>)
    requires Valid(st)
    requires users'.rows.Keys == st.users.rows.Keys
    requires forall k :: k in users'.rows ==>
               users'.rows[k].email == st.users.rows[k].email && users'.rows[k].companyId == st.users.rows[k].companyId
    ensures Valid(st.(users := users'))
  {
    forall i, j | i in users'.rows && j in users'.rows && i != j
      ensures users'.rows[i].email != users'.rows[j].email
    {
      assert st.users.rows[i].email != st.users.rows[j].email;
    }
  }

  /** Replacing the reset tokens by tokens of existing users keeps the store valid. */
  lemma ReplaceTokensValid(st: Store, tokens': Table<ResetToken>)
    requires Valid(st)
    requires forall k :: k in tokens'.rows ==> tokens'.rows[k].userId in st.users.rows
    ensures Valid(st.(resetTokens := tokens'))
  {
  }
}

=== FILE: seqs.dfy ===
/** Sequence helpers shared by the client and server models:
    `Array.prototype.filter`, "remove every occurrence", "push unless
    present", `indexOf` and duplicate-freedom. */
module Seqs {

  /** `xs.filter(p)`. */
  function Filter<T>(xs: seq<T>, p: T -> bool): (r: seq<T>)
    ensures |r| <= |xs|
    ensures forall k :: 0 <= k < |r| ==> p(r[k])
    ensures forall k :: 0 <= k < |r| ==> r[k] in xs
    ensures forall k :: 0 <= k < |xs| && p(xs[k]) ==> xs[k] in r
    ensures IsSubsequence(r, xs)
  {
    if xs == [] then []
    else
      var rest := Filter(xs[1..], p);
      assert forall k :: 1 <= k < |xs| ==> xs[k] == xs[1..][k - 1];
      if p(xs[0]) then [xs[0]] + rest else rest
  }

  /** `a` is `b` with some elements left out and the rest in their order. */
  ghost predicate IsSubsequence<T>(a: seq<T>, b: seq<T>)
    decreases |b|
  {
    if a == [] then true
    else if b == [] then false
    else if a[0] == b[0] then IsSubsequence(a[1..], b[1..])
    else IsSubsequence(a, b[1..])
  }

  /** A filter whose test holds of every element keeps the sequence as it is. */
  lemma {:induction false} FilterAll<T>(xs: seq<T>, p: T -> bool)
    requires forall k :: 0 <= k < |xs| ==> p(xs[k])
    ensures Filter(xs, p) == xs
  {
    if xs != [] {
      FilterAll(xs[1..], p);
    }
  }

  /** Filtering twice with the same test is filtering once. */
  lemma FilterIdempotent<T>(xs: seq<T>, p: T -> bool)
    ensures Filter(Filter(xs, p), p) == Filter(xs, p)
  {
    FilterAll(Filter(xs, p), p);
  }

  /** Filters with tests that agree everywhere agree. */
  lemma {:induction false} FilterSame<T>(xs: seq<T>, p: T -> bool, q: T -> bool)
    requires forall x :: p(x) == q(x)
    ensures Filter(xs, p) == Filter(xs, q)
  {
    if xs != [] {
      FilterSame(xs[1..], p, q);
    }
  }

  /** `xs.filter(y => y !== x)`: every occurrence of `x` removed. */
  function RemoveAll<T(==)>(xs: seq<T>, x: T): (r: seq<T>)
    ensures x !in r
    ensures forall k :: 0 <= k < |r| ==> r[k] in xs
    ensures forall k :: 0 <= k < |xs| && xs[k] != x ==> xs[k] in r
    ensures IsSubsequence(r, xs)
    ensures |r| == |xs| - Count(xs, x)
  {
    if xs == [] then []
    else
      var rest := RemoveAll(xs[1..], x);
      assert forall k :: 1 <= k < |xs| ==> xs[k] == xs[1..][k - 1];
      if xs[0] == x then rest else [xs[0]] + rest
  }

  /** Removing an element that is not there changes nothing. */
  lemma {:induction false} RemoveAllAbsent<T>(xs: seq<T>, x: T)
    requires x !in xs
    ensures RemoveAll(xs, x) == xs
  {
    if xs != [] {
      RemoveAllAbsent(xs[1..], x);
    }
  }

  /** `[...xs, x].filter(y => y !== x)` is `xs` when `x` was not in `xs`. */
  lemma {:induction false} RemoveAllAppendAbsent<T>(xs: seq<T>, x: T)
    requires x !in xs
    ensures RemoveAll(xs + [x], x) == xs
  {
    if xs == [] {
      assert xs + [x] == [x];
      assert RemoveAll([x], x) == RemoveAll([], x);
    } else {
      assert (xs + [x])[1..] == xs[1..] + [x];
      RemoveAllAppendAbsent(xs[1..], x);
    }
  }

  /** How often `x` occurs in `xs`. */
  function Count<T(==)>(xs: seq<T>, x: T): (n: nat)
    ensures n <= |xs|
    ensures n == 0 <==> x !in xs
  {
    if xs == [] then 0
    else (if xs[0] == x then 1 else 0) + Count(xs[1..], x)
  }

  lemma {:induction false} CountAppend<T>(a: seq<T>, b: seq<T>, x: T)
    ensures Count(a + b, x) == Count(a, x) + Count(b, x)
  {
    if a == [] {
      assert a + b == b;
    } else {
      assert (a + b)[0] == a[0];
      assert (a + b)[1..] == a[1..] + b;
      CountAppend(a[1..], b, x);
    }
  }

  /** `if (!xs.includes(x)) xs.push(x)`. */
  function AppendIfAbsent<T(==)>(xs: seq<T>, x: T): (r: seq<T>)
    ensures x in r
    ensures Count(r, x) == if x in xs then Count(xs, x) else 1
    ensures |xs| <= |r| <= |xs| + 1 && r[..|xs|] == xs
    ensures x !in xs ==> r[|xs|] == x
  {
    if x in xs then xs
    else
      CountAppend(xs, [x], x);
      xs + [x]
  }

  /** `xs.indexOf(x)`: the first position of `x`, or -1. */
  function IndexOf<T(==)>(xs: seq<T>, x: T): (i: int)
    ensures -1 <= i < |xs|
    ensures i == -1 <==> x !in xs
    ensures 0 <= i ==> xs[i] == x && x !in xs[..i]
  {
    if xs == [] then -1
    else if xs[0] == x then 0
    else
      var j := IndexOf(xs[1..], x);
      if j < 0 then -1 else assert xs[1..][..j] == xs[1..j + 1]; j + 1
  }

  /** Appending an element moves no earlier first position, and an element
      seen for the first time is found at the end. */
  lemma {:induction false} IndexOfAppend<T>(xs: seq<T>, y: T, x: T)
    ensures x in xs ==> IndexOf(xs + [y], x) == IndexOf(xs, x)
    ensures x !in xs && x == y ==> IndexOf(xs + [y], x) == |xs|
  {
    if xs != [] && xs[0] != x {
      assert (xs + [y])[1..] == xs[1..] + [y];
      IndexOfAppend(xs[1..], y, x);
    }
  }

  /** No element occurs twice. */
  ghost predicate NoDup<T>(xs: seq<T>) {
    forall i, j :: 0 <= i < j < |xs| ==> xs[i] != xs[j]
  }

  /** Pushing only absent elements keeps a list free of duplicates. */
  lemma AppendIfAbsentNoDup<T>(xs: seq<T>, x: T)
    requires NoDup(xs)
    ensures NoDup(AppendIfAbsent(xs, x))
  {
  }
}

=== FILE: settings_pages.dfy ===
/** Two pieces of the settings pages: the admin's logo pre-check before an
    upload (client/src/pages/admin/Settings.tsx) and the customer's
    immediate profile-image update of the cached user and session
    (client/src/components/dashboard/CustomerSettings.tsx). */
module SettingsPages {
  import opened Wrappers
  import Upload

  /** 10 MB. */
  const MaxLogoSize: int := 10 * 1024 * 1024

  const LogoTypes: seq<string> := ["image/jpeg", "image/png", "image/gif"]

  const LogoTooLarge: string := "Die Datei ist zu groß. Maximale Größe ist 10MB."
  const LogoWrongType: string := "Nur JPG, PNG und GIF Dateien sind erlaubt."

  /** A chosen file: its size in bytes and its MIME type. */
  datatype File = File(size: int, mimetype: string)

  /** What `handleLogoChange` leaves behind: the `logoFile` state and the
      error toast it raised, if any. */
  datatype LogoChange = LogoChange(logoFile: Option<File>, toast: Option<string>)

  /** `handleLogoChange`: no file changes nothing; a file over 10 MB is
      refused before its type is looked at; a type other than JPEG, PNG or
      GIF is refused; any other file becomes the logo to upload. */
  function HandleLogoChange(current: Option<File>, chosen: Option<File>): (r: LogoChange)
    ensures chosen.None? ==> r == LogoChange(current, None)
    ensures chosen.Some? && chosen.value.size > MaxLogoSize ==> r == LogoChange(current, Some(LogoTooLarge))
    ensures chosen.Some? ==> (r.toast.None? <==> chosen.value.size <= MaxLogoSize && chosen.value.mimetype in LogoTypes)
    ensures chosen.Some? && r.toast.None? ==> r.logoFile == chosen
    ensures r.toast.Some? ==> r.logoFile == current
  {
    match chosen
    case None => LogoChange(current, None)
    case Some(f) =>
      if f.size > MaxLogoSize then LogoChange(current, Some(LogoTooLarge))
      else if f.mimetype !in LogoTypes then LogoChange(current, Some(LogoWrongType))
      else LogoChange(chosen, None)
  }

  /** The size check comes first: a file that is both too large and of the
      wrong type is reported as too large. */
  lemma SizeCheckedBeforeType(current: Option<File>, size: int, mimetype: string)
    requires size > MaxLogoSize && mimetype !in LogoTypes
    ensures HandleLogoChange(current, Some(File(size, mimetype))).toast == Some(LogoTooLarge)
  {
  }

  /** Every logo the page accepts passes the server's `fileFilter` as well. */
  lemma PageLogoPassesServer(current: Option<File>, f: File)
    requires HandleLogoChange(current, Some(f)).toast.None?
    ensures Upload.FileFilter("logo", f.mimetype).Accept?
  {
  }

  /** The page is stricter than the server: a WebP logo the server would
      take is refused in the browser. */
  lemma WebpOnlyOnServer(current: Option<File>, size: int)
    requires 0 <= size <= MaxLogoSize
    ensures Upload.FileFilter("logo", "image/webp").Accept?
    ensures HandleLogoChange(current, Some(File(size, "image/webp"))).toast == Some(LogoWrongType)
  {
    assert "image/webp" !in LogoTypes by {
      assert "image/webp"[6] == 'w';
    }
  }

  // --------------------------------------------------- image cache update

  /** A JSON value in the query cache; only objects are looked into. */
  datatype Value = Str(s: string) | Obj(fields: map<string, Value>) | Other

  /** The own properties `{...v}` copies: an object's fields, and nothing
      from `undefined` or `null`. */
  function Spread(v: Option<Value>): map<string, Value> {
    if v.Some? && v.value.Obj? then v.value.fields else map[]
  }

  /** `oldData?.user || {}`: the cached session's `user`, or nothing. */
  function SessionUser(session: Option<Value>): Option<Value> {
    var fields := Spread(session);
    if "user" in fields then Some(fields["user"]) else None
  }

  /** `{...before, key: v}`: `key` set to `v`, every other field kept. */
  predicate SetsOnly(before: map<string, Value>, updated: map<string, Value>, key: string, v: Value) {
    && key in updated && updated[key] == v
    && (forall k :: k in updated && k != key ==> k in before && updated[k] == before[k])
    && (forall k :: k in before ==> k in updated)
  }

  /** `updateUserImageInCache(imageUrl)`: the new cached "user" entry and
      the new cached "session" entry. */
  function UpdateUserImage(user: Option<Value>, session: Option<Value>, imageUrl: string): (r: (Value, Value))
    ensures r.0.Obj? && SetsOnly(Spread(user), r.0.fields, "profileImage", Str(imageUrl))
    ensures r.1.Obj? && "user" in r.1.fields
    ensures var u := r.1.fields["user"];
            u.Obj? && SetsOnly(Spread(SessionUser(session)), u.fields, "profileImage", Str(imageUrl))
    ensures SetsOnly(Spread(session), r.1.fields, "user", r.1.fields["user"])
  {
    var cachedUser := Spread(user)["profileImage" := Str(imageUrl)];
    var sessionUser := Spread(SessionUser(session))["profileImage" := Str(imageUrl)];
    (Obj(cachedUser), Obj(Spread(session)["user" := Obj(sessionUser)]))
  }

  /** Applying the same update twice leaves what applying it once leaves. */
  lemma UpdateUserImageIdempotent(user: Option<Value>, session: Option<Value>, imageUrl: string)
    ensures var once := UpdateUserImage(user, session, imageUrl);
            UpdateUserImage(Some(once.0), Some(once.1), imageUrl) == once
  {
    var once := UpdateUserImage(user, session, imageUrl);
    var twice := UpdateUserImage(Some(once.0), Some(once.1), imageUrl);
    assert twice.0.fields == once.0.fields;
    assert SessionUser(Some(once.1)) == Some(once.1.fields["user"]);
    assert twice.1.fields["user"] == once.1.fields["user"];
    assert twice.1.fields == once.1.fields;
  }

  /** The user cached by the update and the session's user agree on the
      image whatever was cached before. */
  lemma UpdatedCachesAgree(user: Option<Value>, session: Option<Value>, imageUrl: string)
    ensures var r := UpdateUserImage(user, session, imageUrl);
            r.0.fields["profileImage"] == r.1.fields["user"].fields["profileImage"] == Str(imageUrl)
  {
  }
}

=== FILE: tag_input.dfy ===
/** The tag editor of the customer checklist
    (client/src/components/ui/tag-input.tsx): Enter adds the trimmed input
    unless it is already a tag, the cross removes a tag, and a disabled
    editor ignores both. */
module TagInput {
  import opened Seqs
  import opened Text

  /** The parent's `tags` and the editor's own `inputValue`. */
  datatype TagState = TagState(tags: seq<string>, input: string)

  /** The state after a key press, and whether `preventDefault` kept the
      key from submitting the surrounding form. */
  datatype KeyResult = KeyResult(state: TagState, defaultPrevented: bool)

  /** `handleKeyDown`. */
  function HandleKeyDown(st: TagState, key: string, disabled: bool): (r: KeyResult)
    ensures disabled || key != "Enter" || IsBlank(st.input) ==> r == KeyResult(st, false)
    ensures !disabled && key == "Enter" && !IsBlank(st.input) ==>
              r.defaultPrevented && r.state.input == ""
              && Trim(st.input) != "" && Trim(st.input) in r.state.tags
              && |r.state.tags| == |st.tags| + (if Trim(st.input) in st.tags then 0 else 1)
              && r.state.tags[..|st.tags|] == st.tags
  {
    TrimEmptyIffBlank(st.input);
    if disabled then KeyResult(st, false)
    else if key == "Enter" && Trim(st.input) != "" then
      KeyResult(TagState(AppendIfAbsent(st.tags, Trim(st.input)), ""), true)
    else KeyResult(st, false)
  }

  /** `removeTag`. */
  function RemoveTag(st: TagState, tag: string, disabled: bool): (r: TagState)
    ensures r.input == st.input
    ensures disabled ==> r == st
    ensures !disabled ==> tag !in r.tags && IsSubsequence(r.tags, st.tags)
    ensures !disabled ==> forall k :: 0 <= k < |st.tags| && st.tags[k] != tag ==> st.tags[k] in r.tags
  {
    if disabled then st else st.(tags := RemoveAll(st.tags, tag))
  }

  /** Adding never introduces a duplicate tag. */
  lemma HandleKeyDownKeepsTagsDistinct(st: TagState, key: string, disabled: bool)
    requires NoDup(st.tags)
    ensures NoDup(HandleKeyDown(st, key, disabled).state.tags)
  {
    if !disabled && key == "Enter" && Trim(st.input) != "" {
      AppendIfAbsentNoDup(st.tags, Trim(st.input));
    }
  }

  /** A tag that is added is never blank and carries no surrounding white
      space, whatever was typed: every tag after the old ones is the trimmed
      input. */
  lemma AddedTagIsTrimmed(st: TagState, key: string, disabled: bool)
    ensures var tags := HandleKeyDown(st, key, disabled).state.tags;
            forall k :: |st.tags| <= k < |tags| ==>
              tags[k] == Trim(st.input) && tags[k] != "" && !IsSpace(tags[k][0]) && !IsSpace(tags[k][|tags[k]| - 1])
  {
    var tags := HandleKeyDown(st, key, disabled).state.tags;
    var x := Trim(st.input);
    if !disabled && key == "Enter" && x != "" && x !in st.tags {
      assert tags == st.tags + [x];
    } else {
      assert |tags| == |st.tags|;
    }
  }

  /** Removing the tag just added restores the list it was added to. */
  lemma RemoveUndoesAdd(st: TagState, disabled: bool)
    requires !IsBlank(st.input) && Trim(st.input) !in st.tags
    ensures RemoveTag(HandleKeyDown(st, "Enter", disabled).state, Trim(st.input), disabled).tags == st.tags
  {
    TrimEmptyIffBlank(st.input);
    if !disabled {
      RemoveAllAppendAbsent(st.tags, Trim(st.input));
    }
  }

  /** Removing a tag twice is removing it once. */
  lemma RemoveTagIdempotent(st: TagState, tag: string, disabled: bool)
    ensures RemoveTag(RemoveTag(st, tag, disabled), tag, disabled) == RemoveTag(st, tag, disabled)
  {
    if !disabled {
      RemoveAllAbsent(RemoveAll(st.tags, tag), tag);
    }
  }
}

=== FILE: text.dfy ===
/** String helpers with the semantics of the JavaScript built-ins the portal
    calls: `toLowerCase` (ASCII part), `includes`, `trim`, `split`/`join`,
    `split(c).pop()`, `Number.prototype.toString` and the UTF-16 `length`
    that zod's `.min(n)` measures. */
module Text {

  /** White space as `String.prototype.trim` strips it: the WhiteSpace and
      LineTerminator code points of ECMAScript. */
  predicate IsSpace(c: char) {
    || c == ' ' || c == '\t' || c == '\n' || c == '\r' || c == '\U{B}' || c == '\U{C}'
    || c == '\U{A0}' || c == '\U{1680}' || ('\U{2000}' <= c <= '\U{200A}')
    || c == '\U{2028}' || c == '\U{2029}' || c == '\U{202F}' || c == '\U{205F}'
    || c == '\U{3000}' || c == '\U{FEFF}'
  }

  /** True of a string that `trim` reduces to the empty string. */
  predicate IsBlank(s: string) {
    forall i :: 0 <= i < |s| ==> IsSpace(s[i])
  }

  predicate IsAsciiUpper(c: char) { 'A' <= c <= 'Z' }
  predicate IsAsciiLower(c: char) { 'a' <= c <= 'z' }
  predicate IsAsciiDigit(c: char) { '0' <= c <= '9' }

  function LowerChar(c: char): char {
    if IsAsciiUpper(c) then (c as int + 32) as char else c
  }

  /** `toLowerCase`, restricted to the ASCII letters. */
  function ToLower(s: string): (r: string)
    ensures |r| == |s|
    ensures forall i :: 0 <= i < |s| ==> r[i] == LowerChar(s[i])
  {
    if s == [] then [] else [LowerChar(s[0])] + ToLower(s[1..])
  }

  lemma ToLowerIdempotent(s: string)
    ensures ToLower(ToLower(s)) == ToLower(s)
  {
  }

  lemma ToLowerHasNoUpper(s: string)
    ensures forall i :: 0 <= i < |s| ==> !IsAsciiUpper(ToLower(s)[i])
  {
  }

  lemma ToLowerConcat(a: string, b: string)
    ensures ToLower(a + b) == ToLower(a) + ToLower(b)
  {
  }

  /** A string with no ASCII capital letter is its own lower-case form. */
  lemma ToLowerOfLower(s: string)
    requires forall i :: 0 <= i < |s| ==> !IsAsciiUpper(s[i])
    ensures ToLower(s) == s
  {
  }

  predicate IsPrefix(p: string, s: string) {
    |p| <= |s| && s[..|p|] == p
  }

  /** `String.prototype.includes`: does `t` occur in `s` as a contiguous piece? */
  predicate Includes(s: string, t: string)
    decreases |s|
  {
    IsPrefix(t, s) || (|s| > 0 && Includes(s[1..], t))
  }

  ghost predicate OccursAt(s: string, t: string, i: int) {
    0 <= i && i + |t| <= |s| && s[i..i + |t|] == t
  }

  /** The scan above finds `t` exactly when `t` occurs somewhere in `s`. */
  lemma {:induction false} IncludesIff(s: string, t: string)
    ensures Includes(s, t) <==> exists i :: OccursAt(s, t, i)
    decreases |s|
  {
    if IsPrefix(t, s) {
      assert OccursAt(s, t, 0);
    } else if |s| == 0 {
      assert forall i :: !OccursAt(s, t, i);
    } else {
      IncludesIff(s[1..], t);
      if Includes(s[1..], t) {
        var i :| OccursAt(s[1..], t, i);
        assert s[i + 1..i + 1 + |t|] == s[1..][i..i + |t|];
        assert OccursAt(s, t, i + 1);
      } else {
        forall i | OccursAt(s, t, i)
          ensures false
        {
          assert i != 0;
          assert s[1..][i - 1..i - 1 + |t|] == s[i..i + |t|];
          assert OccursAt(s[1..], t, i - 1);
        }
      }
    }
  }

  /** Every string includes the empty string. */
  lemma {:induction false} IncludesEmpty(s: string)
    ensures Includes(s, "")
  {
    assert IsPrefix("", s);
  }

  /** The number of white-space characters `trim` strips from the front. */
  function LeadingSpace(s: string): (k: nat)
    ensures k <= |s|
    ensures forall i :: 0 <= i < k ==> IsSpace(s[i])
    ensures k < |s| ==> !IsSpace(s[k])
  {
    if s != [] && IsSpace(s[0]) then 1 + LeadingSpace(s[1..]) else 0
  }

  /** The number of white-space characters `trim` strips from the back. */
  function TrailingSpace(s: string): (k: nat)
    ensures k <= |s|
    ensures forall i :: |s| - k <= i < |s| ==> IsSpace(s[i])
    ensures k < |s| ==> !IsSpace(s[|s| - 1 - k])
  {
    if s != [] && IsSpace(s[|s| - 1]) then 1 + TrailingSpace(s[..|s| - 1]) else 0
  }

  /** `String.prototype.trim`: the piece of `s` left after dropping the white
      space at both ends. Everything outside the piece is white space and the
      piece neither starts nor ends with white space. */
  function Trim(s: string): (r: string)
    ensures LeadingSpace(s) + |r| <= |s|
    ensures r == s[LeadingSpace(s)..LeadingSpace(s) + |r|]
    ensures forall i :: LeadingSpace(s) + |r| <= i < |s| ==> IsSpace(s[i])
    ensures r != [] ==> !IsSpace(r[0]) && !IsSpace(r[|r| - 1])
  {
    var k := LeadingSpace(s);
    if k == |s| then [] else s[k..|s| - TrailingSpace(s)]
  }

  /** `trim` leaves nothing exactly of a blank string. */
  lemma TrimEmptyIffBlank(s: string)
    ensures Trim(s) == [] <==> IsBlank(s)
  {
    LeadingSpaceOfBlank(s);
  }

  /** A blank string is all leading white space. */
  lemma {:induction false} LeadingSpaceOfBlank(s: string)
    ensures IsBlank(s) ==> LeadingSpace(s) == |s|
  {
    if s != [] && IsBlank(s) {
      LeadingSpaceOfBlank(s[1..]);
    }
  }

  lemma TrimIdempotent(s: string)
    ensures Trim(Trim(s)) == Trim(s)
  {
    var r := Trim(s);
    if r != [] {
      assert LeadingSpace(r) == 0;
      assert TrailingSpace(r) == 0;
    }
  }

  /** `c` occurs nowhere in `s`. */
  predicate Absent(c: char, s: string) {
    forall j :: 0 <= j < |s| ==> s[j] != c
  }

  lemma AbsentConcat(c: char, a: string, b: string)
    requires Absent(c, a) && Absent(c, b)
    ensures Absent(c, a + b)
  {
    forall j | 0 <= j < |a + b|
      ensures (a + b)[j] != c
    {
      if j < |a| { assert (a + b)[j] == a[j]; } else { assert (a + b)[j] == b[j - |a|]; }
    }
  }

  /** A piece of a string without `c` has no `c` either. */
  lemma AbsentSlice(c: char, s: string, i: nat, j: nat)
    requires Absent(c, s) && i <= j <= |s|
    ensures Absent(c, s[i..j])
  {
    forall k | 0 <= k < j - i
      ensures s[i..j][k] != c
    {
      assert s[i..j][k] == s[i + k];
    }
  }

  /** `s.indexOf(c)`: the first position of `c`, or -1. */
  function IndexOfChar(s: string, c: char): (i: int)
    ensures -1 <= i < |s|
    ensures 0 <= i ==> s[i] == c
  {
    if s == [] then -1
    else if s[0] == c then 0
    else
      var j := IndexOfChar(s[1..], c);
      if j < 0 then -1 else j + 1
  }

  /** `indexOf` answers -1 exactly when `c` is absent, and otherwise finds
      no `c` before the position it returns. */
  lemma {:induction false} IndexOfCharFirst(s: string, c: char)
    ensures IndexOfChar(s, c) == -1 <==> Absent(c, s)
    ensures forall j :: 0 <= j < IndexOfChar(s, c) ==> s[j] != c
  {
    if s != [] && s[0] != c {
      IndexOfCharFirst(s[1..], c);
      assert forall j :: 1 <= j < |s| ==> s[j] == s[1..][j - 1];
    }
  }

  /** `s.split(sep)` for a one-character separator. */
  function Split(s: string, sep: char): (parts: seq<string>)
    ensures |parts| >= 1
    decreases |s|
  {
    var i := IndexOfChar(s, sep);
    if i < 0 then [s] else [s[..i]] + Split(s[i + 1..], sep)
  }

  /** No piece of a split contains the separator. */
  lemma {:induction false} SplitPiecesFree(s: string, sep: char)
    ensures forall k :: 0 <= k < |Split(s, sep)| ==> Absent(sep, Split(s, sep)[k])
    decreases |s|
  {
    var i := IndexOfChar(s, sep);
    IndexOfCharFirst(s, sep);
    if i >= 0 {
      var parts := Split(s, sep);
      var rest := Split(s[i + 1..], sep);
      SplitPiecesFree(s[i + 1..], sep);
      SplitUnfold(s, sep, i);
      forall k | 0 <= k < |parts|
        ensures Absent(sep, parts[k])
      {
        if k > 0 {
          assert parts[k] == rest[k - 1];
        }
      }
    }
  }

  /** One step of `split`: the piece before the first separator, then the
      split of the rest. */
  lemma SplitUnfold(s: string, sep: char, i: int)
    requires 0 <= i == IndexOfChar(s, sep)
    ensures Split(s, sep) == [s[..i]] + Split(s[i + 1..], sep)
  {
  }

  /** `parts.join(sep)` for a one-character separator. */
  function Join(parts: seq<string>, sep: char): string {
    if parts == [] then ""
    else if |parts| == 1 then parts[0]
    else parts[0] + [sep] + Join(parts[1..], sep)
  }

  /** Splitting and joining again gives back the original string. */
  lemma {:induction false} JoinSplit(s: string, sep: char)
    ensures Join(Split(s, sep), sep) == s
    decreases |s|
  {
    var i := IndexOfChar(s, sep);
    var parts := Split(s, sep);
    if i >= 0 {
      var rest := Split(s[i + 1..], sep);
      SplitUnfold(s, sep, i);
      assert parts[1..] == rest;
      JoinSplit(s[i + 1..], sep);
      calc {
        Join(parts, sep);
        parts[0] + [sep] + Join(rest, sep);
        s[..i] + [sep] + s[i + 1..];
        s;
      }
    }
  }

  /** The first separator in `p + [c] + t` is the one after `p` when `p` has none. */
  lemma {:induction false} IndexOfCharAfterFree(p: string, c: char, t: string)
    requires Absent(c, p)
    ensures IndexOfChar(p + [c] + t, c) == |p|
    decreases |p|
  {
    if p != [] {
      assert (p + [c] + t)[1..] == p[1..] + [c] + t;
      IndexOfCharAfterFree(p[1..], c, t);
    }
  }

  /** Joining separator-free pieces and splitting again gives back the pieces. */
  lemma {:induction false} SplitJoin(parts: seq<string>, sep: char)
    requires |parts| >= 1
    requires forall k :: 0 <= k < |parts| ==> Absent(sep, parts[k])
    ensures Split(Join(parts, sep), sep) == parts
  {
    var p := parts[0];
    if |parts| == 1 {
      assert IndexOfChar(p, sep) == -1;
    } else {
      var tail := Join(parts[1..], sep);
      var s := p + [sep] + tail;
      IndexOfCharAfterFree(p, sep, tail);
      assert s[..|p|] == p;
      assert s[|p| + 1..] == tail;
      SplitJoin(parts[1..], sep);
    }
  }

  /** `s.split(c).pop()`: the text after the last `c`, or all of `s` when
      `c` does not occur. */
  function AfterLast(s: string, c: char): (r: string)
    ensures |r| <= |s|
    decreases |s|
  {
    var i := IndexOfChar(s, c);
    if i < 0 then s else AfterLast(s[i + 1..], c)
  }

  /** What `AfterLast` returns holds no `c`. */
  lemma {:induction false} AfterLastFree(s: string, c: char)
    ensures Absent(c, AfterLast(s, c))
    decreases |s|
  {
    var i := IndexOfChar(s, c);
    IndexOfCharFirst(s, c);
    if i >= 0 {
      AfterLastSkip(s, c, i);
      AfterLastFree(s[i + 1..], c);
    }
  }

  /** What `AfterLast` returns is a suffix of `s`. */
  lemma {:induction false} AfterLastSuffix(s: string, c: char)
    ensures AfterLast(s, c) == s[|s| - |AfterLast(s, c)|..]
    decreases |s|
  {
    var i := IndexOfChar(s, c);
    if i >= 0 {
      var t := s[i + 1..];
      AfterLastSkip(s, c, i);
      AfterLastSuffix(t, c);
      DropDrop(s, i + 1, |t| - |AfterLast(t, c)|);
    }
  }

  /** Unless `AfterLast` returns all of `s`, the character before it is `c`. */
  lemma {:induction false} AfterLastAfterSeparator(s: string, c: char)
    ensures |AfterLast(s, c)| < |s| ==> s[|s| - |AfterLast(s, c)| - 1] == c
    decreases |s|
  {
    var i := IndexOfChar(s, c);
    if i >= 0 {
      var t := s[i + 1..];
      var n := |AfterLast(t, c)|;
      AfterLastSkip(s, c, i);
      AfterLastAfterSeparator(t, c);
      if n < |t| {
        assert t[|t| - n - 1] == s[|s| - n - 1];
      }
    }
  }

  /** A `c`-free tail after a `c` is exactly what `AfterLast` returns. */
  lemma AfterLastOfTail(p: string, c: char, t: string)
    requires Absent(c, t)
    ensures AfterLast(p + [c] + t, c) == t
  {
    var s := p + [c] + t;
    var r := AfterLast(s, c);
    AfterLastFree(s, c);
    AfterLastSuffix(s, c);
    AfterLastAfterSeparator(s, c);
    if |r| > |t| {
      CharOfSuffix(s, |r|, |r| - |t| - 1);
      assert false;
    } else if |r| < |t| {
      assert false;
    }
    assert s[|s| - |t|..] == t;
  }

  lemma CharOfSuffix(s: string, n: nat, j: int)
    ensures n <= |s| && 0 <= j < n ==> s[|s| - n..][j] == s[|s| - n + j]
  {
  }

  lemma DropDrop(s: string, a: nat, b: nat)
    requires a + b <= |s|
    ensures s[a..][b..] == s[a + b..]
  {
  }

  /** `AfterLast` is the last piece `split` produces, which is what `pop` returns. */
  lemma {:induction false} AfterLastIsLastPiece(s: string, c: char)
    ensures AfterLast(s, c) == Split(s, c)[|Split(s, c)| - 1]
    decreases |s|
  {
    var i := IndexOfChar(s, c);
    if i < 0 {
      assert Split(s, c) == [s];
      assert AfterLast(s, c) == s;
    } else {
      AfterLastSkip(s, c, i);
      AfterLastIsLastPiece(s[i + 1..], c);
      SplitLastPiece(s, c, i);
    }
  }

  /** The pieces after the first separator end like the whole split. */
  lemma SplitLastPiece(s: string, c: char, i: int)
    requires 0 <= i == IndexOfChar(s, c)
    ensures Split(s, c)[|Split(s, c)| - 1] == Split(s[i + 1..], c)[|Split(s[i + 1..], c)| - 1]
  {
    SplitUnfold(s, c, i);
  }

  /** `AfterLast` skips everything up to the first `c`. */
  lemma AfterLastSkip(s: string, c: char, i: int)
    requires 0 <= i == IndexOfChar(s, c)
    ensures AfterLast(s, c) == AfterLast(s[i + 1..], c)
  {
  }

  /** The decimal digits of a natural number, without leading zeros. */
  function NatToString(n: nat): (s: string)
    ensures |s| >= 1
    ensures forall i :: 0 <= i < |s| ==> IsAsciiDigit(s[i])
    ensures |s| > 1 ==> s[0] != '0'
    decreases n
  {
    var d := ['0' + (n % 10) as char];
    if n < 10 then d else NatToString(n / 10) + d
  }

  function DigitValue(c: char): nat
    requires IsAsciiDigit(c)
  {
    (c - '0') as nat
  }

  /** Reads a string of decimal digits back as a number. */
  function ParseNat(s: string): nat
    requires forall i :: 0 <= i < |s| ==> IsAsciiDigit(s[i])
  {
    if s == [] then 0 else 10 * ParseNat(s[..|s| - 1]) + DigitValue(s[|s| - 1])
  }

  lemma {:induction false} ParseNatToString(n: nat)
    ensures ParseNat(NatToString(n)) == n
    decreases n
  {
    var s := NatToString(n);
    if n >= 10 {
      ParseNatToString(n / 10);
      assert s[..|s| - 1] == NatToString(n / 10);
    }
  }

  /** `Number.prototype.toString()` on an integer. */
  function IntToString(n: int): string {
    if n < 0 then "-" + NatToString(-n) else NatToString(n)
  }

  /** Different naturals print differently. */
  lemma NatToStringInjective(a: nat, b: nat)
    requires NatToString(a) == NatToString(b)
    ensures a == b
  {
    ParseNatToString(a);
    ParseNatToString(b);
  }

  /** Different integers print differently. */
  lemma IntToStringInjective(a: int, b: int)
    requires IntToString(a) == IntToString(b)
    ensures a == b
  {
    SignShows(a);
    SignShows(b);
    if a < 0 {
      assert NatToString(-a) == IntToString(a)[1..];
      assert NatToString(-b) == IntToString(b)[1..];
      NatToStringInjective(-a, -b);
    } else {
      NatToStringInjective(a, b);
    }
  }

  /** The first character of a printed integer tells its sign. */
  lemma SignShows(n: int)
    ensures IntToString(n) != []
    ensures n < 0 <==> IntToString(n)[0] == '-'
  {
  }

  /** JavaScript's `length`: code points above U+FFFF take two UTF-16 units. */
  function Utf16Length(s: string): (n: nat)
    ensures |s| <= n <= 2 * |s|
  {
    if s == [] then 0
    else (if s[0] as int > 0xFFFF then 2 else 1) + Utf16Length(s[1..])
  }

  /** A JavaScript string is empty (falsy) exactly when its length is zero. */
  lemma Utf16LengthZero(s: string)
    ensures Utf16Length(s) == 0 <==> s == []
  {
  }
}

=== FILE: tracking.dfy ===
/** The admin tracking view: the server's de-duplicated customer list
    (`GET /api/admin/customers/tracking`, server/routes.ts), the customer
    cards' optimistic next/previous phase updates and the page's search box
    (client/src/pages/admin/Tracking.tsx). */
module Tracking {
  import opened Wrappers
  import opened Seqs
  import opened Text
  import Phases
  import Schema
  import OnboardingRoutes

  // ---------------------------------------------------------------------
  // Server: one row per customer, empty checklist fields dropped
  // ---------------------------------------------------------------------

  /** A checklist column as the left join delivers it. Only a string or SQL
      null can be `=== ''`, `=== '{}'` or `=== null`; numbers, booleans,
      dates and parsed JSON objects never are. */
  datatype Field = Str(s: string) | Null | Other

  /** The three values the reducer deletes. */
  predicate IsEmptyField(v: Field) {
    v == Str("") || v == Str("{}") || v == Null
  }

  /** The user columns the query selects; the server passes them through. */
  datatype Columns = Columns(
    firstName: string, lastName: string, email: string,
    currentPhase: string, completedPhases: seq<string>, progress: int,
    lastActive: Option<int>, onboardingCompleted: bool)

  /** One row of `users LEFT JOIN customer_checklist`: a user with several
      checklists appears once per checklist. */
  datatype TrackingRow = TrackingRow(id: nat, columns: Columns, checklist: Option<map<string, Field>>)

  /** The checklist with every empty field deleted. */
  function StripEmpty(m: map<string, Field>): (r: map<string, Field>)
    ensures r.Keys <= m.Keys
    ensures forall key :: key in r ==> r[key] == m[key] && !IsEmptyField(r[key])
    ensures forall key :: key in m && !IsEmptyField(m[key]) ==> key in r
  {
    map key | key in m && !IsEmptyField(m[key]) :: m[key]
  }

  /** Stripping a stripped checklist changes nothing more. */
  lemma StripEmptyIdempotent(m: map<string, Field>)
    ensures StripEmpty(StripEmpty(m)) == StripEmpty(m)
  {
  }

  /** A row as the reducer pushes it. */
  function Clean(row: TrackingRow): (r: TrackingRow)
    ensures r.id == row.id && r.columns == row.columns
    ensures r.checklist.Some? <==> row.checklist.Some?
    ensures row.checklist.Some? ==> r.checklist.value == StripEmpty(row.checklist.value)
  {
    match row.checklist
    case None => row
    case Some(m) => row.(checklist := Some(StripEmpty(m)))
  }

  function Ids(rows: seq<TrackingRow>): (ids: seq<nat>)
    ensures |ids| == |rows|
    ensures forall k :: 0 <= k < |rows| ==> ids[k] == rows[k].id
  {
    seq(|rows|, k requires 0 <= k < |rows| => rows[k].id)
  }

  lemma IdsAppend(rows: seq<TrackingRow>, row: TrackingRow)
    ensures Ids(rows + [row]) == Ids(rows) + [row.id]
  {
  }

  /** The reducer's result, defined row by row from the back: a row is
      pushed, cleaned, unless a row with its id was pushed before. */
  function Dedup(rows: seq<TrackingRow>): (r: seq<TrackingRow>)
    ensures |r| <= |rows|
  {
    if rows == [] then []
    else
      var acc := Dedup(rows[..|rows| - 1]);
      var current := rows[|rows| - 1];
      if current.id in Ids(acc) then acc else acc + [Clean(current)]
  }

  /** The `reduce` of the tracking route, with `acc.find` as the id test. */
  method DedupRows(rows: seq<TrackingRow>) returns (acc: seq<TrackingRow>)
    ensures acc == Dedup(rows)
    ensures NoDup(Ids(acc))
    ensures forall id :: id in Ids(acc) <==> id in Ids(rows)
    ensures FirstRows(acc, rows) && InFirstRowOrder(acc, rows)
  {
    acc := [];
    var i := 0;
    while i < |rows|
      invariant 0 <= i <= |rows|
      invariant acc == Dedup(rows[..i])
    {
      var current := rows[i];
      assert rows[..i + 1][..i] == rows[..i];
      if current.id !in Ids(acc) {
        acc := acc + [Clean(current)];
      }
      i := i + 1;
    }
    assert rows[..i] == rows;
    DedupDistinct(rows);
    DedupCovers(rows);
    DedupFirstOccurrences(rows);
  }

  /** No customer appears twice in the answer. */
  lemma {:induction false} DedupDistinct(rows: seq<TrackingRow>)
    ensures NoDup(Ids(Dedup(rows)))
  {
    if rows != [] {
      var front := rows[..|rows| - 1];
      DedupDistinct(front);
      IdsAppend(Dedup(front), Clean(rows[|rows| - 1]));
    }
  }

  /** Every customer of the join appears in the answer, and no other. */
  lemma {:induction false} DedupCovers(rows: seq<TrackingRow>)
    ensures forall id :: id in Ids(Dedup(rows)) <==> id in Ids(rows)
  {
    if rows != [] {
      var front := rows[..|rows| - 1];
      DedupCovers(front);
      IdsAppend(Dedup(front), Clean(rows[|rows| - 1]));
      IdsAppend(front, rows[|rows| - 1]);
      assert rows == front + [rows[|rows| - 1]];
    }
  }

  /** Each row of `r` is the first joined row of its customer, cleaned. */
  ghost predicate FirstRows(r: seq<TrackingRow>, rows: seq<TrackingRow>) {
    forall k :: 0 <= k < |r| ==>
      0 <= IndexOf(Ids(rows), r[k].id) && r[k] == Clean(rows[IndexOf(Ids(rows), r[k].id)])
  }

  /** The customers of `r` are in the order of their first joined rows. */
  ghost predicate InFirstRowOrder(r: seq<TrackingRow>, rows: seq<TrackingRow>) {
    forall k, l :: 0 <= k < l < |r| ==> IndexOf(Ids(rows), r[k].id) < IndexOf(Ids(rows), r[l].id)
  }

  /** Each customer keeps the first of its joined rows, cleaned, and the
      customers stay in the order of their first rows. */
  lemma {:induction false} DedupFirstOccurrences(rows: seq<TrackingRow>)
    ensures FirstRows(Dedup(rows), rows) && InFirstRowOrder(Dedup(rows), rows)
  {
    if rows != [] {
      var front := rows[..|rows| - 1];
      var last := rows[|rows| - 1];
      var acc := Dedup(front);
      DedupFirstOccurrences(front);
      DedupCovers(front);
      assert rows == front + [last];
      LaterRowsKeepPositions(acc, front, last);
      if last.id !in Ids(acc) {
        IdsAppend(front, last);
        IndexOfAppend(Ids(front), last.id, last.id);
        NewCustomerComesLast(acc, rows, Clean(last));
      }
    }
  }

  /** A further joined row moves no customer's first row. */
  lemma LaterRowsKeepPositions(acc: seq<TrackingRow>, front: seq<TrackingRow>, last: TrackingRow)
    requires FirstRows(acc, front) && InFirstRowOrder(acc, front)
    requires forall k :: 0 <= k < |acc| ==> acc[k].id in Ids(front)
    ensures FirstRows(acc, front + [last]) && InFirstRowOrder(acc, front + [last])
    ensures forall k :: 0 <= k < |acc| ==> IndexOf(Ids(front + [last]), acc[k].id) < |front|
  {
    IdsAppend(front, last);
    forall k | 0 <= k < |acc|
      ensures IndexOf(Ids(front + [last]), acc[k].id) == IndexOf(Ids(front), acc[k].id)
    {
      IndexOfAppend(Ids(front), last.id, acc[k].id);
    }
  }

  /** The step in which the last joined row brings a new customer. */
  lemma NewCustomerComesLast(acc: seq<TrackingRow>, rows: seq<TrackingRow>, x: TrackingRow)
    requires rows != [] && x == Clean(rows[|rows| - 1])
    requires IndexOf(Ids(rows), x.id) == |rows| - 1
    requires FirstRows(acc, rows) && InFirstRowOrder(acc, rows)
    requires forall k :: 0 <= k < |acc| ==> IndexOf(Ids(rows), acc[k].id) < |rows| - 1
    ensures FirstRows(acc + [x], rows) && InFirstRowOrder(acc + [x], rows)
  {
    var r := acc + [x];
    assert forall k :: 0 <= k < |acc| ==> r[k] == acc[k];
    assert r[|acc|] == x;
  }

  // ---------------------------------------------------------------------
  // Client: optimistic phase moves on a customer card
  // ---------------------------------------------------------------------

  /** A customer as the `['customers']` query caches it; other fields are
      spread through unchanged and left out. */
  datatype CustomerData = CustomerData(
    id: int, firstName: string, lastName: string, email: string,
    currentPhase: string, completedPhases: Option<seq<string>>)

  /** The `['progress', id]` query entry the card overwrites. */
  datatype ProgressEntry = ProgressEntry(currentPhase: string, completedPhases: seq<string>)

  function EntryOf(c: CustomerData): ProgressEntry {
    ProgressEntry(c.currentPhase, c.completedPhases.GetOr([]))
  }

  /** What a click does: the two cache writes and the phase posted to
      `/api/admin/user-phase/:id`. */
  datatype CardUpdate = CardUpdate(customers: Option<seq<CustomerData>>, progress: ProgressEntry, posted: string)

  /** `old?.map(c => c.id === id ? f(c) : c)`. */
  function MapCustomer(cache: Option<seq<CustomerData>>, id: int, f: CustomerData -> CustomerData): (r: Option<seq<CustomerData>>)
    ensures r.Some? <==> cache.Some?
    ensures r.Some? ==> |r.value| == |cache.value|
    ensures r.Some? ==> forall k :: 0 <= k < |r.value| ==>
              r.value[k] == if cache.value[k].id == id then f(cache.value[k]) else cache.value[k]
  {
    match cache
    case None => None
    case Some(cs) => Some(seq(|cs|, k requires 0 <= k < |cs| => if cs[k].id == id then f(cs[k]) else cs[k]))
  }

  /** `{ ...c, currentPhase: next, completedPhases: [...(c.completedPhases || []), c.currentPhase] }`:
      the phase left behind is recorded as completed. */
  function Advanced(c: CustomerData, next: string): (d: CustomerData)
    ensures d.id == c.id && d.currentPhase == next && d.completedPhases.Some?
    ensures |d.completedPhases.value| == |c.completedPhases.GetOr([])| + 1
    ensures d.completedPhases.value[..|d.completedPhases.value| - 1] == c.completedPhases.GetOr([])
    ensures d.completedPhases.value[|d.completedPhases.value| - 1] == c.currentPhase
  {
    var completed := c.completedPhases.GetOr([]) + [c.currentPhase];
    assert completed[..|completed| - 1] == c.completedPhases.GetOr([]);
    c.(currentPhase := next, completedPhases := Some(completed))
  }

  /** `{ ...c, currentPhase: previous, completedPhases: (c.completedPhases || []).filter(p => p !== c.currentPhase) }`:
      the phase left behind is no longer completed, the rest stays in order. */
  function Retreated(c: CustomerData, previous: string): (d: CustomerData)
    ensures d.id == c.id && d.currentPhase == previous && d.completedPhases.Some?
    ensures c.currentPhase !in d.completedPhases.value
    ensures IsSubsequence(d.completedPhases.value, c.completedPhases.GetOr([]))
    ensures forall k :: 0 <= k < |c.completedPhases.GetOr([])| && c.completedPhases.GetOr([])[k] != c.currentPhase ==>
              c.completedPhases.GetOr([])[k] in d.completedPhases.value
  {
    c.(currentPhase := previous, completedPhases := Some(RemoveAll(c.completedPhases.GetOr([]), c.currentPhase)))
  }

  /** `handleNextPhase` on the card of `customer`; `None` when the guard
      `if (nextPhase)` stops it, which `getNextPhase` never allows. */
  function HandleNextPhase(cache: Option<seq<CustomerData>>, customer: CustomerData): (r: Option<CardUpdate>)
    ensures r.Some?
    ensures r.value.posted == Phases.NextPhase(customer.currentPhase)
    ensures r.value.progress == EntryOf(Advanced(customer, r.value.posted))
    ensures r.value.customers == MapCustomer(cache, customer.id, (c: CustomerData) => Advanced(c, r.value.posted))
  {
    var next := Phases.NextPhase(customer.currentPhase);
    Phases.NextPhaseNonEmpty(customer.currentPhase);
    if next == "" then None
    else
      Some(CardUpdate(
        MapCustomer(cache, customer.id, (c: CustomerData) => Advanced(c, next)),
        ProgressEntry(next, customer.completedPhases.GetOr([]) + [customer.currentPhase]),
        next))
  }

  /** `handlePreviousPhase` on the card of `customer`; `None` when the guard
      `if (previousPhase)` stops it, which happens for the empty phase only. */
  function HandlePreviousPhase(cache: Option<seq<CustomerData>>, customer: CustomerData): (r: Option<CardUpdate>)
    ensures r.None? <==> customer.currentPhase == ""
    ensures r.Some? ==> r.value.posted == Phases.PreviousPhase(customer.currentPhase)
    ensures r.Some? ==> r.value.progress == EntryOf(Retreated(customer, r.value.posted))
    ensures r.Some? ==> r.value.customers == MapCustomer(cache, customer.id, (c: CustomerData) => Retreated(c, r.value.posted))
  {
    var previous := Phases.PreviousPhase(customer.currentPhase);
    Phases.PreviousPhaseEmpty(customer.currentPhase);
    if previous == "" then None
    else
      Some(CardUpdate(
        MapCustomer(cache, customer.id, (c: CustomerData) => Retreated(c, previous)),
        ProgressEntry(previous, RemoveAll(customer.completedPhases.GetOr([]), customer.currentPhase)),
        previous))
  }

  /** A click rewrites the clicked customer's cache entries and no other. */
  lemma CardTouchesOnlyItsCustomer(cache: seq<CustomerData>, customer: CustomerData, k: nat)
    requires k < |cache| && cache[k].id != customer.id
    ensures HandleNextPhase(Some(cache), customer).value.customers.value[k] == cache[k]
    ensures customer.currentPhase != "" ==> HandlePreviousPhase(Some(cache), customer).value.customers.value[k] == cache[k]
  {
  }

  /** Forward then back on a known phase returns to it (lower-cased), but
      the phase it left stays recorded as completed. */
  lemma NextThenPreviousKeepsLeftPhase(c: CustomerData)
    requires 0 <= Phases.PhaseIndex(c.currentPhase) < 4
    requires Phases.NextPhase(c.currentPhase) !in c.completedPhases.GetOr([])
    ensures var a := Advanced(c, Phases.NextPhase(c.currentPhase));
            var b := Retreated(a, Phases.PreviousPhase(a.currentPhase));
            b.currentPhase == ToLower(c.currentPhase)
            && b.completedPhases == Some(c.completedPhases.GetOr([]) + [c.currentPhase])
  {
    var next := Phases.NextPhase(c.currentPhase);
    var a := Advanced(c, next);
    Phases.PreviousAfterNext(c.currentPhase);
    NextPhaseMoves(c.currentPhase);
    assert a.completedPhases.value == c.completedPhases.GetOr([]) + [c.currentPhase];
    RemoveAllAbsent(a.completedPhases.value, next);
  }

  /** From a phase before the last, "next" leads somewhere else. */
  lemma NextPhaseMoves(p: string)
    requires 0 <= Phases.PhaseIndex(p) < 4
    ensures Phases.NextPhase(p) != p
  {
    Phases.NeighbourPhases(p);
    Phases.PhaseIndexOfSequence(Phases.PhaseIndex(p) + 1);
  }

  /** The optimistic list records the phase the customer leaves, while the
      server (`PhaseSet`) records the phase it moves to: from an empty list
      the two disagree until the cache is refetched. */
  lemma OptimisticNextDisagreesWithServer(c: CustomerData, u: Schema.User)
    requires 0 <= Phases.PhaseIndex(c.currentPhase) < 4
    requires c.completedPhases.GetOr([]) == [] && u.completedPhases == []
    ensures var next := Phases.NextPhase(c.currentPhase);
            Advanced(c, next).completedPhases == Some([c.currentPhase])
            && OnboardingRoutes.PhaseSet(u, next).completedPhases == [next]
            && next != c.currentPhase
  {
    NextPhaseMoves(c.currentPhase);
  }

  // ---------------------------------------------------------------------
  // Client: the search box
  // ---------------------------------------------------------------------

  /** `` `${firstName} ${lastName} ${email}` ``. */
  function SearchString(firstName: string, lastName: string, email: string): string {
    firstName + " " + lastName + " " + email
  }

  /** The page's test: the lower-cased search string includes the
      lower-cased term. */
  predicate MatchesTerm(c: CustomerData, term: string) {
    Includes(ToLower(SearchString(c.firstName, c.lastName, c.email)), ToLower(term))
  }

  /** `customers.filter(...)` of the tracking page. */
  function SearchCustomers(customers: seq<CustomerData>, term: string): (r: seq<CustomerData>)
    ensures IsSubsequence(r, customers)
    ensures forall k :: 0 <= k < |r| ==> MatchesTerm(r[k], term)
    ensures forall k :: 0 <= k < |customers| && MatchesTerm(customers[k], term) ==> customers[k] in r
  {
    Filter(customers, (c: CustomerData) => MatchesTerm(c, term))
  }

  /** An empty term keeps every customer, in order. */
  lemma EmptySearchKeepsAll(customers: seq<CustomerData>)
    ensures SearchCustomers(customers, "") == customers
  {
    forall k | 0 <= k < |customers|
      ensures MatchesTerm(customers[k], "")
    {
      IncludesEmpty(ToLower(SearchString(customers[k].firstName, customers[k].lastName, customers[k].email)));
    }
    FilterAll(customers, (c: CustomerData) => MatchesTerm(c, ""));
  }

  /** The case of the term does not matter. */
  lemma SearchIgnoresCase(customers: seq<CustomerData>, term: string)
    ensures SearchCustomers(customers, ToLower(term)) == SearchCustomers(customers, term)
  {
    ToLowerIdempotent(term);
    FilterSame(customers, (c: CustomerData) => MatchesTerm(c, ToLower(term)), (c: CustomerData) => MatchesTerm(c, term));
  }
}

=== FILE: tutorial_list.dfy ===
/** The tutorial player (client/src/components/dashboard/TutorialList.tsx):
    a cursor over the fetched tutorials moved by "previous", "next" and
    clicks in the sidebar, and whether the current video has been started. */
module TutorialList {
  import opened Wrappers

  /** `currentVideoIndex` and `videoStarted`. */
  datatype Cursor = Cursor(index: int, started: bool)

  const Initial: Cursor := Cursor(0, false)

  /** `isLastVideo`, with `tutorials?.length ?? 0` as `count`. */
  predicate IsLast(c: Cursor, count: nat) {
    c.index == count - 1
  }

  /** `isFirstVideo`. */
  predicate IsFirst(c: Cursor) {
    c.index == 0
  }

  /** `handleNextVideo`; the button is disabled exactly when the handler
      would do nothing. */
  function Next(c: Cursor, count: nat): (r: Cursor)
    ensures IsLast(c, count) ==> r == c
    ensures !IsLast(c, count) ==> r.index == c.index + 1 && !r.started
  {
    if !IsLast(c, count) then Cursor(c.index + 1, false) else c
  }

  /** `handlePreviousVideo`. */
  function Previous(c: Cursor): (r: Cursor)
    ensures IsFirst(c) ==> r == c
    ensures !IsFirst(c) ==> r.index == c.index - 1 && !r.started
  {
    if !IsFirst(c) then Cursor(c.index - 1, false) else c
  }

  /** A user action: the two buttons, a click on the sidebar entry at
      `index`, or a click on the thumbnail that starts the video. */
  datatype Move = NextMove | PreviousMove | Select(index: nat) | Play

  function Apply(c: Cursor, m: Move, count: nat): (r: Cursor)
    ensures m.Select? ==> r == Cursor(m.index, false)
    ensures m.Play? ==> r == c.(started := true)
  {
    match m
    case NextMove => Next(c, count)
    case PreviousMove => Previous(c)
    case Select(i) => Cursor(i, false)
    case Play => c.(started := true)
  }

  /** Every move to another video, by button or by sidebar, shows that video
      unstarted. */
  lemma MovesResetStarted(c: Cursor, m: Move, count: nat)
    requires !m.Play?
    ensures Apply(c, m, count).index != c.index ==> !Apply(c, m, count).started
    ensures m.Select? ==> !Apply(c, m, count).started
  {
  }

  /** "Previous" undoes "next" (apart from the started flag). */
  lemma PreviousUndoesNext(c: Cursor, count: nat)
    requires 0 <= c.index && !IsLast(c, count)
    ensures Previous(Next(c, count)) == c.(started := false)
  {
  }

  /** On a non-empty list the cursor stays on a tutorial: sidebar clicks
      only offer the listed ones, the buttons stop at either end. */
  lemma MoveStaysInRange(c: Cursor, m: Move, count: nat)
    requires count > 0 && 0 <= c.index < count
    requires m.Select? ==> m.index < count
    ensures 0 <= Apply(c, m, count).index < count
  {
  }

  function Run(c: Cursor, moves: seq<Move>, count: nat): Cursor
    decreases |moves|
  {
    if moves == [] then c else Run(Apply(c, moves[0], count), moves[1..], count)
  }

  /** Sidebar clicks only name listed tutorials. */
  ghost predicate ListedSelections(moves: seq<Move>, count: nat) {
    forall i :: 0 <= i < |moves| && moves[i].Select? ==> moves[i].index < count
  }

  /** From the first tutorial, any sequence of moves keeps the cursor on a
      listed tutorial. */
  lemma {:induction false} RunStaysInRange(c: Cursor, moves: seq<Move>, count: nat)
    requires count > 0 && 0 <= c.index < count && ListedSelections(moves, count)
    ensures 0 <= Run(c, moves, count).index < count
    decreases |moves|
  {
    if moves != [] {
      MoveStaysInRange(c, moves[0], count);
      assert ListedSelections(moves[1..], count) by {
        forall i | 0 <= i < |moves[1..]| && moves[1..][i].Select?
          ensures moves[1..][i].index < count
        {
          assert moves[1..][i] == moves[i + 1];
        }
      }
      RunStaysInRange(Apply(c, moves[0], count), moves[1..], count);
    }
  }

  /** With no tutorials `isLastVideo` compares the index with -1, so "next"
      stays enabled and walks the cursor off the (empty) list. */
  lemma EmptyListNextLeaves()
    ensures !IsLast(Initial, 0) && Next(Initial, 0).index == 1
  {
  }

  /** `onEnded`: the id of the tutorial to mark completed, when there is a
      current tutorial and its id is truthy (not 0). */
  function CompletionTarget(ids: seq<nat>, c: Cursor): (r: Option<nat>)
    ensures r.Some? <==> 0 <= c.index < |ids| && ids[c.index] != 0
    ensures r.Some? ==> r.value == ids[c.index] && r.value in ids
  {
    if 0 <= c.index < |ids| && ids[c.index] != 0 then Some(ids[c.index]) else None
  }

  /** With a non-empty list of stored tutorials (serial ids, never 0), a
      video that ends after any moves marks a listed tutorial completed. */
  lemma CompletionAfterRun(ids: seq<nat>, moves: seq<Move>)
    requires |ids| > 0 && forall i :: 0 <= i < |ids| ==> ids[i] != 0
    requires ListedSelections(moves, |ids|)
    ensures CompletionTarget(ids, Run(Initial, moves, |ids|)).Some?
    ensures CompletionTarget(ids, Run(Initial, moves, |ids|)).value in ids
  {
    RunStaysInRange(Initial, moves, |ids|);
  }
}

=== FILE: upload.dfy ===
/** File uploads (server/upload.ts): multer's `fileFilter` allow-lists per
    form field, the stored file name (a fresh UUID followed by the original
    name's extension as Node's `path.extname` finds it) and `uploadFile`'s
    public URL. */
module Upload {
  import opened Wrappers
  import opened Text

  const ImageTypes: seq<string> := ["image/jpeg", "image/png", "image/gif", "image/webp"]
  const VideoTypes: seq<string> := ["video/mp4", "video/webm", "video/ogg", "video/quicktime", "video/x-msvideo", "video/x-ms-wmv"]

  const InvalidImage: string := "Invalid image type. Allowed types: JPG, PNG, GIF, WEBP"
  /** `` `Invalid video type. Allowed types: ${allowedVideoTypes.join(', ')}` ``. */
  const InvalidVideo: string := "Invalid video type. Allowed types: " + JoinWith(VideoTypes, ", ")

  /** What `fileFilter` hands its callback: acceptance, or the error. */
  datatype Verdict = Accept | Reject(message: string)

  /** `fileFilter`, keyed on the form field the file came in. */
  function FileFilter(fieldname: string, mimetype: string): (v: Verdict)
    ensures fieldname == "logo" || fieldname == "thumbnail" ==> (v.Accept? <==> mimetype in ImageTypes)
    ensures fieldname == "file" ==> (v.Accept? <==> mimetype in VideoTypes)
    ensures fieldname !in {"logo", "thumbnail", "file"} ==> v.Accept?
  {
    if fieldname == "logo" then
      if mimetype in ImageTypes then Accept else Reject(InvalidImage)
    else if fieldname == "thumbnail" then
      if mimetype in ImageTypes then Accept else Reject(InvalidImage)
    else if fieldname == "file" then
      if mimetype in VideoTypes then Accept else Reject(InvalidVideo)
    else Accept
  }

  /** `allowedVideoTypes.join(', ')`. */
  function JoinWith(xs: seq<string>, sep: string): string {
    if xs == [] then "" else if |xs| == 1 then xs[0] else xs[0] + sep + JoinWith(xs[1..], sep)
  }

  /** A field's allow-list: the image and video lists share no type, so no
      file is accepted both as a logo and as a video. */
  lemma NoTypeIsImageAndVideo(mimetype: string)
    ensures !(FileFilter("logo", mimetype).Accept? && FileFilter("file", mimetype).Accept?)
  {
    if mimetype in ImageTypes {
      assert mimetype[0] == 'i';
    }
  }

  /** The path without trailing slashes. */
  function DropTrailingSlashes(p: string): (r: string)
    ensures |r| <= |p| && r == p[..|r|]
    ensures r == [] || r[|r| - 1] != '/'
  {
    if p != [] && p[|p| - 1] == '/' then DropTrailingSlashes(p[..|p| - 1]) else p
  }

  /** The last path segment, as `extname` scans it. */
  function Basename(p: string): string {
    AfterLast(DropTrailingSlashes(p), '/')
  }

  /** `path.extname` (POSIX): from the last dot of the last segment to its
      end; nothing when the segment has no dot, when its last dot is its
      first character (".profile") or when it is "..". */
  function ExtName(p: string): (e: string)
    ensures e == [] || (e[0] == '.' && Absent('.', e[1..]))
  {
    var b := Basename(p);
    var a := AfterLast(b, '.');
    AfterLastFree(b, '.');
    if |a| == |b| || |b| - |a| - 1 == 0 || b == ".." then "" else "." + a
  }

  /** `` `${randomUUID()}${path.extname(originalname)}` ``; the UUID is a
      parameter. The name starts with the UUID and, for a UUID without dots
      or slashes, has the original's extension. */
  function StoredName(uuid: string, originalname: string): (name: string)
    ensures |uuid| <= |name| && name[..|uuid|] == uuid
    ensures uuid != [] && Absent('/', uuid) && Absent('.', uuid) ==> ExtName(name) == ExtName(originalname)
  {
    UuidKeepsExtension(uuid, originalname);
    uuid + ExtName(originalname)
  }

  /** A name `stem.ext` in some directory has extension `.ext`. */
  lemma ExtNameOfFile(dir: string, stem: string, ext: string)
    requires stem != [] && Absent('/', stem) && Absent('.', stem)
    requires Absent('/', ext) && Absent('.', ext)
    ensures ExtName(dir + "/" + stem + "." + ext) == "." + ext
  {
    var name := stem + "." + ext;
    NameWithoutSlash(stem, ext);
    BasenameInDirectory(dir, name);
    assert dir + "/" + stem + "." + ext == dir + "/" + name;
    ExtensionOfName(stem, ext);
  }

  lemma NameWithoutSlash(stem: string, ext: string)
    requires Absent('/', stem) && Absent('/', ext)
    ensures Absent('/', stem + "." + ext)
  {
    AbsentConcat('/', stem, ".");
    AbsentConcat('/', stem + ".", ext);
  }

  /** The last segment of `dir/name` is `name`. */
  lemma BasenameInDirectory(dir: string, name: string)
    requires name != [] && Absent('/', name)
    ensures Basename(dir + "/" + name) == name
  {
    var p := dir + "/" + name;
    assert p[|p| - 1] == name[|name| - 1];
    assert DropTrailingSlashes(p) == p;
    assert p == dir + ['/'] + name;
    AfterLastOfTail(dir, '/', name);
  }

  /** In `stem.ext` with a dot-free, non-empty stem the last dot is the one
      after the stem. */
  lemma ExtensionOfName(stem: string, ext: string)
    requires stem != [] && Absent('.', stem) && Absent('.', ext)
    ensures var name := stem + "." + ext;
            AfterLast(name, '.') == ext && |name| - |ext| - 1 == |stem| && name != ".."
  {
    var name := stem + "." + ext;
    assert name == stem + ['.'] + ext;
    AfterLastOfTail(stem, '.', ext);
    assert name[0] == stem[0];
  }

  /** Naming a stored file after the UUID keeps the original extension:
      `extname` of the stored name is `extname` of the original. */
  lemma StoredNameKeepsExtension(uuid: string, originalname: string)
    requires uuid != [] && Absent('/', uuid) && Absent('.', uuid)
    ensures ExtName(StoredName(uuid, originalname)) == ExtName(originalname)
  {
  }

  /** The proof behind `StoredName`: a plain UUID followed by an extension
      has that extension. */
  lemma UuidKeepsExtension(uuid: string, originalname: string)
    ensures uuid != [] && Absent('/', uuid) && Absent('.', uuid) ==>
              ExtName(uuid + ExtName(originalname)) == ExtName(originalname)
  {
    var e := ExtName(originalname);
    if uuid != [] && Absent('/', uuid) && Absent('.', uuid) {
      if e == [] {
        assert uuid + e == uuid;
        NoSlashNoDot(uuid);
      } else {
        ExtNameHasNoSlash(originalname);
        AbsentSlice('/', e, 1, |e|);
        assert uuid + e == uuid + "." + e[1..];
        ExtNameOfStem(uuid, e[1..]);
      }
    }
  }

  /** A dot-free, slash-free stem followed by `.ext` has extension `.ext`. */
  lemma ExtNameOfStem(stem: string, ext: string)
    requires stem != [] && Absent('/', stem) && Absent('.', stem)
    requires Absent('/', ext) && Absent('.', ext)
    ensures ExtName(stem + "." + ext) == "." + ext
  {
    var name := stem + "." + ext;
    NameWithoutSlash(stem, ext);
    BasenameAlone(name);
    ExtensionOfName(stem, ext);
  }

  /** A slash-free name is its own last segment. */
  lemma BasenameAlone(name: string)
    requires name != [] && Absent('/', name)
    ensures Basename(name) == name
  {
    assert DropTrailingSlashes(name) == name by {
      assert name[|name| - 1] != '/';
    }
    IndexOfCharFirst(name, '/');
  }

  /** A name with neither slash nor dot has no extension. */
  lemma NoSlashNoDot(s: string)
    requires Absent('/', s) && Absent('.', s)
    ensures ExtName(s) == ""
  {
    IndexOfCharFirst(s, '.');
    if s != [] {
      BasenameAlone(s);
    }
  }

  /** The extension lies inside the last segment, so it has no slash. */
  lemma ExtNameHasNoSlash(p: string)
    ensures Absent('/', ExtName(p))
  {
    var b := Basename(p);
    var a := AfterLast(b, '.');
    AfterLastFree(DropTrailingSlashes(p), '/');
    AfterLastSuffix(b, '.');
    AbsentSlice('/', b, |b| - |a|, |b|);
    if ExtName(p) != "" {
      AbsentConcat('/', ".", a);
    }
  }

  /** What `uploadFile` returns. */
  datatype Uploaded = Uploaded(url: string, fileName: string)

  /** `uploadFile(file)`: fails with "Failed to upload file" when the stored
      file is not on disk (whether it is, is a parameter), and otherwise
      answers the public URL and the stored name. */
  function UploadFile(filename: string, existsOnDisk: bool): (r: Result<Uploaded>)
    ensures r.Failure? <==> !existsOnDisk
    ensures r.Failure? ==> r.error == "Failed to upload file"
    ensures r.Success? ==> r.value.fileName == filename && IsPrefix("/uploads/", r.value.url)
  {
    if !existsOnDisk then Failure("Failed to upload file")
    else Success(Uploaded("/uploads/" + filename, filename))
  }

  /** The last segment of the URL is the stored name, so the URL leads back
      to the file. */
  lemma UploadUrlEndsWithName(filename: string)
    requires Absent('/', filename)
    ensures AfterLast(UploadFile(filename, true).value.url, '/') == filename
  {
    assert "/uploads/" + filename == "/uploads" + ['/'] + filename;
    AfterLastOfTail("/uploads", '/', filename);
  }
}

=== FILE: wrappers.dfy ===
/** Optional values, standing in for JavaScript's `undefined`/`null` and for
    rows a query did not find, and results that are a value or an error
    message. */
module Wrappers {

  datatype Option<+T> = None | Some(value: T) {

    /** The value, or `default` when there is none (JavaScript's `x ?? default`). */
    function GetOr(default: T): T {
      match this
      case Some(v) => v
      case None => default
    }
  }

  datatype Result<+T> = Success(value: T) | Failure(error: string)
}
